=== FILE: README.md ===
# URGENT 2025 data simulation, modelled in Dafny

This project models the data-simulation core of the URGENT 2025 speech-enhancement
challenge: `simulate_data_from_param2.py`, which turns one row of a manifest into clean,
noisy and (optionally) noise recordings, and five small utility scripts that prepare its
inputs. The model covers the following.

- **Recipe reading.** The `/`-separated augmentation recipe is read with `re.fullmatch`
  templates whose greedy `(.*)` groups are modelled exactly. Steps are dispatched in the
  order the `if/elif` chain tests them. Exactly one `wind_noise` step is required for a
  wind-noise source.
- **Index-arithmetic transforms:**
  - packet loss;
  - noise alignment (wrap-padding and cropping) and SNR scaling;
  - the keyframed loudness envelope;
  - truncated convolution;
  - per-channel quantile clipping;
  - the guards of bandwidth limitation and codec compression;
  - the shelf/peak filter chain;
  - the wind-noise normalise–compress–unnormalise–clip pipeline.
- **The ffmpeg command.** The argument list and filter graph of the sidechain compressor.
- **`process_one_sample`.** It reads the text fields in the code's order, runs the loudness
  pass whose result is overwritten, and takes the RIR branch (including the aliasing of
  clean and noisy buffers when there is no RIR). It then adds noise, runs the secondary
  pass, checks the length and applies the joint 0.9 peak normalisation.
- **The registries `main` builds.** Each is a fold over `uid fs path` lines under a
  duplicate-id assertion. The wind-noise registry is merged over the noise registry.
- **The utilities:**
  - MLS segmentation: line resolution, reverse-order deletion, the triple loop, output
    paths and time truncation;
  - the FSD50K human-voice filter: ontology closure, row filtering, the train/validation
    split and json filtering;
  - EARS transcript lines;
  - json path resolution;
  - the FMA subset split: subset filter, partitions, `zfill(6)` and json-key filtering.

Python values are modelled directly:
- Strings are `seq<char>`.
- A value `ast.literal_eval` returns is a `Common.Literal`: an int, bool, float, str,
  bytes, list, tuple, set or dict, or some other value. `int()`, `float()`, iteration
  and use as an index follow Python's rules for each of them.
- Audio buffers are `seq<real>`.
- Python dictionaries are insertion-ordered association lists (`Common.Dict`). A later
  assignment wins, and an existing key keeps its place.
- Every exception the code can raise is a `Failure` of a `Result`, named after the Python
  exception.

Foreign code becomes function parameters, collected in `Pipeline.Collaborators`:
- `float()`, `int()` and `ast.literal_eval`;
- audio reading;
- the early-RIR estimator;
- voice-activity detection;
- `np.sqrt` and `10 ** (x / 20)`;
- the random generator;
- `librosa.resample`;
- `np.quantile`;
- the pedalboard filters and the MP3 codec;
- the ffmpeg run itself.

Some behaviours of the code that the model keeps:
- An unknown step name raises `NotImplementedError`. A known step whose template does
  not match raises `AttributeError`, from `None.groups()`.
- The wind-noise clipper bounds the mix by `clipping_threshold` times its minimum and
  maximum.
- A non-zero ffmpeg exit status is printed and ignored. The mix file is then read back
  as if the run had succeeded.
- The loudness transition computed on the speech never reaches the output.
- `main` cannot run without RIR files (see Findings).

## Model

| member | source | states |
|---|---|---|
| Recipe.StepsRoundTrip | simulation/simulate_data_from_param2.py:433 | splitting the recipe at `/` loses nothing: rejoining the steps gives the recipe, and slash-free steps written as a recipe read back as the same steps in the same order |
| Recipe.MatchGroupsExact | simulation/simulate_data_from_param2.py:438-442 | the backtracking search for the greedy groups finds a match exactly when some split of the text into the groups and literals exists |
| Recipe.FullMatch | simulation/simulate_data_from_param2.py:517-518 | `re.fullmatch` succeeds iff the text starts with the template's head and the rest decomposes into the groups; a match rebuilds the text and every group fits its pattern (`\d+` only digits) |
| Recipe.Groups | simulation/simulate_data_from_param2.py:442 | `match.groups()` on a failed match is the AttributeError of `None.groups()`; on success one captured text per group |
| Recipe.KindOfClassifies | simulation/simulate_data_from_param2.py:509-566 | a step is rejected iff it is neither `none`, empty, nor prefixed by one of the seven known names; the secondary pass skips exactly `none`, the empty step and the loudness and wind steps |
| Recipe.ParseStep | simulation/simulate_data_from_param2.py:509-566 | skipped steps pass; an unknown step raises `NotImplementedError` carrying its text; a known step whose template fails raises AttributeError; a bandwidth step yields the resampler name and the decimal rate it captured |
| Recipe.ReadStep | simulation/simulate_data_from_param2.py:516-564 | each kind's groups are converted in argument order, and the step succeeds iff every conversion does, carrying the converted values: `float` for clipping and codec; `int`, `int`, `float`, `float` and two `literal_eval`s for nonflat; `literal_eval` then `int` for packet loss; a bandwidth rate is the value of its digit string. A refused conversion is ValueError, except a literal that is not Python, which is SyntaxError; packet loss reports the literal's error before the duration's |
| Recipe.BandwidthStepText | simulation/simulate_data_from_param2.py:516-521 | a parsed bandwidth step reads back as its text: `bandwidth_limitation-` + resampler + `->` + a digit string whose value is the new rate |
| Recipe.LoudnessArguments | simulation/simulate_data_from_param2.py:437-449 | a loudness step whose template fails raises AttributeError; otherwise it succeeds iff all four groups are literals, giving their values in argument order, and otherwise fails with the error of the first group `literal_eval` refuses |
| Common.LiteralEval | simulation/simulate_data_from_param2.py:445-449 | `ast.literal_eval` succeeds iff the text is a literal, giving its value; text that is not Python is SyntaxError, Python that is not a literal ValueError |
| Common.LiteralEvalAll | simulation/simulate_data_from_param2.py:445-449 | evaluating texts in order succeeds iff each is a literal, giving their values; otherwise the error is that of the first refused text |
| Common.PyInt | simulation/simulate_data_from_param2.py:291 | `int(v)`: an int is itself, a bool 0 or 1, a float truncated toward zero, a string or ASCII bytes read by `int()` (ValueError when refused, and for non-ASCII bytes), anything else TypeError |
| Common.PyFloat | simulation/simulate_data_from_param2.py:291 | `float(v)` by the same rules: an int or bool is its value, a float itself, text and ASCII bytes are read by `float()` |
| Common.PyIter | simulation/simulate_data_from_param2.py:291 | iteration gives a list's, tuple's or set's items, a dict's keys, a string's one-character strings and the ints of bytes; any other value is TypeError |
| Common.AsIndex | simulation/simulate_data_from_param2.py:328-330 | a value serves as a slice bound iff it is an int (itself) or a bool (0 or 1) |
| Recipe.WindConfig | simulation/simulate_data_from_param2.py:466-498 | not exactly one `wind_noise` step is the assertion failure; a malformed one is AttributeError; otherwise it succeeds iff `float()` accepts the six numeric groups, giving threshold, ratio, attack, release, sc_gain and clipping_threshold as those floats, else ValueError; the clipping flag is true iff its captured text is non-empty (so `False` switches clipping on) |
| Recipe.WindParamsOf | simulation/simulate_data_from_param2.py:468-498 | the same rules, values and errors for the list of wind steps already selected from the recipe |
| Transforms.ScaleInverse | simulation/simulate_data_from_param2.py:186-187 | dividing by a non-zero gain undoes multiplying by it, as `wind_noise` does around the compressor |
| Transforms.ZeroSlice | simulation/simulate_data_from_param2.py:330 | `x[a:b] = 0` zeroes exactly the samples of the Python slice window and keeps the length |
| Transforms.PacketLoss | simulation/simulate_data_from_param2.py:323-331 | the length is kept; a sample becomes 0 iff it lies in the slice window of one of the lost packets, every other sample is unchanged |
| Transforms.PacketLossWindow | simulation/simulate_data_from_param2.py:328-330 | for a non-negative packet index and positive duration, every sample in `[idx·d·fs // 1000, (idx+1)·d·fs // 1000)` of the buffer is zeroed |
| Transforms.WrapPad | simulation/simulate_data_from_param2.py:95-102 | wrap-padding gives the speech's length, places the noise unchanged at `offset`, and repeats with the noise's period |
| Transforms.WrapPadUnique | simulation/simulate_data_from_param2.py:95-102 | those two facts determine the padded noise completely: any signal of that length with them is the padded noise |
| Transforms.WrapPadAt | simulation/simulate_data_from_param2.py:95-102 | sample `j` of the padded noise is `noise[(j - offset) mod len_noise]` |
| Transforms.AlignNoise | simulation/simulate_data_from_param2.py:93-105 | the aligned noise has the speech's length; equal lengths keep the noise; shorter noise is wrap-padded at `offset`; longer noise is the contiguous crop at `offset`; padding an empty noise is numpy's ValueError |
| Transforms.MaskedPower | simulation/simulate_data_from_param2.py:107-108 | the masked mean power fails iff the mask has the wrong shape or selects nothing |
| Transforms.MaskedPowerScale | simulation/simulate_data_from_param2.py:107-110 | scaling a signal by `c` scales its masked power by `c²` |
| Transforms.NoiseScale | simulation/simulate_data_from_param2.py:109 | the scale times `sqrt(max(power_noise, 1e-10))` equals `10^(-snr/20)·sqrt(power_speech)`; it fails only if that root is 0 |
| Transforms.ScaledNoise | simulation/simulate_data_from_param2.py:93-110 | the prepared noise is a constant multiple of the aligned noise and has the speech's length; empty noise against non-empty speech is ValueError |
| Transforms.ScaledNoiseRealisedSnr | simulation/simulate_data_from_param2.py:107-110 | with a true square root, the scaled noise's voiced power times the floored raw power is `amp(-snr)²·power_speech·power_noise`: the realised SNR is the requested one above the 1e-10 floor |
| Transforms.MixNoise | simulation/simulate_data_from_param2.py:81-112 | `mix_noise` succeeds iff the noise can be prepared; it returns that prepared noise and `noisy[i] = speech[i] + noise[i]` for every sample |
| Transforms.AddReverberation | simulation/simulate_data_from_param2.py:196-206 | the truncated full convolution keeps the speech's length; an empty speech or RIR is the IndexError of the 2-D slice |
| Transforms.ReverbDelayedImpulse | simulation/simulate_data_from_param2.py:203-205 | an impulse of gain `g` delayed by `d` gives `g·speech[n-d]` from `d` on and silence before |
| Transforms.ReverbUnitImpulse | simulation/simulate_data_from_param2.py:203-205 | the unit impulse `[1]` reproduces the speech exactly |
| Transforms.ConvSumCausal | simulation/simulate_data_from_param2.py:203 | output sample `n` depends only on speech samples `0..n` |
| Transforms.BandwidthLimitation | simulation/simulate_data_from_param2.py:209-228 | equal rates return the input unchanged; a higher new rate fails the assertion; otherwise the twice-resampled signal is cut to at most the input's length |
| Transforms.ClipChannel | simulation/simulate_data_from_param2.py:249 | `np.clip` keeps the length, keeps samples already within the bounds, and puts every sample within them when `lo <= hi` |
| Transforms.ClipChannelIdempotent | simulation/simulate_data_from_param2.py:249 | clipping twice with the same bounds is clipping once |
| Transforms.Clipping | simulation/simulate_data_from_param2.py:231-252 | succeeds iff both quantiles are in [0, 1] and every channel is non-empty; channel `i` is clipped between its own two quantiles |
| Transforms.ClippingPerChannel | simulation/simulate_data_from_param2.py:244-250 | a channel's clipped result depends on that channel alone |
| Transforms.FilterChain | simulation/simulate_data_from_param2.py:255-277 | low shelf, high shelf, then one peak filter per `zip` pair (as many as the shorter iteration), each value passed to `PeakFilter` as a native float; a peak list that is not iterable, or a value that is not a number, is TypeError |
| Transforms.NativeFloat | simulation/simulate_data_from_param2.py:270-272 | a native `float` argument takes an int or bool as its value and a float as itself; text or any other value is TypeError |
| Transforms.TextPeakRefused | simulation/simulate_data_from_param2.py:270-272 | a peak frequency written as the text `'1000'` makes the chain fail with TypeError, although `float()` would read it |
| Transforms.PeakFilters | simulation/simulate_data_from_param2.py:270-272 | the peak filters pair the two lists position by position; they succeed iff every value of the paired positions is an int, bool or float, and otherwise fail with TypeError |
| Transforms.RunChainAppend | simulation/simulate_data_from_param2.py:274-277 | running a chain is running its first part and then its second on the result |
| Transforms.NonflatOrder | simulation/simulate_data_from_param2.py:274-277 | the two shelves act before any peak filter |
| Transforms.CodecCompression | simulation/simulate_data_from_param2.py:308-320 | the quality must lie in [0, 10] (assertion); otherwise the codec's output |
| Transforms.Linspace | simulation/simulate_data_from_param2.py:292-298 | `np.linspace(a, b, n)` has `n` points; the first is `a` when `n >= 1` and the last is `b` when `n >= 2` (a single point is `[a]`); from 0 to 0 it is all zeros |
| Transforms.Assign | simulation/simulate_data_from_param2.py:292-298 | `env[a:b] = vals` under broadcasting: lengths must agree or `vals` be a single value (else ValueError); only the slice window changes |
| Transforms.ApplyKeyframe | simulation/simulate_data_from_param2.py:291-298 | one group fails with ValueError iff a ramp length is negative or a ramp does not broadcast into its window; on success `[peak:end]` holds the falling ramp `amp(linspace(gain_db, 0, end - peak))`, the rest of `[start:peak]` the rising ramp `amp(linspace(0, gain_db, peak - start))` (a one-point ramp fills its window), and every other sample is unchanged |
| Transforms.ApplyKeyframeRamps | simulation/simulate_data_from_param2.py:291-298 | on four samples of ones, a group `(0, 2, 3, g)` writes the gains of 0 dB and `g` over `[0:2]`, the gain of `g` at sample 2, and keeps sample 3 |
| Transforms.ApplyKeyframeShape | simulation/simulate_data_from_param2.py:291-298 | whether a group succeeds, and what it writes, does not depend on the envelope it writes into |
| Transforms.Zip4 | simulation/simulate_data_from_param2.py:291 | `zip` of the four lists is as long as the shortest, row `i` holding the `i`-th element of each |
| Transforms.Envelope | simulation/simulate_data_from_param2.py:290-298 | groups applied in list order keep the length and leave every sample no group covers as it was |
| Transforms.EnvelopeAppend | simulation/simulate_data_from_param2.py:291 | applying two lists of groups is applying their concatenation |
| Transforms.EnvelopeAgrees | simulation/simulate_data_from_param2.py:291-298 | two envelopes run through the same groups succeed together and agree wherever the groups write or where they already agreed |
| Transforms.LaterGroupsWin | simulation/simulate_data_from_param2.py:291-298 | where a later group writes, the earlier groups and the starting envelope leave no trace |
| Transforms.LoudnessRows | simulation/simulate_data_from_param2.py:291 | each of the four values is iterated as Python iterates it (items of a list, tuple or set, a dict's keys, a string's characters, the ints of bytes); any of them not iterable is TypeError; the rows are the `zip` of the four iterations |
| Transforms.LoudnessRowsIterate | simulation/simulate_data_from_param2.py:290-291 | the rows stop at the shortest iteration: a two-character string, a list of one bool, a set and a dict give one row holding the first character, the bool, the set's int and the dict's key |
| Transforms.LoudnessTransition | simulation/simulate_data_from_param2.py:280-305 | the signal times the envelope grown from ones; samples no group covers are unchanged |
| Transforms.LoudnessZeroGainIdentity | simulation/simulate_data_from_param2.py:280-305 | a transition whose every gain is 0 dB returns the signal unchanged |
| Transforms.PeakAbs | simulation/simulate_data_from_param2.py:573-575 | `np.max(np.abs(x))` fails (ValueError) iff the signal is empty |
| Transforms.PeakAbsBounds | simulation/simulate_data_from_param2.py:573-575 | the peak is non-negative, bounds every sample's magnitude and is attained |
| Transforms.JointPeak | simulation/simulate_data_from_param2.py:572-576 | the maximum of the peaks fails iff some signal is empty; it bounds every peak and equals one of them |
| Transforms.PeakGain | simulation/simulate_data_from_param2.py:572-576 | `0.9 / peak` fails iff a signal is empty or all are silent |
| Transforms.PeakGainNormalises | simulation/simulate_data_from_param2.py:572-579 | after scaling by the joint gain no sample of any signal exceeds 0.9 in magnitude and the loudest is exactly 0.9 |
| Transforms.MinOfBounds | simulation/simulate_data_from_param2.py:190 | `np.min` is below every sample and attained |
| Transforms.MaxOfBounds | simulation/simulate_data_from_param2.py:191 | `np.max` is above every sample and attained |
| Transforms.MaxOfRaised | simulation/simulate_data_from_param2.py:190-191 | the maximum of the lower-clipped mix is the larger of the bound and the original maximum |
| Transforms.WindClip | simulation/simulate_data_from_param2.py:189-191 | the clipper fails on an empty mix (no minimum) and keeps the length |
| Transforms.WindClipClosedForm | simulation/simulate_data_from_param2.py:189-191 | every sample is clipped to `[lo, ct·max(lo, max(mix))]` with `lo = ct·min(mix)`: the upper bound sees the already raised mix |
| Transforms.WindClipUnitThreshold | simulation/simulate_data_from_param2.py:189-191 | with threshold 1 the clipper changes nothing |
| Transforms.WindClipBounds | simulation/simulate_data_from_param2.py:189-191 | for a threshold in [0, 1] and a mix crossing zero, the result lies between the scaled minimum and maximum of the original |
| Transforms.WindNoise | simulation/simulate_data_from_param2.py:115-193 | succeeds only when the noise can be prepared and jointly normalised; the caller's speech buffer ends scaled by the joint gain; a clipped mix is the clipper's output; with a lossless wav round trip the returned noise is exactly the prepared noise |
| Transforms.WindStages | simulation/simulate_data_from_param2.py:156-193 | the stages after the gain is known: the carrier is the gain times the speech, and the unscaling restores the prepared noise |
| FFmpeg.BuildFFmpegCommand | simulation/simulate_data_from_param2.py:45-75 | eleven words: `ffmpeg -y -loglevel quiet`, the speech then the noise after `-i`, `-filter_complex` followed by the filter graph of the options, and the output path last |
| FFmpeg.CommandLine | simulation/simulate_data_from_param2.py:60-75 | the argument vector carries the fixed flags, the filter graph in its `-filter_complex` slot and the two inputs in order |
| FFmpeg.CommandCarriesOptions | simulation/simulate_data_from_param2.py:45-75 | when no rendered option holds `:`, the word after `-filter_complex` reads back as exactly the five compressor options |
| FFmpeg.FilterGraphRoundTrip | simulation/simulate_data_from_param2.py:47-58 | the compressor options read back out of the filter graph are the five options, under ffmpeg's names and in the graph's order, when no rendered number holds `:` |
| FFmpeg.ReadBack | simulation/simulate_data_from_param2.py:47-58 | any option list whose keys hold no `=` or `:` and whose values hold no `:` is read back from the graph built around it |
| Pipeline.LoudnessPass | simulation/simulate_data_from_param2.py:436-450 | the loudness pass keeps the length and, with no loudness step, returns the speech |
| Pipeline.Reverberate | simulation/simulate_data_from_param2.py:452-461 | `none` shares one buffer for clean and noisy; a RIR uid without a registry is TypeError, an unknown uid is KeyError naming it; a successful RIR branch gives two separate buffers of the speech's length |
| Pipeline.Seed | simulation/simulate_data_from_param2.py:463 | the seed is `int` of the last `_`-separated piece of the uid; a negative or non-numeric one is ValueError |
| Pipeline.Offset | simulation/simulate_data_from_param2.py:93-105 | the offset lies in the range `rng.integers` draws from, and is 0 when the lengths agree |
| Pipeline.AddNoise | simulation/simulate_data_from_param2.py:466-506 | a wind-noise source without exactly one wind step fails the assertion; any other source is additive mixing |
| Pipeline.AdditiveMix | simulation/simulate_data_from_param2.py:503-506 | `mix_noise` leaves the clean speech alone and gives noisy and noise buffers of the noisy speech's length |
| Pipeline.WindMix | simulation/simulate_data_from_param2.py:487-501 | with a RIR the clean buffer is untouched; without one the clean buffer is the noisy buffer scaled in place by the joint gain; a clipped mix is the clipper's output |
| Pipeline.PacketIndices | simulation/simulate_data_from_param2.py:559-563 | the packet indices succeed iff the literal is iterable and every element is an int or bool; they are those elements' integer values, in iteration order; otherwise TypeError |
| Pipeline.IntItems | simulation/simulate_data_from_param2.py:327-330 | every item must serve as an integer index (an int, or a bool as 0 or 1), else TypeError; the list keeps their values in order |
| Pipeline.PacketIndicesIterate | simulation/simulate_data_from_param2.py:559-563 | `[True]` gives index 1, a dict gives its keys, an empty string no indices, and a non-empty string TypeError |
| Pipeline.ApplyStep | simulation/simulate_data_from_param2.py:516-564 | each parsed step applies its transform's guards: equal rates identity, higher rate assertion, quantiles in [0, 1] on a non-empty signal, codec quality in [0, 10], packet loss keeps the length |
| Pipeline.SecondaryPass | simulation/simulate_data_from_param2.py:509-566 | success means no step was unknown; a recipe of skipped steps leaves the noisy speech as it was |
| Pipeline.SecondaryPassAppend | simulation/simulate_data_from_param2.py:509 | the steps run in recipe order: two recipes in a row are their concatenation |
| Pipeline.SecondaryPassIgnoresLoudness | simulation/simulate_data_from_param2.py:512-513 | dropping the loudness steps does not change the secondary pass |
| Pipeline.Simulate | simulation/simulate_data_from_param2.py:433-566 | a failing loudness step fails the sample before the RIR uid is read; success means no unknown step, one wind step for a wind source, and a registered RIR uid |
| Pipeline.Mix | simulation/simulate_data_from_param2.py:452-566 | everything after the loudness pass keeps the same three guarantees |
| Pipeline.LoudnessResultOverwritten | simulation/simulate_data_from_param2.py:443-461 | once the loudness pass succeeds, the sample is the one the recipe without its loudness steps gives: the transition never reaches the output |
| Pipeline.MixIgnoresLoudness | simulation/simulate_data_from_param2.py:452-566 | the stages after the loudness pass do not depend on the loudness steps |
| Pipeline.AddNoiseReadsWindSteps | simulation/simulate_data_from_param2.py:466-506 | the noise stage sees the recipe only through its wind steps |
| Pipeline.WindStepsKept | simulation/simulate_data_from_param2.py:468 | removing the loudness steps keeps the wind steps, in order |
| Pipeline.Normalise | simulation/simulate_data_from_param2.py:571-581 | fails iff a buffer is empty or all three are silent; otherwise one positive gain scales all three buffers, the loudest sample is exactly 0.9 and none exceeds it; the noise is saved only when stored |
| Pipeline.JointPeakSilent | simulation/simulate_data_from_param2.py:572-576 | the joint peak is zero iff every buffer is silent |
| Pipeline.Finish | simulation/simulate_data_from_param2.py:568-581 | nothing is written unless the noisy length equals the row's `length` and normalisation succeeds; every written sample is within 0.9; a row without `clean_path` writes nothing and raises its KeyError; a row without `noisy_path` writes only the clean file and raises KeyError; on success two files (three when the noise is stored) under the row's paths, the noisy one of the mixture's length |
| Pipeline.Checked | simulation/simulate_data_from_param2.py:568-576 | the noisy length must equal the row's `length`; then the normalisation |
| Pipeline.Save | simulation/simulate_data_from_param2.py:578-581 | the saves run in order, each reading its path from the row; they all happen iff every path key is present; otherwise the first missing key is the KeyError and exactly the saves before it are written |
| Pipeline.SaveOutputs | simulation/simulate_data_from_param2.py:578-581 | saving normalised outputs writes clean, noisy and (when stored) noise under `clean_path`, `noisy_path` and `noise_path`; a missing `clean_path` writes nothing; a missing `noisy_path` writes only the clean file |
| Pipeline.ReadSample | simulation/simulate_data_from_param2.py:421-428 | a missing `id` is the first KeyError; a success means both uids are registered |
| Pipeline.ProcessOneSample | simulation/simulate_data_from_param2.py:413-581 | a row without `id` fails with KeyError on it and writes nothing; every written sample is within 0.9; a row without `clean_path` never succeeds or writes; any write means the recipe had no unknown step; a success writes two files (three when the noise is stored) under the row's paths, the noisy one of the length the row declares |
| Pipeline.SimulateRow | simulation/simulate_data_from_param2.py:413-566 | a row without `id` fails with KeyError on it; a simulated mixture means every recipe step was known |
| Registry.ParseLine | simulation/simulate_data_from_param2.py:360 | a line unpacks iff it has exactly three words (else ValueError), giving uid and path |
| Registry.AddLines | simulation/simulate_data_from_param2.py:357-362 | the fold succeeds iff every line has three words and no uid repeats or is already present; then the registry is the old one followed by one entry per line, in order, with unique uids |
| Registry.RegistrableStep | simulation/simulate_data_from_param2.py:359-362 | registering a first line and then the rest against the grown registry is registering all the lines |
| Registry.ReadScpsIsOneFile | simulation/simulate_data_from_param2.py:357-362 | reading the files one by one is reading their lines as one file: the duplicate check spans files |
| Registry.AddLinesAppend | simulation/simulate_data_from_param2.py:359-362 | folding two batches of lines is folding the first and then the second |
| Registry.Update | simulation/simulate_data_from_param2.py:381 | `d.update(e)` has the keys of both; keys of `e` take `e`'s value, the others keep theirs |
| Registry.UpdateKeepsPlaces | simulation/simulate_data_from_param2.py:381 | keys already present keep their places; new keys come after them |
| Registry.BuildRegistriesAsWritten | simulation/simulate_data_from_param2.py:355-392 | as written, `main` fails whenever no RIR files are given, and otherwise builds the intended registries |
| Registry.BuildRegistries | simulation/simulate_data_from_param2.py:355-392 | succeeds iff every file set folds; the RIR registry is present iff RIR files were given; the noise registry holds noise and wind uids, a wind path winning |
| Registry.AsWrittenRejectsMissingRir | simulation/simulate_data_from_param2.py:383-392 | with no files at all, the code as written raises TypeError where the intended result is empty registries without a RIR registry |
| Common.Tokens | utils/get_ears_transcript.py:38 | `str.split()` gives non-empty whitespace-free words, and none at all exactly when the text is all whitespace |
| Common.SplitJoin | utils/segment_mls.py:28 | splitting undoes joining when no piece holds the separator |
| Common.FromPairs | utils/resolve_file_path.py:32-35 | assigning pairs in order gives unique keys, exactly the keys assigned, and for each key the value of its last assignment |
| Common.Put | utils/resolve_file_path.py:51 | `d[k] = v` sets `k` to `v`, appends a new key at the end, keeps an existing key's place and changes no other key |
| Common.PickKeys | utils/get_fma_subset_split.py:112-115 | the copy holds exactly the listed keys the dict has, with the dict's values |
| Common.PickKeysOrder | utils/get_fma_subset_split.py:112-115 | with distinct listed keys the copy lists the present ones in the order given |
| Common.Select | utils/resolve_file_path.py:44-51 | a filtering comprehension keeps only elements of the input that pass, and every element that passes |
| Common.SelectAppend | utils/resolve_file_path.py:44-51 | selection distributes over concatenation |
| Common.PySlice | utils/segment_mls.py:26 | `s[a:b]` with Python's negative indices and clamping |
| Paths.Name | utils/segment_mls.py:90 | `path.name` holds no `/` and is empty exactly when the path has no component |
| Paths.StemSuffix | utils/resolve_file_path.py:35 | a name is its stem followed by its suffix |
| Paths.JsonSuffix | utils/resolve_file_path.py:37 | a name has suffix `.json` iff it ends in `.json` with something non-dot before it |
| SegmentMls.SecToSample | utils/segment_mls.py:11-12 | `int(float(s) * rate)` truncates toward zero; text `float` rejects is ValueError |
| SegmentMls.SecToMs | utils/segment_mls.py:15-16 | `int(float(s) * 1000)` truncates toward zero |
| SegmentMls.TruncationUnique | utils/segment_mls.py:11-16 | only one integer truncates a given number |
| SegmentMls.FirstChannel | utils/segment_mls.py:21 | `audio[:, 0]` has one sample per frame, that frame's first; no channel is IndexError |
| SegmentMls.OutputPath | utils/segment_mls.py:28-31 | the path is output dir / text before the first `_` / the second `_`-piece / `ids.flac`; an id without `_` is IndexError |
| SegmentMls.FirstPieces | utils/segment_mls.py:28-29 | the first two pieces of a split are the text before the first separator and the next separator-free run |
| SegmentMls.ProcessAudio | utils/segment_mls.py:19-35 | the segment is the first channel's samples in the clamped window `[start_sample:end_sample]`, written under the id's path at the file's rate |
| SegmentMls.ProcessLine | utils/segment_mls.py:63-82 | an empty line is IndexError; without an error the parts are the path plus whole triples; write `k` is cut from `parts[1 + 3k .. 3 + 3k]`; an exception keeps the writes made before it and is the error of the first triple that failed or was cut short |
| SegmentMls.ProcessTriples | utils/segment_mls.py:76-82 | the triples are taken in order from index `i`; the writes of the triples before the first failing one are kept; a trailing partial triple is IndexError |
| SegmentMls.PartialTripleKeepsEarlier | utils/segment_mls.py:63-82 | a line with one whole triple and then two words writes the first segment and then raises IndexError |
| SegmentMls.MarkLine | utils/segment_mls.py:98-109 | a blank line is IndexError; a line is resolved iff its first word names a recording, and then only that word is replaced by the path; otherwise it is kept as it was for deletion |
| SegmentMls.UnresolvedIndices | utils/segment_mls.py:96-109 | the recorded indices ascend and each marks an unresolved line |
| SegmentMls.MarkLines | utils/segment_mls.py:97-109 | every line marked, in order; fails iff some line is blank |
| SegmentMls.DeleteReversed | utils/segment_mls.py:111-112 | deleting the indices from the back removes exactly as many lines as there are indices |
| SegmentMls.DeleteUnresolved | utils/segment_mls.py:111-112 | deleting the recorded indices from the back leaves exactly the resolved lines, in their order |
| SegmentMls.RecordingNames | utils/segment_mls.py:88-91 | one entry per distinct file name |
| SegmentMls.ResolveLines | utils/segment_mls.py:85-112 | the lines handed to the workers are the resolved lines in file order |
| SegmentMls.ResolvedLine | utils/segment_mls.py:88-107 | a line whose first word is a recording's name keeps its other words, with the first replaced by the last recording of that name |
| SegmentMls.UnresolvedLine | utils/segment_mls.py:104-109 | a line naming no recording is left for deletion |
| Fsd50k.Children | utils/filter_fsd50k_human_voice.py:20-21 | a class not in the ontology has no children |
| Fsd50k.Collect | utils/filter_fsd50k_human_voice.py:19-24 | an unknown class contributes nothing; running out of recursion depth is RecursionError |
| Fsd50k.CollectChildrenFirst | utils/filter_fsd50k_human_voice.py:20-24 | a class's own children come first, in `child_ids` order |
| Fsd50k.CollectAllOk | utils/filter_fsd50k_human_voice.py:26-27 | collecting for a list succeeds iff it succeeds for each member |
| Fsd50k.CollectIsDescendants | utils/filter_fsd50k_human_voice.py:19-24 | a successful walk from `a` lists exactly the classes one or more `child_ids` steps below `a` |
| Fsd50k.CollectChildIds | utils/filter_fsd50k_human_voice.py:16-28 | `collect_all_child_ids` holds exactly the classes below one of the ancestors |
| Fsd50k.CycleExhaustsDepth | utils/filter_fsd50k_human_voice.py:19-24 | a class below itself exhausts any recursion limit |
| Fsd50k.FilterWithId | utils/filter_fsd50k_human_voice.py:34-39 | a row is flagged iff one of its comma-separated labels is in the list |
| Fsd50k.RemoveSpeech | utils/filter_fsd50k_human_voice.py:30-43 | succeeds iff the closure does; keeps exactly the rows not flagged, in order |
| Fsd50k.RemoveSpeechKeeps | utils/filter_fsd50k_human_voice.py:30-43 | a row survives iff none of its labels lies below a voice class (an ancestor label alone is kept) |
| Fsd50k.RemoveSpeechInOrder | utils/filter_fsd50k_human_voice.py:41 | removal distributes over concatenation, so survivors keep their order |
| Fsd50k.SplitTrainVal | utils/filter_fsd50k_human_voice.py:46-49 | the first part holds exactly the `train` rows and the second exactly the `val` rows, each in input order |
| Fsd50k.SplitTrainValPartition | utils/filter_fsd50k_human_voice.py:46-49 | a row is in neither part iff its split is neither `train` nor `val`; no row is in both |
| Fsd50k.SplitTrainValInOrder | utils/filter_fsd50k_human_voice.py:46-49 | splitting two batches of rows is splitting each and concatenating the parts, so each part keeps input order |
| Fsd50k.PartJson | utils/filter_fsd50k_human_voice.py:78-82 | the json of a part has unique keys, exactly the part's fnames that are json keys, with the json's values |
| Fsd50k.Run | utils/filter_fsd50k_human_voice.py:61-94 | the two files are the jsons of the train and val rows that survive the voice filter |
| Fsd50k.RunWritesOnlyKeptClips | utils/filter_fsd50k_human_voice.py:72-85 | every key written to the train file is a json key and the fname of a `train` row |
| Ears.Uid | utils/get_ears_transcript.py:38 | the uid is the first word; a line of fewer than two words is ValueError |
| Ears.SpeakerFree | utils/get_ears_transcript.py:40 | the uid after its first `_`, or the whole uid without one |
| Ears.Transcript | utils/get_ears_transcript.py:43-46 | the stored transcript when the id is present, `<not-available>` otherwise |
| Ears.OutputLine | utils/get_ears_transcript.py:38-48 | `uid + " " + transcript + "\n"`; fails iff the line has fewer than two words |
| Ears.OutputLineReadsBack | utils/get_ears_transcript.py:48 | the uid is the text before the first space, and the transcript sits between it and the final newline |
| Ears.Run | utils/get_ears_transcript.py:34-48 | one output line per input line, in order, stopping at the first line with fewer than two words, with its ValueError |
| Ears.RunWith | utils/get_ears_transcript.py:36-48 | the `with open` loop writes each line's output in turn; it stops at the first line whose output raises, with that exception and the lines written before it |
| ResolvePaths.AudioPaths | utils/resolve_file_path.py:32-35 | the stem map has one key per stem and the path of the last file with that stem |
| ResolvePaths.CheckJsonFile | utils/resolve_file_path.py:37-41 | a json file name without suffix `.json` is RuntimeError |
| ResolvePaths.ReplaceFirst | utils/resolve_file_path.py:47 | `this_data[0] = path` replaces element 0 and keeps the rest; an empty list is IndexError, a non-list TypeError |
| ResolvePaths.Resolve | utils/resolve_file_path.py:43-51 | succeeds iff every kept entry has an element 0; otherwise the error is that of the first kept entry without one (IndexError for an empty list, TypeError for a non-list); the output has one resolved entry per input entry whose key is a stem, in input order |
| ResolvePaths.ResolveStopsAtFirst | utils/resolve_file_path.py:43-51 | with an empty list before a non-list, the run stops at the empty list with IndexError |
| ResolvePaths.Run | utils/resolve_file_path.py:32-51 | the suffix check comes before any entry is touched |
| ResolvePaths.ResolvedEntry | utils/resolve_file_path.py:32-51 | a kept key's entry is the input entry with only element 0 replaced, by the path of the last file with that stem |
| ResolvePaths.ResolveUnique | utils/resolve_file_path.py:43-51 | the output keys are unique and are exactly the input keys that have a file, in input order |
| FmaSplit.CollectMetadata | utils/get_fma_subset_split.py:77-90 | three entries `train`, `validation`, `test`, each with the ids of the medium and small tracks of its metadata split |
| FmaSplit.CollectLookup | utils/get_fma_subset_split.py:84-88 | looking up each output name gives the ids of its metadata split |
| FmaSplit.SplitIdsHas | utils/get_fma_subset_split.py:80-88 | an id is listed for a split iff some medium or small track of that split has it |
| FmaSplit.ZFill | utils/get_fma_subset_split.py:113 | `zfill` gives length `max(|s|, width)`, leaves longer texts unchanged, and otherwise inserts zeros after a leading sign |
| FmaSplit.IntText | utils/get_fma_subset_split.py:113 | `str` of an int: the digits, after `-` for a negative |
| FmaSplit.PaddedValue | utils/get_fma_subset_split.py:113 | a padded non-negative id is a digit string whose value is the id; a negative one is `-` and the digits of its magnitude |
| FmaSplit.PaddedInjective | utils/get_fma_subset_split.py:113 | different ids give different json keys |
| FmaSplit.OutputFile | utils/get_fma_subset_split.py:109-120 | one output file: its name and the json entries under the padded ids of its split |
| FmaSplit.Run | utils/get_fma_subset_split.py:108-120 | two files, `fma_noise_train.json` then `fma_noise_validation.json` |
| FmaSplit.RunKeys | utils/get_fma_subset_split.py:108-120 | test is never written; a key is in a file iff it is a json key and the padded id of a medium or small track of that split, with the json's value |
| FmaSplit.RunOrder | utils/get_fma_subset_split.py:111-115 | with distinct track ids, a file lists its keys in track order |

## Left out

- File I/O is left to the caller: audio reading and writing, json/csv/scp reading, temporary
  files and directory creation. The model works on the values read and returns what would
  be written, and under which path. The sample rate passed to `save_audio` is not recorded.
- `process_map`, `ProcessPoolExecutor`, `tqdm` and `argparse` are concurrency and plumbing
  with no logic of their own.
- Foreign libraries are uninterpreted function parameters: `librosa.resample`, pedalboard's
  filters and MP3 codec, `detect_non_silence`, `estimate_early_rir`, `np.quantile`,
  `np.sqrt`, `10 ** (x / 20)` and the ffmpeg sidechain compressor. Nothing about their
  numeric accuracy is claimed.
- Floating point is `real`. Infinite and NaN results that numpy produces with a warning
  (`0.9 / 0`, the mean of an empty mask) are modelled as the failure `NonFinite`, not as
  non-finite samples flowing on.
- How Python renders a float inside the ffmpeg filter string is the parameter `fmt`.
- The wav write-and-read of the compressor's inputs and output is the parameter
  `wavRoundTrip`; its exact quantisation is not modelled.
- `subprocess.run`'s exit status is not modelled: the code only prints a message and carries on.
- `rng.integers(0, bound)` is a function of the seed and bound (`Collaborators.draw`),
  assumed to lie in `[0, bound)`.
- `pathlib` is modelled on POSIX path text (components, name, stem, suffix); `rglob`
  ordering is the given order of the files.
- The MLS script's workers are modelled one line at a time: each line's writes, up to the
  exception that stops it, and that exception. Their parallel execution is not modelled.
  Because the pool's results are never read, a failing line does not stop the others.
- Recipe.FullMatch: `\d` matches the ASCII digits only. Python's `\d` on a `str` also
  matches other Unicode decimal digits, which `int()` then reads; the Unicode character
  table is outside the model.
- `float()` of text such as `inf` or `nan` gives a non-finite float in Python. The parser
  parameter can only give a real or refuse, so such values are not modelled.
- The iteration order of a set that `ast.literal_eval` builds is the order the parser
  parameter lists its items in; Python's hash order is not modelled.
- Fsd50k.Collect: Python's recursion limit is a depth parameter; a walk deeper than the
  limit is `RecursionError`.
- Fsd50k: `str(fname)` is the text of the `fname` column as given.
- pandas' `load()` column typing in the FMA script is not modelled. Track rows come
  already typed: an integer id, a subset and a split.
- ResolvePaths.ReplaceFirst: a json object under `this_data[0] = ...` would be assigned
  under key `0` in Python. The model treats every non-list entry as TypeError.
- `nonflat_frequency_response` and `codec_compression` are modelled only up to the filter
  chain and the quality assertion; the filters and codec are foreign.
- utils/compare_soundfile_pydub.py is not part of this model. It only reads files and sums
  absolute float differences.
- Fsd50k.CollectChildrenFirst states only that a class's own children come first; the
  order of deeper classes is the definition of `Collect` itself (children, then each
  child's collection in turn).
- Transforms.WindNoise: states the compressor's output only through `WindClip` and the
  scale; the compressor itself is foreign.

## Findings

| source | as written | input that shows it | evidently intended | confidence | as-written member | corrected member |
|---|---|---|---|---|---|---|
| simulation/simulate_data_from_param2.py:383-392 | `rir_dic = dict(rir_dic)` runs even when `rir_dic` is still `None`, and `dict(None)` raises TypeError | `rir_scps` is None (no RIR files given), with empty speech, noise and wind file lists | leave the RIR registry absent; `process_one_sample` already takes `rir_dic=None` | not executed | Registry.BuildRegistriesAsWritten (shown by Registry.AsWrittenRejectsMissingRir) | Registry.BuildRegistries |

=== FILE: common.dfy ===
/** Shared vocabulary: the Python exceptions the scripts can raise, a failure-compatible
    result type, and the handful of Python string, slice and dict behaviours the scripts
    lean on (str.split, str.split(), slicing with clamping, int() of a float, dict insertion
    order). */
module Common {

  datatype Option<T> = None | Some(value: T)

  /** The exceptions (and the one silent numeric degeneracy) that end a run. */
  datatype Error =
    | KeyError(key: string)
    | IndexError
    | ValueError
    | TypeError
    | AssertionError
    | AttributeError          // `None.groups()` after a failed `re.fullmatch`
    | SyntaxError             // `ast.literal_eval` of text that is not Python
    | NotImplementedError(step: string)
    | RuntimeError
    | RecursionError
    | NonFinite               // numpy divides by zero or averages nothing: inf/nan, not an exception

  datatype Result<T> = Ok(value: T) | Failure(error: Error) {
    predicate IsFailure() { Failure? }
    function PropagateFailure<U>(): Result<U>
      requires Failure?
    {
      Failure(error)
    }
    function Extract(): T
      requires Ok?
    {
      value
    }
  }

  function Need(cond: bool, e: Error): Result<()>
  {
    if cond then Ok(()) else Failure(e)
  }

  /* ---------------------------------------------------------------------------------------
     Strings
     --------------------------------------------------------------------------------------- */

  predicate StartsWith(s: string, prefix: string)
  {
    |prefix| <= |s| && s[..|prefix|] == prefix
  }

  predicate EndsWith(s: string, suffix: string)
  {
    |suffix| <= |s| && s[|s| - |suffix|..] == suffix
  }

  /** `sep.join(parts)` */
  function Join(parts: seq<string>, sep: char): string
  {
    if |parts| == 0 then ""
    else if |parts| == 1 then parts[0]
    else parts[0] + [sep] + Join(parts[1..], sep)
  }

  /** `s.split(sep)` for a one-character separator: never empty, keeps empty pieces. */
  function Split(s: string, sep: char): (parts: seq<string>)
    ensures |parts| >= 1
    ensures forall i :: 0 <= i < |parts| ==> sep !in parts[i]
    ensures Join(parts, sep) == s
    decreases |s|
  {
    if |s| == 0 then [""]
    else
      var rest := Split(s[1..], sep);
      if s[0] == sep then
        [""] + rest
      else
        assert Join(rest, sep) == rest[0] + (if |rest| == 1 then "" else [sep] + Join(rest[1..], sep));
        [[s[0]] + rest[0]] + rest[1..]
  }

  lemma {:induction false} SplitNoSep(a: string, sep: char)
    requires sep !in a
    ensures Split(a, sep) == [a]
    decreases |a|
  {
    if |a| > 0 {
      SplitNoSep(a[1..], sep);
    }
  }

  lemma {:induction false} SplitAtSep(a: string, b: string, sep: char)
    requires sep !in a
    ensures Split(a + [sep] + b, sep) == [a] + Split(b, sep)
    decreases |a|
  {
    if |a| > 0 {
      var s := a + [sep] + b;
      assert s[1..] == a[1..] + [sep] + b;
      SplitAtSep(a[1..], b, sep);
      var rest := Split(s[1..], sep);
      assert rest[0] == a[1..] && rest[1..] == Split(b, sep);
      assert [s[0]] + rest[0] == a;
    } else {
      assert a + [sep] + b == [sep] + b;
      assert ([sep] + b)[1..] == b;
    }
  }

  /** Splitting undoes joining when no piece holds the separator. */
  lemma {:induction false} SplitJoin(parts: seq<string>, sep: char)
    requires |parts| >= 1
    requires forall i :: 0 <= i < |parts| ==> sep !in parts[i]
    ensures Split(Join(parts, sep), sep) == parts
    decreases |parts|
  {
    if |parts| == 1 {
      SplitNoSep(parts[0], sep);
    } else {
      SplitJoin(parts[1..], sep);
      SplitAtSep(parts[0], Join(parts[1..], sep), sep);
      assert [parts[0]] + parts[1..] == parts;
    }
  }

  /** Position of the first `c` in `s`. */
  function IndexOf(s: string, c: char): (i: nat)
    requires c in s
    ensures i < |s| && s[i] == c && c !in s[..i]
  {
    if s[0] == c then 0 else 1 + IndexOf(s[1..], c)
  }

  /** `s.split(sep, 1)[-1]`: the text after the first separator, or all of `s`. */
  function AfterFirst(s: string, sep: char): string
  {
    if sep in s then s[IndexOf(s, sep) + 1..] else s
  }

  /** The whitespace of Python's `str.split()` / `str.strip()`. */
  predicate IsSpace(c: char)
  {
    c == ' ' || c == '\t' || c == '\n' || c == '\r' || c == '\U{B}' || c == '\U{C}'
    || ('\U{1C}' <= c <= '\U{1F}') || c == '\U{85}' || c == '\U{A0}' || c == '\U{1680}'
    || ('\U{2000}' <= c <= '\U{200A}') || c == '\U{2028}' || c == '\U{2029}' || c == '\U{202F}'
    || c == '\U{205F}' || c == '\U{3000}'
  }

  predicate IsWord(w: string)
  {
    |w| > 0 && forall i :: 0 <= i < |w| ==> !IsSpace(w[i])
  }

  /** Length of the run of non-whitespace characters at the front of `s`. */
  function WordLength(s: string): (n: nat)
    ensures n <= |s|
    ensures forall i :: 0 <= i < n ==> !IsSpace(s[i])
    ensures n < |s| ==> IsSpace(s[n])
    decreases |s|
  {
    if |s| == 0 || IsSpace(s[0]) then 0 else 1 + WordLength(s[1..])
  }

  /** `s.split()` (equivalently `s.strip().split()`): the maximal whitespace-free runs. */
  function Tokens(s: string): (ts: seq<string>)
    ensures forall i :: 0 <= i < |ts| ==> IsWord(ts[i])
    ensures |ts| == 0 <==> forall i :: 0 <= i < |s| ==> IsSpace(s[i])
    decreases |s|
  {
    if |s| == 0 then []
    else if IsSpace(s[0]) then Tokens(s[1..])
    else
      var n := WordLength(s);
      [s[..n]] + Tokens(s[n..])
  }

  lemma {:induction false} WordLengthOfWord(w: string, rest: string)
    requires IsWord(w)
    requires |rest| > 0 && IsSpace(rest[0])
    ensures WordLength(w + rest) == |w|
    decreases |w|
  {
    if |w| > 1 {
      assert (w + rest)[1..] == w[1..] + rest;
      WordLengthOfWord(w[1..], rest);
    } else {
      assert (w + rest)[1..] == rest;
    }
  }

  /** A word followed by whitespace is the first token, and tokenising resumes after it. */
  lemma TokensAfterWord(w: string, rest: string)
    requires IsWord(w)
    requires |rest| > 0 && IsSpace(rest[0])
    ensures Tokens(w + rest) == [w] + Tokens(rest)
  {
    WordLengthOfWord(w, rest);
    assert (w + rest)[..|w|] == w;
    assert (w + rest)[|w|..] == rest;
  }

  predicate IsDigit(c: char)
  {
    '0' <= c <= '9'
  }

  predicate AllDigits(s: string)
  {
    forall i :: 0 <= i < |s| ==> IsDigit(s[i])
  }

  /** `int(s)` for a string of ASCII digits. */
  function DigitsValue(s: string): (n: nat)
    requires AllDigits(s)
    decreases |s|
  {
    if |s| == 0 then 0 else DigitsValue(s[..|s| - 1]) * 10 + (s[|s| - 1] as int - '0' as int)
  }

  /** Decimal text of a natural number (`str(n)` for `n >= 0`). */
  function NatText(n: nat): (s: string)
    ensures |s| > 0 && AllDigits(s) && DigitsValue(s) == n
    decreases n
  {
    if n < 10 then [('0' as int + n) as char]
    else
      var s := NatText(n / 10) + [('0' as int + n % 10) as char];
      assert s[..|s| - 1] == NatText(n / 10);
      s
  }

  /* ---------------------------------------------------------------------------------------
     Numbers
     --------------------------------------------------------------------------------------- */

  /** Python's `int(x)` of a float: truncation toward zero. */
  function Trunc(x: real): (r: int)
    ensures x >= 0.0 ==> 0.0 <= r as real <= x && x - (r as real) < 1.0
    ensures x < 0.0 ==> x <= r as real <= 0.0 && (r as real) - x < 1.0
  {
    if x >= 0.0 then x.Floor else -((-x).Floor)
  }

  function MaxR(a: real, b: real): real { if a >= b then a else b }
  function MinR(a: real, b: real): real { if a <= b then a else b }
  function MaxI(a: int, b: int): int { if a >= b then a else b }
  function MinI(a: int, b: int): int { if a <= b then a else b }

  /** The Python values `ast.literal_eval` can hand back: numbers, booleans, text, bytes and
      (nested) lists, tuples, sets and dicts of them. A set's items are listed in the order
      the interpreter iterates them, a dict's entries in insertion order. `None`, complex
      numbers and `...` are `LOther`. */
  datatype Literal =
    | LInt(i: int)
    | LBool(b: bool)
    | LFloat(x: real)
    | LStr(s: string)
    | LBytes(bytes: seq<int>)
    | LList(items: seq<Literal>)
    | LTuple(items: seq<Literal>)
    | LSet(items: seq<Literal>)
    | LDict(entries: seq<(Literal, Literal)>)
    | LOther

  /** What `ast.literal_eval` makes of a text: a value; SyntaxError for text that is not
      Python; ValueError for Python that is not a literal (a name, a call, ...). */
  datatype Evaluation = Value(v: Literal) | BadSyntax | NotLiteral

  /** Python's `float()` and `int()` on text, and `ast.literal_eval`. `None` is the
      ValueError `float()` and `int()` raise on text they reject. */
  datatype Parsers = Parsers(
    toFloat: string -> Option<real>,
    toInt: string -> Option<int>,
    literalEval: string -> Evaluation)

  function Parsed<T>(o: Option<T>): (r: Result<T>)
    ensures r.Ok? <==> o.Some?
    ensures r.Ok? ==> r.value == o.value
    ensures r.Failure? ==> r.error == ValueError
  {
    match o
    case Some(v) => Ok(v)
    case None => Failure(ValueError)
  }

  /** `ast.literal_eval(text)`. */
  function LiteralEval(p: Parsers, text: string): (r: Result<Literal>)
    ensures r.Ok? <==> p.literalEval(text).Value?
    ensures r.Ok? ==> r.value == p.literalEval(text).v
    ensures p.literalEval(text).BadSyntax? ==> r == Failure(SyntaxError)
    ensures p.literalEval(text).NotLiteral? ==> r == Failure(ValueError)
  {
    match p.literalEval(text)
    case Value(v) => Ok(v)
    case BadSyntax => Failure(SyntaxError)
    case NotLiteral => Failure(ValueError)
  }

  /** `ast.literal_eval` of each text in turn; the first text it refuses ends the run with
      that text's error. */
  function LiteralEvalAll(p: Parsers, texts: seq<string>): (r: Result<seq<Literal>>)
    ensures r.Ok? <==> forall j :: 0 <= j < |texts| ==> p.literalEval(texts[j]).Value?
    ensures r.Ok? ==> |r.value| == |texts| && forall j :: 0 <= j < |texts| ==> r.value[j] == p.literalEval(texts[j]).v
    ensures r.Failure? ==> exists j :: 0 <= j < |texts| && (forall i :: 0 <= i < j ==> p.literalEval(texts[i]).Value?)
                                       && !p.literalEval(texts[j]).Value? && r == Failure(LiteralEval(p, texts[j]).error)
    decreases |texts|
  {
    if |texts| == 0 then Ok([])
    else
      var v :- LiteralEval(p, texts[0]);
      var rest := LiteralEvalAll(p, texts[1..]);
      assert forall j :: 1 <= j < |texts| ==> texts[j] == texts[1..][j - 1];
      if rest.Failure? then
        var j :| 0 <= j < |texts[1..]| && (forall i :: 0 <= i < j ==> p.literalEval(texts[1..][i]).Value?)
                 && !p.literalEval(texts[1..][j]).Value? && rest == Failure(LiteralEval(p, texts[1..][j]).error);
        assert forall i :: 0 <= i < j + 1 ==> p.literalEval(texts[i]).Value?;
        Failure(rest.error)
      else Ok([v] + rest.value)
  }

  /** The text of a bytes value whose bytes are all ASCII. */
  function AsciiText(bytes: seq<int>): (r: Option<string>)
    ensures r.Some? <==> forall i :: 0 <= i < |bytes| ==> 0 <= bytes[i] < 128
    ensures r.Some? ==> |r.value| == |bytes| && forall i :: 0 <= i < |bytes| ==> r.value[i] as int == bytes[i]
  {
    if exists i :: 0 <= i < |bytes| && !(0 <= bytes[i] < 128) then None
    else Some(seq(|bytes|, i requires 0 <= i < |bytes| => bytes[i] as char))
  }

  /** The text `int()` and `float()` read a value as: a string, or ASCII bytes. Non-ASCII
      bytes can never be a number. */
  function NumberText(v: Literal): Option<string>
    requires v.LStr? || v.LBytes?
  {
    if v.LStr? then Some(v.s) else AsciiText(v.bytes)
  }

  /** `int(v)`: a bool is 0 or 1, a float truncates toward zero, text is read by `int()`
      (ValueError when refused), and anything else is a TypeError. */
  function PyInt(v: Literal, p: Parsers): (r: Result<int>)
    ensures v.LInt? ==> r == Ok(v.i)
    ensures v.LBool? ==> r == Ok(if v.b then 1 else 0)
    ensures v.LFloat? && v.x >= 0.0 ==> r.Ok? && 0.0 <= r.value as real <= v.x && v.x - (r.value as real) < 1.0
    ensures v.LFloat? && v.x < 0.0 ==> r.Ok? && v.x <= r.value as real <= 0.0 && (r.value as real) - v.x < 1.0
    ensures v.LStr? ==> r == Parsed(p.toInt(v.s))
    ensures v.LBytes? ==> (r.Ok? <==> AsciiText(v.bytes).Some? && p.toInt(AsciiText(v.bytes).value).Some?)
    ensures v.LBytes? && r.Ok? ==> r.value == p.toInt(AsciiText(v.bytes).value).value
    ensures (v.LStr? || v.LBytes?) && r.Failure? ==> r.error == ValueError
    ensures !(v.LInt? || v.LBool? || v.LFloat? || v.LStr? || v.LBytes?) ==> r == Failure(TypeError)
  {
    match v
    case LInt(i) => Ok(i)
    case LBool(b) => Ok(if b then 1 else 0)
    case LFloat(x) => Ok(Trunc(x))
    case LStr(_) => Parsed(p.toInt(NumberText(v).value))
    case LBytes(_) =>
      (match NumberText(v)
       case None => Failure(ValueError)
       case Some(t) => Parsed(p.toInt(t)))
    case _ => Failure(TypeError)
  }

  /** `float(v)`, by the same rules. */
  function PyFloat(v: Literal, p: Parsers): (r: Result<real>)
    ensures v.LInt? ==> r == Ok(v.i as real)
    ensures v.LBool? ==> r == Ok(if v.b then 1.0 else 0.0)
    ensures v.LFloat? ==> r == Ok(v.x)
    ensures v.LStr? ==> r == Parsed(p.toFloat(v.s))
    ensures v.LBytes? ==> (r.Ok? <==> AsciiText(v.bytes).Some? && p.toFloat(AsciiText(v.bytes).value).Some?)
    ensures v.LBytes? && r.Ok? ==> r.value == p.toFloat(AsciiText(v.bytes).value).value
    ensures (v.LStr? || v.LBytes?) && r.Failure? ==> r.error == ValueError
    ensures !(v.LInt? || v.LBool? || v.LFloat? || v.LStr? || v.LBytes?) ==> r == Failure(TypeError)
  {
    match v
    case LInt(i) => Ok(i as real)
    case LBool(b) => Ok(if b then 1.0 else 0.0)
    case LFloat(x) => Ok(x)
    case LStr(_) => Parsed(p.toFloat(NumberText(v).value))
    case LBytes(_) =>
      (match NumberText(v)
       case None => Failure(ValueError)
       case Some(t) => Parsed(p.toFloat(t)))
    case _ => Failure(TypeError)
  }

  /** `iter(v)`: lists, tuples and sets give their items, a dict its keys, a string its
      one-character strings and bytes their values as ints; anything else is a TypeError. */
  function PyIter(v: Literal): (r: Result<seq<Literal>>)
    ensures r.Ok? <==> v.LList? || v.LTuple? || v.LSet? || v.LDict? || v.LStr? || v.LBytes?
    ensures r.Failure? ==> r.error == TypeError
    ensures v.LList? || v.LTuple? || v.LSet? ==> r == Ok(v.items)
    ensures v.LDict? ==> |r.value| == |v.entries| && forall i :: 0 <= i < |v.entries| ==> r.value[i] == v.entries[i].0
    ensures v.LStr? ==> |r.value| == |v.s| && forall i :: 0 <= i < |v.s| ==> r.value[i] == LStr([v.s[i]])
    ensures v.LBytes? ==> |r.value| == |v.bytes| && forall i :: 0 <= i < |v.bytes| ==> r.value[i] == LInt(v.bytes[i])
  {
    match v
    case LList(items) => Ok(items)
    case LTuple(items) => Ok(items)
    case LSet(items) => Ok(items)
    case LDict(entries) => Ok(seq(|entries|, i requires 0 <= i < |entries| => entries[i].0))
    case LStr(s) => Ok(seq(|s|, i requires 0 <= i < |s| => LStr([s[i]])))
    case LBytes(bytes) => Ok(seq(|bytes|, i requires 0 <= i < |bytes| => LInt(bytes[i])))
    case _ => Failure(TypeError)
  }

  /** The integer a value is when Python uses it as one (`__index__`): ints, and bools as
      0 and 1. */
  function AsIndex(v: Literal): (r: Option<int>)
    ensures r.Some? <==> v.LInt? || v.LBool?
    ensures v.LInt? ==> r == Some(v.i)
    ensures v.LBool? ==> r == Some(if v.b then 1 else 0)
  {
    match v
    case LInt(i) => Some(i)
    case LBool(b) => Some(if b then 1 else 0)
    case _ => None
  }

  /* ---------------------------------------------------------------------------------------
     Python / numpy slicing with step 1
     --------------------------------------------------------------------------------------- */

  /** Where index `i` lands in a sequence of length `n`: negatives count from the end,
      everything is clamped into [0, n]. */
  function ResolveIndex(i: int, n: nat): (r: nat)
    ensures r <= n
    ensures 0 <= i <= n ==> r == i
    ensures i > n ==> r == n
    ensures -(n as int) <= i < 0 ==> r == i + n
    ensures i < -(n as int) ==> r == 0
  {
    if i < 0 then (if i + n < 0 then 0 else i + n) else if i > n then n else i
  }

  /** The half-open window `[lo, hi)` that `s[a:b]` selects. */
  function SliceLo(a: int, n: nat): nat { ResolveIndex(a, n) }

  function SliceHi(a: int, b: int, n: nat): (hi: nat)
    ensures SliceLo(a, n) <= hi <= n
  {
    MaxI(SliceLo(a, n), ResolveIndex(b, n))
  }

  predicate InSlice(t: int, a: int, b: int, n: nat)
  {
    SliceLo(a, n) <= t < SliceHi(a, b, n)
  }

  /** `s[a:b]` */
  function PySlice<T>(s: seq<T>, a: int, b: int): (r: seq<T>)
    ensures |r| == SliceHi(a, b, |s|) - SliceLo(a, |s|)
    ensures forall t :: 0 <= t < |r| ==> r[t] == s[SliceLo(a, |s|) + t]
    ensures 0 <= a <= b <= |s| ==> r == s[a..b]
    ensures 0 <= a && 0 <= b ==> r == s[MinI(a, |s|)..MaxI(MinI(a, |s|), MinI(b, |s|))]
  {
    s[SliceLo(a, |s|)..SliceHi(a, b, |s|)]
  }

  /* ---------------------------------------------------------------------------------------
     Insertion-ordered dictionaries (Python `dict` built by `d[k] = v`)
     --------------------------------------------------------------------------------------- */

  type Dict<V> = seq<(string, V)>

  predicate UniqueKeys<V>(d: Dict<V>)
  {
    forall i, j :: 0 <= i < j < |d| ==> d[i].0 != d[j].0
  }

  function KeySet<V>(d: Dict<V>): set<string>
  {
    set i | 0 <= i < |d| :: d[i].0
  }

  function IndexOfKey<V>(d: Dict<V>, k: string): (i: nat)
    requires k in KeySet(d)
    ensures i < |d| && d[i].0 == k
    ensures forall j :: 0 <= j < i ==> d[j].0 != k
  {
    if d[0].0 == k then 0 else IndexOfKey(d[1..], k) + 1
  }

  function Lookup<V>(d: Dict<V>, k: string): Option<V>
  {
    if k in KeySet(d) then Some(d[IndexOfKey(d, k)].1) else None
  }

  /** A dictionary filled by assigning the pairs in order (`d[k] = v` for each, or
      `dict(pairs)`): every key present, and each key holding the value of its last pair. */
  function FromPairs<V>(pairs: seq<(string, V)>): (r: Dict<V>)
    ensures UniqueKeys(r)
    ensures KeySet(r) == KeySet(pairs)
    ensures forall i :: 0 <= i < |pairs| && (forall j :: i < j < |pairs| ==> pairs[j].0 != pairs[i].0)
                        ==> Lookup(r, pairs[i].0) == Some(pairs[i].1)
    decreases |pairs|
  {
    if |pairs| == 0 then []
    else
      var n := |pairs| - 1;
      assert pairs == pairs[..n] + [pairs[n]];
      PutLast(pairs[..n], pairs[n], FromPairs(pairs[..n]));
      Put(FromPairs(pairs[..n]), pairs[n].0, pairs[n].1)
  }

  /** The step of `FromPairs`: assigning one more pair. */
  lemma PutLast<V>(front: seq<(string, V)>, last: (string, V), d: Dict<V>)
    requires UniqueKeys(d)
    requires KeySet(d) == KeySet(front)
    requires forall i :: 0 <= i < |front| && (forall j :: i < j < |front| ==> front[j].0 != front[i].0)
                         ==> Lookup(d, front[i].0) == Some(front[i].1)
    ensures var pairs := front + [last];
            var r := Put(d, last.0, last.1);
            && KeySet(r) == KeySet(pairs)
            && forall i :: 0 <= i < |pairs| && (forall j :: i < j < |pairs| ==> pairs[j].0 != pairs[i].0)
                           ==> Lookup(r, pairs[i].0) == Some(pairs[i].1)
  {
    var pairs := front + [last];
    var n := |front|;
    assert forall i :: 0 <= i < n ==> pairs[i] == front[i];
    KeySetSnoc(front, last);
    forall i | 0 <= i < n && (forall j :: i < j < |pairs| ==> pairs[j].0 != pairs[i].0)
      ensures Lookup(Put(d, last.0, last.1), pairs[i].0) == Some(pairs[i].1)
    {
      assert pairs[n] == last;
      assert forall j :: i < j < n ==> front[j].0 != front[i].0;
    }
  }

  lemma KeySetSnoc<V>(d: Dict<V>, kv: (string, V))
    ensures KeySet(d + [kv]) == KeySet(d) + {kv.0}
  {
    var e := d + [kv];
    assert e[|d|] == kv;
    forall k | k in KeySet(e)
      ensures k in KeySet(d) + {kv.0}
    {
      var i :| 0 <= i < |e| && e[i].0 == k;
      if i < |d| {
        assert e[i] == d[i];
      }
    }
    forall k | k in KeySet(d)
      ensures k in KeySet(e)
    {
      var i :| 0 <= i < |d| && d[i].0 == k;
      assert e[i] == d[i];
    }
  }

  /** `d[k]`: the value, or the KeyError naming the missing key. */
  function Get<V>(d: Dict<V>, k: string): (r: Result<V>)
    ensures r.Ok? <==> k in KeySet(d)
    ensures r.Failure? ==> r.error == KeyError(k)
    ensures r.Ok? ==> Lookup(d, k) == Some(r.value)
  {
    match Lookup(d, k)
    case Some(v) => Ok(v)
    case None => Failure(KeyError(k))
  }

  /** `d[k] = v`: a new key goes to the end, an existing key keeps its place. */
  function Put<V>(d: Dict<V>, k: string, v: V): (r: Dict<V>)
    requires UniqueKeys(d)
    ensures UniqueKeys(r)
    ensures KeySet(r) == KeySet(d) + {k}
    ensures Lookup(r, k) == Some(v)
    ensures forall k' :: k' != k ==> Lookup(r, k') == Lookup(d, k')
    ensures k in KeySet(d) ==> |r| == |d| && forall i :: 0 <= i < |d| ==> r[i].0 == d[i].0
    ensures k !in KeySet(d) ==> r == d + [(k, v)]
  {
    if k in KeySet(d) then
      var i := IndexOfKey(d, k);
      var r := d[i := (k, v)];
      assert forall j :: 0 <= j < |r| ==> r[j].0 == d[j].0;
      assert KeySet(r) == KeySet(d);
      assert IndexOfKey(r, k) == i by { IndexOfKeyUnique(r, k, i); }
      forall k' | k' != k
        ensures Lookup(r, k') == Lookup(d, k')
      {
        if k' in KeySet(d) {
          var j := IndexOfKey(d, k');
          IndexOfKeyUnique(r, k', j);
        }
      }
      r
    else
      var r := d + [(k, v)];
      assert r[|d|].0 == k;
      assert forall j :: 0 <= j < |d| ==> r[j] == d[j];
      assert KeySet(r) == KeySet(d) + {k};
      assert IndexOfKey(r, k) == |d| by { IndexOfKeyUnique(r, k, |d|); }
      forall k' | k' != k
        ensures Lookup(r, k') == Lookup(d, k')
      {
        if k' in KeySet(d) {
          var j := IndexOfKey(d, k');
          IndexOfKeyUnique(r, k', j);
        }
      }
      r
  }

  /** The keys of a dict, in insertion order. */
  function Keys<V>(d: Dict<V>): (ks: seq<string>)
    ensures |ks| == |d| && forall i :: 0 <= i < |d| ==> ks[i] == d[i].0
  {
    seq(|d|, i requires 0 <= i < |d| => d[i].0)
  }

  lemma KeysSnoc<V>(d: Dict<V>, kv: (string, V))
    ensures Keys(d + [kv]) == Keys(d) + [kv.0]
  {
    assert forall i :: 0 <= i < |d| ==> (d + [kv])[i] == d[i];
  }

  /** `out = {}; for k in keys: if k in d: out[k] = d[k]` */
  function PickKeys<V>(keys: seq<string>, d: Dict<V>): (r: Dict<V>)
    ensures UniqueKeys(r)
    ensures KeySet(r) == set i | 0 <= i < |keys| && keys[i] in KeySet(d) :: keys[i]
    ensures forall k :: k in KeySet(r) ==> Lookup(r, k) == Lookup(d, k)
    decreases |keys|
  {
    if |keys| == 0 then []
    else
      var n := |keys| - 1;
      var front := PickKeys(keys[..n], d);
      assert forall i :: 0 <= i < n ==> keys[..n][i] == keys[i];
      if keys[n] in KeySet(d) then
        var r := Put(front, keys[n], Lookup(d, keys[n]).value);
        assert KeySet(r) == (set i | 0 <= i < n && keys[..n][i] in KeySet(d) :: keys[..n][i]) + {keys[n]};
        r
      else front
  }

  /** `[x for x in xs if keep(x)]` */
  function Select<T(==)>(xs: seq<T>, keep: T -> bool): (r: seq<T>)
    ensures |r| <= |xs|
    ensures forall i :: 0 <= i < |r| ==> keep(r[i]) && r[i] in xs
    ensures forall i :: 0 <= i < |xs| && keep(xs[i]) ==> xs[i] in r
    decreases |xs|
  {
    if |xs| == 0 then [] else (if keep(xs[0]) then [xs[0]] else []) + Select(xs[1..], keep)
  }

  /** An element of the input is selected exactly when it passes the test. */
  lemma SelectHas<T>(xs: seq<T>, keep: T -> bool, x: T)
    requires x in xs
    ensures x in Select(xs, keep) <==> keep(x)
  {
    if x in Select(xs, keep) {
      var i :| 0 <= i < |Select(xs, keep)| && Select(xs, keep)[i] == x;
    } else {
      var i :| 0 <= i < |xs| && xs[i] == x;
    }
  }

  /** Selection keeps the order: it distributes over concatenation. */
  lemma {:induction false} SelectAppend<T>(a: seq<T>, b: seq<T>, keep: T -> bool)
    ensures Select(a + b, keep) == Select(a, keep) + Select(b, keep)
    decreases |a|
  {
    if |a| > 0 {
      assert (a + b)[0] == a[0] && (a + b)[1..] == a[1..] + b;
      SelectAppend(a[1..], b, keep);
      var h := if keep(a[0]) then [a[0]] else [];
      assert Select(a + b, keep) == h + (Select(a[1..], keep) + Select(b, keep));
    } else {
      assert a + b == b;
    }
  }

  predicate Distinct<T(==)>(xs: seq<T>)
  {
    forall i, j :: 0 <= i < j < |xs| ==> xs[i] != xs[j]
  }

  /** Selecting from distinct elements gives distinct elements. */
  lemma {:induction false} SelectDistinct<T>(xs: seq<T>, keep: T -> bool)
    requires Distinct(xs)
    ensures Distinct(Select(xs, keep))
    decreases |xs|
  {
    if |xs| > 0 {
      SelectDistinct(xs[1..], keep);
      var rest := Select(xs[1..], keep);
      assert xs[0] !in xs[1..];
      assert xs[0] !in rest;
    }
  }

  /** Selecting entries of a dict keeps its keys unique. */
  lemma {:induction false} SelectUniqueKeys<V>(d: Dict<V>, keep: ((string, V)) -> bool)
    requires UniqueKeys(d)
    ensures UniqueKeys(Select(d, keep))
    decreases |d|
  {
    if |d| > 0 {
      SelectUniqueKeys(d[1..], keep);
      var rest := Select(d[1..], keep);
      forall i | 0 <= i < |rest|
        ensures rest[i].0 != d[0].0
      {
        var j :| 0 <= j < |d[1..]| && d[1..][j] == rest[i];
        assert d[j + 1] == rest[i];
      }
    }
  }

  /** Picked from distinct keys, the output lists the present keys in the order given. */
  lemma {:induction false} PickKeysOrder<V>(keys: seq<string>, d: Dict<V>)
    requires Distinct(keys)
    ensures Keys(PickKeys(keys, d)) == Select(keys, k => k in KeySet(d))
    decreases |keys|
  {
    if |keys| > 0 {
      var n := |keys| - 1;
      var present := k => k in KeySet(d);
      assert keys == keys[..n] + [keys[n]];
      PickKeysOrder(keys[..n], d);
      SelectAppend(keys[..n], [keys[n]], present);
      var front := PickKeys(keys[..n], d);
      if keys[n] in KeySet(d) {
        assert keys[n] !in KeySet(front);
        KeysSnoc(front, (keys[n], Lookup(d, keys[n]).value));
      }
    }
  }

  lemma IndexOfKeyUnique<V>(d: Dict<V>, k: string, i: nat)
    requires UniqueKeys(d)
    requires i < |d| && d[i].0 == k
    ensures k in KeySet(d) && IndexOfKey(d, k) == i
  {
    assert k in KeySet(d);
    var j := IndexOfKey(d, k);
    assert d[j].0 == k;
  }
}

=== FILE: ears.dfy ===
/** utils/get_ears_transcript.py: one transcript line per line of an EARS scp file. The uid
    is the line's first word; the transcript is looked up under the uid without its speaker
    prefix (the text up to the first `_`), with a fixed placeholder when there is none.
    Reading the scp and the json and writing the output file are left to the caller. */
module Ears {
  import opened Common

  const NotAvailable: string := "<not-available>"

  /** `uid, _ = line.strip().split(maxsplit=1)`: the first word, provided a second follows;
      otherwise the unpacking raises a ValueError. */
  function Uid(line: string): (r: Result<string>)
    ensures r.Ok? <==> |Tokens(line)| >= 2
    ensures r.Failure? ==> r.error == ValueError
    ensures r.Ok? ==> r.value == Tokens(line)[0] && IsWord(r.value)
  {
    var words := Tokens(line);
    if |words| < 2 then Failure(ValueError) else Ok(words[0])
  }

  /** `uid.split("_", 1)[-1]`: the uid after its speaker id. */
  function SpeakerFree(uid: string): (id: string)
    ensures '_' !in uid ==> id == uid
    ensures '_' in uid ==> uid == uid[..IndexOf(uid, '_')] + "_" + id && |id| < |uid|
  {
    var id := AfterFirst(uid, '_');
    assert '_' in uid ==> uid == uid[..IndexOf(uid, '_')] + "_" + id by {
      if '_' in uid {
        var i := IndexOf(uid, '_');
        assert uid == uid[..i] + [uid[i]] + uid[i + 1..];
      }
    }
    id
  }

  /** The transcript stored under `id`, or the placeholder. */
  function Transcript(id: string, transcripts: Dict<string>): (t: string)
    ensures id in KeySet(transcripts) ==> Some(t) == Lookup(transcripts, id)
    ensures id !in KeySet(transcripts) ==> t == NotAvailable
  {
    match Lookup(transcripts, id)
    case Some(t) => t
    case None => NotAvailable
  }

  /** `f"{uid} {transcript}\n"` for one scp line. */
  function OutputLine(line: string, transcripts: Dict<string>): (r: Result<string>)
    ensures r.Ok? <==> |Tokens(line)| >= 2
    ensures r.Failure? ==> r.error == ValueError
    ensures r.Ok? ==> var uid := Tokens(line)[0];
                      r.value == uid + " " + Transcript(SpeakerFree(uid), transcripts) + "\n"
  {
    var uid :- Uid(line);
    Ok(uid + " " + Transcript(SpeakerFree(uid), transcripts) + "\n")
  }

  /** An output line reads back: the uid up to the first space, the transcript between it
      and the final newline. */
  lemma OutputLineReadsBack(line: string, transcripts: Dict<string>)
    requires |Tokens(line)| >= 2
    ensures var out := OutputLine(line, transcripts).value;
            var uid := Tokens(line)[0];
            ' ' in out && out[..IndexOf(out, ' ')] == uid
            && out[IndexOf(out, ' ') + 1..|out| - 1] == Transcript(SpeakerFree(uid), transcripts)
            && out[|out| - 1] == '\n'
  {
    var out := OutputLine(line, transcripts).value;
    var uid := Tokens(line)[0];
    var t := Transcript(SpeakerFree(uid), transcripts);
    assert out == uid + [' '] + (t + "\n");
    assert ' ' !in uid by {
      assert IsWord(uid);
    }
    NoEarlierSpace(uid, t + "\n");
  }

  /** In `w + " " + rest` with no space in `w`, the first space is the one after `w`. */
  lemma NoEarlierSpace(w: string, rest: string)
    requires ' ' !in w
    ensures ' ' in w + [' '] + rest && IndexOf(w + [' '] + rest, ' ') == |w|
  {
    var s := w + [' '] + rest;
    assert s[|w|] == ' ';
    assert s[..|w|] == w;
  }

  /** What the output file ends up holding: the lines written before the first scp line
      that fails, and that failure. */
  datatype Written = Written(lines: seq<string>, error: Option<Error>)

  /** The loop over the scp file: one output line per input line, in order, stopping at the
      first line with fewer than two words. */
  function Run(lines: seq<string>, transcripts: Dict<string>): (w: Written)
    ensures w.error.None? <==> forall i :: 0 <= i < |lines| ==> |Tokens(lines[i])| >= 2
    ensures w.error.Some? ==> w.error.value == ValueError && |w.lines| < |lines| && |Tokens(lines[|w.lines|])| < 2
    ensures w.error.None? ==> |w.lines| == |lines|
    ensures |w.lines| <= |lines|
    ensures forall i :: 0 <= i < |w.lines| ==> OutputLine(lines[i], transcripts) == Ok(w.lines[i])
  {
    RunWith(lines, Writer(transcripts))
  }

  /** The line `Run` writes for each input line. */
  function Writer(transcripts: Dict<string>): string -> Result<string>
  {
    line => OutputLine(line, transcripts)
  }

  /** Writing `write(line)` for each line in turn until the first exception. */
  function RunWith(lines: seq<string>, write: string -> Result<string>): (w: Written)
    ensures w.error.None? <==> forall i :: 0 <= i < |lines| ==> write(lines[i]).Ok?
    ensures w.error.Some? ==> |w.lines| < |lines| && write(lines[|w.lines|]) == Failure(w.error.value)
    ensures w.error.None? ==> |w.lines| == |lines|
    ensures |w.lines| <= |lines|
    ensures forall i :: 0 <= i < |w.lines| ==> write(lines[i]) == Ok(w.lines[i])
    decreases |lines|
  {
    if |lines| == 0 then Written([], None)
    else
      match write(lines[0])
      case Failure(e) => Written([], Some(e))
      case Ok(out) =>
        var rest := RunWith(lines[1..], write);
        assert forall i :: 1 <= i < |lines| ==> lines[1..][i - 1] == lines[i];
        Written([out] + rest.lines, rest.error)
  }
}

=== FILE: ffmpeg.dfy ===
/** The ffmpeg invocation of `wind_noise` (simulate_data_from_param2.py:45-75): the argument
    list and the filter graph that feeds the speech through a sidechain compressor keyed by
    the noise and mixes the noise back in. Only the list is modelled, not running it. How
    Python renders a float inside an f-string is the parameter `fmt`. */
module FFmpeg {
  import opened Common
  import opened Transforms

  /** The fixed text before and after the compressor's options. */
  const FilterHead: string := "[1:a]asplit=2[sc][mix];" + "[0:a][sc]sidechaincompress="
  const FilterTail: string := "[compr];" + "[compr][mix]amix"

  /** The compressor options in the order the graph lists them. */
  function SidechainOptions(p: SidechainParams, fmt: real -> string): seq<(string, string)>
  {
    [("threshold", fmt(p.threshold)), ("ratio", fmt(p.ratio)), ("level_sc", fmt(p.scGain)),
     ("release", fmt(p.release)), ("attack", fmt(p.attack))]
  }

  /** The `filter_complex` text: the fixed head, the five options, the fixed tail. */
  function FilterGraph(p: SidechainParams, fmt: real -> string): string
  {
    FilterHead + OptionText(fmt(p.threshold), fmt(p.ratio), fmt(p.scGain), fmt(p.release), fmt(p.attack)) + FilterTail
  }

  /** The options part of the graph: `key=value` for each option, joined by `:`. */
  function OptionText(t: string, r: string, l: string, rl: string, a: string): string
  {
    ("threshold=" + t) + ":" + ("ratio=" + r) + ":" + ("level_sc=" + l) + ":" + ("release=" + rl) + ":" + ("attack=" + a)
  }

  /** The argument vector handed to `subprocess.run`. */
  function BuildFFmpegCommand(speechPath: string, noisePath: string, outputPath: string,
                              p: SidechainParams, fmt: real -> string): (r: seq<string>)
    ensures |r| == 11 && r[0] == "ffmpeg"
    ensures r[1..4] == ["-y", "-loglevel", "quiet"]
    ensures r[8] == "-filter_complex" && r[9] == FilterGraph(p, fmt)
    ensures r[|r| - 1] == outputPath
    ensures Inputs(r) == [speechPath, noisePath]
  {
    var graph := FilterGraph(p, fmt);
    assert graph != "-i" by {
      assert graph[0] == '[';
    }
    CommandLine(speechPath, noisePath, outputPath, graph)
  }

  /** The argument vector around an already assembled filter graph. */
  function CommandLine(speechPath: string, noisePath: string, outputPath: string, graph: string): (r: seq<string>)
    requires graph != "-i"
    ensures |r| == 11 && r[0] == "ffmpeg" && r[9] == graph
    ensures r[1..4] == ["-y", "-loglevel", "quiet"] && r[8] == "-filter_complex"
    ensures r[|r| - 1] == outputPath
    ensures Inputs(r) == [speechPath, noisePath]
  {
    var tail := ["-filter_complex", graph, outputPath];
    var withNoise := ["-i", noisePath] + tail;
    var withSpeech := ["-i", speechPath] + withNoise;
    InputsSkip("-filter_complex", [graph, outputPath]);
    InputsSkip(graph, [outputPath]);
    InputsTake(noisePath, tail);
    InputsTake(speechPath, withNoise);
    var quiet := ["quiet"] + withSpeech;
    var level := ["-loglevel"] + quiet;
    var overwrite := ["-y"] + level;
    InputsSkip("quiet", withSpeech);
    InputsSkip("-loglevel", quiet);
    InputsSkip("-y", level);
    InputsSkip("ffmpeg", overwrite);
    ["ffmpeg"] + overwrite
  }

  lemma InputsSkip(word: string, rest: seq<string>)
    requires word != "-i"
    ensures Inputs([word] + rest) == Inputs(rest)
  {
    assert ([word] + rest)[1..] == rest;
  }

  lemma InputsTake(path: string, rest: seq<string>)
    ensures Inputs(["-i", path] + rest) == [path] + Inputs(rest)
  {
    assert (["-i", path] + rest)[2..] == rest;
  }

  /** The input files of an ffmpeg argument vector, in order: the word after each `-i`. */
  function Inputs(args: seq<string>): seq<string>
    decreases |args|
  {
    if |args| < 2 then []
    else if args[0] == "-i" then [args[1]] + Inputs(args[2..])
    else Inputs(args[1..])
  }

  /** `key=value` read at the first `=`. */
  function KeyValue(piece: string): (string, string)
  {
    if '=' in piece then (piece[..IndexOf(piece, '=')], piece[IndexOf(piece, '=') + 1..]) else (piece, "")
  }

  /** The compressor options read back out of a filter graph: strip the fixed head and
      tail, split at `:`, read each `key=value`. */
  function ReadSidechainOptions(graph: string): Option<seq<(string, string)>>
  {
    if |FilterHead| + |FilterTail| <= |graph| && StartsWith(graph, FilterHead) && EndsWith(graph, FilterTail) then
      var pieces := Split(graph[|FilterHead|..|graph| - |FilterTail|], ':');
      Some(seq(|pieces|, i requires 0 <= i < |pieces| => KeyValue(pieces[i])))
    else None
  }

  /** The filter graph carries the five options, under the names ffmpeg expects and in the
      graph's order, whenever the rendered numbers hold no `:` (which would start a new
      option). */
  lemma FilterGraphRoundTrip(p: SidechainParams, fmt: real -> string)
    requires forall i :: 0 <= i < 5 ==> ':' !in SidechainOptions(p, fmt)[i].1
    ensures ReadSidechainOptions(FilterGraph(p, fmt)) == Some(SidechainOptions(p, fmt))
  {
    var opts := SidechainOptions(p, fmt);
    GraphShape(p, fmt);
    forall i | 0 <= i < 5
      ensures ':' !in opts[i].0 && '=' !in opts[i].0
    {
    }
    ReadBack(opts, FilterGraph(p, fmt));
  }

  /** The command hands ffmpeg exactly the five compressor options, in the slot after
      `-filter_complex`. */
  lemma CommandCarriesOptions(speechPath: string, noisePath: string, outputPath: string,
                              p: SidechainParams, fmt: real -> string)
    requires forall i :: 0 <= i < 5 ==> ':' !in SidechainOptions(p, fmt)[i].1
    ensures var r := BuildFFmpegCommand(speechPath, noisePath, outputPath, p, fmt);
            r[8] == "-filter_complex" && ReadSidechainOptions(r[9]) == Some(SidechainOptions(p, fmt))
  {
    FilterGraphRoundTrip(p, fmt);
  }

  /** `key=value` for each option. */
  function Pieces(opts: seq<(string, string)>): (r: seq<string>)
    ensures |r| == |opts|
  {
    seq(|opts|, i requires 0 <= i < |opts| => opts[i].0 + "=" + opts[i].1)
  }

  lemma GraphShape(p: SidechainParams, fmt: real -> string)
    ensures FilterGraph(p, fmt) == FilterHead + Join(Pieces(SidechainOptions(p, fmt)), ':') + FilterTail
  {
    JoinOptions(fmt(p.threshold), fmt(p.ratio), fmt(p.scGain), fmt(p.release), fmt(p.attack));
  }

  lemma JoinOptions(t: string, r: string, l: string, rl: string, a: string)
    ensures Join(Pieces([("threshold", t), ("ratio", r), ("level_sc", l), ("release", rl), ("attack", a)]), ':')
            == OptionText(t, r, l, rl, a)
  {
    var pieces := Pieces([("threshold", t), ("ratio", r), ("level_sc", l), ("release", rl), ("attack", a)]);
    JoinFive(pieces);
    assert pieces[0] == "threshold=" + t by { assert "threshold" + "=" == "threshold="; }
    assert pieces[1] == "ratio=" + r by { assert "ratio" + "=" == "ratio="; }
    assert pieces[2] == "level_sc=" + l by { assert "level_sc" + "=" == "level_sc="; }
    assert pieces[3] == "release=" + rl by { assert "release" + "=" == "release="; }
    assert pieces[4] == "attack=" + a by { assert "attack" + "=" == "attack="; }
  }

  lemma JoinFive(pieces: seq<string>)
    requires |pieces| == 5
    ensures Join(pieces, ':') == pieces[0] + ":" + pieces[1] + ":" + pieces[2] + ":" + pieces[3] + ":" + pieces[4]
  {
    assert Join(pieces[4..], ':') == pieces[4];
    assert Join(pieces[3..], ':') == pieces[3] + ":" + pieces[4];
    assert Join(pieces[2..], ':') == pieces[2] + ":" + Join(pieces[3..], ':');
    assert Join(pieces[1..], ':') == pieces[1] + ":" + Join(pieces[2..], ':');
  }

  /** Any option list whose keys hold no `=` or `:` and whose values hold no `:` reads back
      from the graph built around it. */
  lemma ReadBack(opts: seq<(string, string)>, g: string)
    requires |opts| >= 1
    requires forall i :: 0 <= i < |opts| ==> ':' !in opts[i].0 && '=' !in opts[i].0 && ':' !in opts[i].1
    requires g == FilterHead + Join(Pieces(opts), ':') + FilterTail
    ensures ReadSidechainOptions(g) == Some(opts)
  {
    var pieces := Pieces(opts);
    var body := Join(pieces, ':');
    assert g[..|FilterHead|] == FilterHead;
    assert g[|g| - |FilterTail|..] == FilterTail;
    assert g[|FilterHead|..|g| - |FilterTail|] == body;
    forall i | 0 <= i < |pieces|
      ensures ':' !in pieces[i]
    {
      assert pieces[i] == opts[i].0 + [('=')] + opts[i].1;
    }
    SplitJoin(pieces, ':');
    var read := seq(|pieces|, i requires 0 <= i < |pieces| => KeyValue(pieces[i]));
    forall i | 0 <= i < |pieces|
      ensures read[i] == opts[i]
    {
      IndexOfAfter(opts[i].0, opts[i].1, '=');
      assert pieces[i] == opts[i].0 + ['='] + opts[i].1;
      assert pieces[i][..|opts[i].0|] == opts[i].0;
      assert pieces[i][|opts[i].0| + 1..] == opts[i].1;
    }
    assert StartsWith(g, FilterHead) && EndsWith(g, FilterTail);
    assert Split(g[|FilterHead|..|g| - |FilterTail|], ':') == pieces;
    assert read == opts;
  }

  /** The first `c` of `a + [c] + b` is the one after `a` when `a` holds none. */
  lemma IndexOfAfter(a: string, b: string, c: char)
    requires c !in a
    ensures c in a + [c] + b && IndexOf(a + [c] + b, c) == |a|
  {
    var s := a + [c] + b;
    assert s[|a|] == c;
  }
}

=== FILE: fma_split.dfy ===
/** utils/get_fma_subset_split.py: the FMA tracks of the medium and small subsets, split by
    the metadata's own `split` column, and the two json files (train and validation) that
    keep the entries of a noise json whose key is a zero-padded track id of that split.
    Loading the csv and the json and writing the files are left to the caller: the tracks
    are given as rows, the json as a `Dict`. */
module FmaSplit {
  import opened Common

  /** One row of `tracks.csv`: the index `track_id` and the `("set", "subset")` and
      `("set", "split")` columns. */
  datatype Track = Track(id: int, subset: string, split: string)

  /** The module-level `partitions`: metadata split name to output split name. */
  const Partitions: Dict<string> := [("training", "train"), ("validation", "validation"), ("test", "test")]

  /** The partitions written out, in order. */
  const Emitted: seq<string> := ["training", "validation"]

  /** Width of the padded ids. */
  const IdWidth: nat := 6

  /** The subset filter of `collect_metadata`. */
  predicate InSubset(t: Track)
  {
    t.subset == "medium" || t.subset == "small"
  }

  function SubsetFilter(): Track -> bool
  {
    (t: Track) => InSubset(t)
  }

  function SplitFilter(split: string): Track -> bool
  {
    (t: Track) => t.split == split
  }

  /** `tracks_split["track_id"]`, in row order. */
  function Ids(ts: seq<Track>): (ids: seq<int>)
    ensures |ids| == |ts| && forall i :: 0 <= i < |ts| ==> ids[i] == ts[i].id
  {
    seq(|ts|, i requires 0 <= i < |ts| => ts[i].id)
  }

  /** The ids of the medium and small tracks of one metadata split. */
  function SplitIds(tracks: seq<Track>, split: string): seq<int>
  {
    Ids(Select(Select(tracks, SubsetFilter()), SplitFilter(split)))
  }

  /** `collect_metadata`: `ret` starts as `dict(train=[], validation=[], test=[])` and each
      partition's ids overwrite the list under its output name, which keeps the key order. */
  function CollectMetadata(tracks: seq<Track>): (ret: Dict<seq<int>>)
    ensures |ret| == |Partitions|
    ensures forall p :: 0 <= p < |Partitions| ==> ret[p] == (Partitions[p].1, SplitIds(tracks, Partitions[p].0))
  {
    seq(|Partitions|, p requires 0 <= p < |Partitions| => (Partitions[p].1, SplitIds(tracks, Partitions[p].0)))
  }

  /** `partitions[split]`: each metadata split has its output name. */
  lemma PartitionOf(p: nat)
    requires p < |Partitions|
    ensures UniqueKeys(Partitions) && Lookup(Partitions, Partitions[p].0) == Some(Partitions[p].1)
  {
    IndexOfKeyUnique(Partitions, Partitions[p].0, p);
  }

  /** `ret[partitions[split]]`: each output name has the ids of its metadata split. */
  lemma CollectLookup(tracks: seq<Track>, p: nat)
    requires p < |Partitions|
    ensures UniqueKeys(CollectMetadata(tracks))
    ensures Lookup(CollectMetadata(tracks), Partitions[p].1) == Some(SplitIds(tracks, Partitions[p].0))
  {
    var ret := CollectMetadata(tracks);
    assert Keys(ret) == ["train", "validation", "test"];
    IndexOfKeyUnique(ret, Partitions[p].1, p);
  }

  /** An id is listed for a split exactly when some medium or small track of that split has
      it. */
  lemma SplitIdsHas(tracks: seq<Track>, split: string, id: int)
    ensures id in SplitIds(tracks, split)
            <==> exists i :: 0 <= i < |tracks| && tracks[i].id == id && InSubset(tracks[i]) && tracks[i].split == split
  {
    if id in SplitIds(tracks, split) {
      SplitIdsFrom(tracks, split, id);
    }
    if exists i :: 0 <= i < |tracks| && tracks[i].id == id && InSubset(tracks[i]) && tracks[i].split == split {
      var i :| 0 <= i < |tracks| && tracks[i].id == id && InSubset(tracks[i]) && tracks[i].split == split;
      SplitIdsTo(tracks, split, i);
    }
  }

  lemma SplitIdsFrom(tracks: seq<Track>, split: string, id: int)
    requires id in SplitIds(tracks, split)
    ensures exists i :: 0 <= i < |tracks| && tracks[i].id == id && InSubset(tracks[i]) && tracks[i].split == split
  {
    var sub := Select(tracks, SubsetFilter());
    var kept := Select(sub, SplitFilter(split));
    var k :| 0 <= k < |kept| && Ids(kept)[k] == id;
    assert SplitFilter(split)(kept[k]) && kept[k] in sub;
    var j :| 0 <= j < |sub| && sub[j] == kept[k];
    assert SubsetFilter()(sub[j]) && sub[j] in tracks;
    var i :| 0 <= i < |tracks| && tracks[i] == kept[k];
  }

  lemma SplitIdsTo(tracks: seq<Track>, split: string, i: nat)
    requires i < |tracks| && InSubset(tracks[i]) && tracks[i].split == split
    ensures tracks[i].id in SplitIds(tracks, split)
  {
    var sub := Select(tracks, SubsetFilter());
    var kept := Select(sub, SplitFilter(split));
    assert SubsetFilter()(tracks[i]);
    assert tracks[i] in sub;
    assert SplitFilter(split)(tracks[i]);
    var j :| 0 <= j < |sub| && sub[j] == tracks[i];
    assert tracks[i] in kept;
    var k :| 0 <= k < |kept| && kept[k] == tracks[i];
    assert Ids(kept)[k] == tracks[i].id;
  }

  /** `"0" * n` */
  function Zeros(n: nat): (z: string)
    ensures |z| == n && forall i :: 0 <= i < n ==> z[i] == '0'
  {
    seq(n, i => '0')
  }

  predicate HasSign(s: string)
  {
    |s| > 0 && (s[0] == '+' || s[0] == '-')
  }

  /** `s.zfill(width)`: zeros on the left up to `width` characters, after a leading sign if
      there is one; a string already that long is unchanged. */
  function ZFill(s: string, width: nat): (r: string)
    ensures |r| == MaxI(|s|, width)
    ensures |s| >= width ==> r == s
    ensures |s| < width ==> var k := if HasSign(s) then 1 else 0;
                            r[..k] == s[..k] && r[width - (|s| - k)..] == s[k..]
                            && forall i :: k <= i < width - (|s| - k) ==> r[i] == '0'
  {
    if |s| >= width then s
    else if HasSign(s) then [s[0]] + Zeros(width - |s|) + s[1..]
    else Zeros(width - |s|) + s
  }

  /** `str(track_id)` */
  function IntText(n: int): (s: string)
    ensures n >= 0 ==> s == NatText(n)
    ensures n < 0 ==> s == "-" + NatText(-n)
  {
    if n >= 0 then NatText(n) else "-" + NatText(-n)
  }

  /** `str(fname).zfill(6)`: the json key of a track id. */
  function Padded(id: int): string
  {
    ZFill(IntText(id), IdWidth)
  }

  /** Leading zeros do not change the value of a digit string. */
  lemma {:induction false} ZerosValue(n: nat, s: string)
    requires AllDigits(s)
    ensures AllDigits(Zeros(n) + s) && DigitsValue(Zeros(n) + s) == DigitsValue(s)
    decreases |s| + n
  {
    var t := Zeros(n) + s;
    if |s| > 0 {
      var m := |s| - 1;
      assert t[..|t| - 1] == Zeros(n) + s[..m];
      ZerosValue(n, s[..m]);
    } else if n > 0 {
      assert t[..|t| - 1] == Zeros(n - 1) + s;
      ZerosValue(n - 1, s);
    } else {
      assert t == s;
    }
  }

  /** A padded non-negative id is a digit string at least six long whose value is the id;
      a padded negative id is `-` followed by such a string for the id's magnitude. */
  lemma PaddedValue(id: int)
    ensures |Padded(id)| == MaxI(|IntText(id)|, IdWidth)
    ensures id >= 0 ==> AllDigits(Padded(id)) && DigitsValue(Padded(id)) == id
    ensures id < 0 ==> Padded(id)[0] == '-' && AllDigits(Padded(id)[1..]) && DigitsValue(Padded(id)[1..]) == -id
  {
    var s := IntText(id);
    if id >= 0 {
      if |s| < IdWidth {
        ZerosValue(IdWidth - |s|, s);
      }
    } else {
      var d := NatText(-id);
      if |s| < IdWidth {
        assert Padded(id)[1..] == Zeros(IdWidth - |s|) + d;
        ZerosValue(IdWidth - |s|, d);
      }
    }
  }

  /** Different ids give different json keys. */
  lemma PaddedInjective(a: int, b: int)
    requires Padded(a) == Padded(b)
    ensures a == b
  {
    PaddedValue(a);
    PaddedValue(b);
  }

  /** The json keys of a list of ids. */
  function PaddedIds(ids: seq<int>): (keys: seq<string>)
    ensures |keys| == |ids| && forall i :: 0 <= i < |ids| ==> keys[i] == Padded(ids[i])
  {
    seq(|ids|, i requires 0 <= i < |ids| => Padded(ids[i]))
  }

  /** Distinct ids give distinct keys. */
  lemma PaddedIdsDistinct(ids: seq<int>)
    requires Distinct(ids)
    ensures Distinct(PaddedIds(ids))
  {
    var keys := PaddedIds(ids);
    forall i, j | 0 <= i < j < |keys|
      ensures keys[i] != keys[j]
    {
      if keys[i] == keys[j] {
        PaddedInjective(ids[i], ids[j]);
      }
    }
  }

  /** `f"fma_noise_{partitions[partition]}.json"` */
  function FileName(split: string): string
  {
    "fma_noise_" + split + ".json"
  }

  /** One pass of the `__main__` loop: the json entries whose key is a padded id of the
      partition, in id order, under the file name of the partition's output name. */
  function OutputFile<V>(tracks: seq<Track>, json: Dict<V>, f: nat): (file: (string, Dict<V>))
    requires f < |Emitted|
    ensures file.0 == FileName(Partitions[f].1)
    ensures file.1 == PickKeys(PaddedIds(SplitIds(tracks, Emitted[f])), json)
  {
    PartitionOf(f);
    CollectLookup(tracks, f);
    var name := Lookup(Partitions, Emitted[f]).value;
    (FileName(name), PickKeys(PaddedIds(Lookup(CollectMetadata(tracks), name).value), json))
  }

  /** The `__main__` loop, over the training and the validation partition only. */
  function Run<V>(tracks: seq<Track>, json: Dict<V>): (files: seq<(string, Dict<V>)>)
    ensures |files| == |Emitted|
    ensures files[0].0 == FileName("train") && files[1].0 == FileName("validation")
  {
    [OutputFile(tracks, json, 0), OutputFile(tracks, json, 1)]
  }

  /** The dict written for partition `f`. */
  lemma RunFile<V>(tracks: seq<Track>, json: Dict<V>, f: nat)
    requires f < |Emitted|
    ensures Run(tracks, json)[f].1 == PickKeys(PaddedIds(SplitIds(tracks, Emitted[f])), json)
  {
    assert Run(tracks, json)[f] == OutputFile(tracks, json, f);
  }

  /** Some medium or small track of metadata split `split` has the padded id `k`. */
  predicate HasTrackKey(tracks: seq<Track>, split: string, k: string)
  {
    exists i :: 0 <= i < |tracks| && Padded(tracks[i].id) == k && InSubset(tracks[i]) && tracks[i].split == split
  }

  /** A key is written to a split's file exactly when it is a key of the json and the padded
      id of some medium or small track of that split, and then with the json's value; the
      test split is never written. */
  lemma RunKeys<V>(tracks: seq<Track>, json: Dict<V>, f: nat, k: string)
    requires f < |Emitted|
    ensures Emitted[f] != "test"
    ensures UniqueKeys(Run(tracks, json)[f].1)
    ensures k in KeySet(Run(tracks, json)[f].1) ==> Lookup(Run(tracks, json)[f].1, k) == Lookup(json, k)
    ensures k in KeySet(Run(tracks, json)[f].1) <==> k in KeySet(json) && HasTrackKey(tracks, Emitted[f], k)
  {
    RunFile(tracks, json, f);
    PickedPadded(SplitIds(tracks, Emitted[f]), json, k);
    SplitKeys(tracks, Emitted[f], k);
  }

  /** The padded ids picked from the json. */
  lemma PickedPadded<V>(ids: seq<int>, json: Dict<V>, k: string)
    ensures k in KeySet(PickKeys(PaddedIds(ids), json))
            <==> k in KeySet(json) && exists n :: 0 <= n < |ids| && Padded(ids[n]) == k
  {
    var keys := PaddedIds(ids);
    if exists n :: 0 <= n < |ids| && Padded(ids[n]) == k {
      var n :| 0 <= n < |ids| && Padded(ids[n]) == k;
      assert keys[n] == k;
    }
  }

  /** The padded ids of a split are those of its medium and small tracks. */
  lemma SplitKeys(tracks: seq<Track>, split: string, k: string)
    ensures (exists n :: 0 <= n < |SplitIds(tracks, split)| && Padded(SplitIds(tracks, split)[n]) == k)
            <==> HasTrackKey(tracks, split, k)
  {
    var ids := SplitIds(tracks, split);
    if exists n :: 0 <= n < |ids| && Padded(ids[n]) == k {
      var n :| 0 <= n < |ids| && Padded(ids[n]) == k;
      SplitIdsFrom(tracks, split, ids[n]);
    }
    if HasTrackKey(tracks, split, k) {
      var i :| 0 <= i < |tracks| && Padded(tracks[i].id) == k && InSubset(tracks[i]) && tracks[i].split == split;
      SplitIdsTo(tracks, split, i);
    }
  }

  /** With distinct track ids, each file lists its keys in track order. */
  lemma RunOrder<V>(tracks: seq<Track>, json: Dict<V>, f: nat)
    requires f < |Emitted| && Distinct(Ids(tracks))
    ensures var ids := SplitIds(tracks, Emitted[f]);
            Keys(Run(tracks, json)[f].1) == Select(PaddedIds(ids), k => k in KeySet(json))
  {
    RunFile(tracks, json, f);
    var sub := Select(tracks, SubsetFilter());
    var kept := Select(sub, SplitFilter(Emitted[f]));
    SelectIdsDistinct(tracks, SubsetFilter());
    SelectIdsDistinct(sub, SplitFilter(Emitted[f]));
    PaddedIdsDistinct(Ids(kept));
    PickKeysOrder(PaddedIds(Ids(kept)), json);
  }

  /** Selecting tracks with distinct ids keeps the ids distinct. */
  lemma {:induction false} SelectIdsDistinct(ts: seq<Track>, keep: Track -> bool)
    requires Distinct(Ids(ts))
    ensures Distinct(Ids(Select(ts, keep)))
    decreases |ts|
  {
    if |ts| > 0 {
      IdsTail(ts);
      SelectIdsDistinct(ts[1..], keep);
      var rest := Select(ts[1..], keep);
      forall i | 0 <= i < |rest|
        ensures rest[i].id != ts[0].id
      {
        var j :| 0 <= j < |ts[1..]| && ts[1..][j] == rest[i];
        assert Ids(ts)[j + 1] == rest[i].id;
      }
      var h := if keep(ts[0]) then [ts[0]] else [];
      IdsCons(h, rest);
    }
  }

  lemma IdsTail(ts: seq<Track>)
    requires |ts| > 0
    ensures Ids(ts[1..]) == Ids(ts)[1..]
  {
  }

  /** A track whose id none of `rest` has, put in front of `rest`, keeps the ids distinct. */
  lemma IdsCons(h: seq<Track>, rest: seq<Track>)
    requires |h| <= 1 && Distinct(Ids(rest))
    requires forall i, j :: 0 <= i < |h| && 0 <= j < |rest| ==> h[i].id != rest[j].id
    ensures Distinct(Ids(h + rest))
  {
    var ids := Ids(h + rest);
    forall i, j | 0 <= i < j < |ids|
      ensures ids[i] != ids[j]
    {
      assert (h + rest)[j] == rest[j - |h|];
      if i < |h| {
        assert ids[i] == h[i].id;
      } else {
        assert (h + rest)[i] == rest[i - |h|];
        assert Ids(rest)[i - |h|] != Ids(rest)[j - |h|];
      }
    }
  }
}

=== FILE: fsd50k.dfy ===
/** utils/filter_fsd50k_human_voice.py: removing FSD50K clips labelled with any descendant of
    the human-voice classes of the AudioSet ontology, splitting the rest into the train and
    validation parts and keeping the json entries of those clips. Reading the csv, the
    ontology and the json is left to the caller: a table row is a `Row`, the ontology is
    each class id with its `child_ids`, the json is a `Dict`. */
module Fsd50k {
  import opened Common

  /** `{d["id"]: d for d in ontology}`, keeping only `child_ids`. */
  type Ontology = Dict<seq<string>>

  /** Human voice, respiratory sounds, human group actions. */
  const SpeechAncestors: seq<string> := ["/m/09l8g", "/m/09hlz4", "/t/dd00012"]

  /** The `child_ids` of a class, or none when the class is not in the ontology. */
  function Children(onto: Ontology, id: string): (cs: seq<string>)
    ensures id !in KeySet(onto) ==> cs == []
  {
    match Lookup(onto, id)
    case Some(cs) => cs
    case None => []
  }

  /* ---------------------------------------------------------------------------------------
     collect_all_child_ids (lines 16-28)
     --------------------------------------------------------------------------------------- */

  /** `recursive_collect(id)` with room for `depth` more nested calls: the children of the
      class, then what each child collects, in order. Python's recursion limit is the
      parameter `depth`; running out of it is a RecursionError. */
  function Collect(onto: Ontology, id: string, depth: nat): (r: Result<seq<string>>)
    ensures depth == 0 ==> r == Failure(RecursionError)
    ensures depth > 0 && id !in KeySet(onto) ==> r == Ok([])
    ensures r.Failure? ==> r.error == RecursionError
    decreases depth, 0
  {
    if depth == 0 then Failure(RecursionError)
    else if id !in KeySet(onto) then Ok([])
    else
      var below :- CollectAll(onto, Children(onto, id), depth - 1);
      Ok(Children(onto, id) + below)
  }

  /** The walk lists a class's own children first, in `child_ids` order, before anything
      further down. */
  lemma CollectChildrenFirst(onto: Ontology, id: string, depth: nat)
    requires Collect(onto, id, depth).Ok?
    ensures var r := Collect(onto, id, depth).value;
            |Children(onto, id)| <= |r| && r[..|Children(onto, id)|] == Children(onto, id)
  {
    if id in KeySet(onto) {
      var r := Collect(onto, id, depth).value;
      assert r == Children(onto, id) + CollectAll(onto, Children(onto, id), depth - 1).value;
    }
  }

  /** `for id in ids: recursive_collect(id)`, the results concatenated. */
  function CollectAll(onto: Ontology, ids: seq<string>, depth: nat): (r: Result<seq<string>>)
    ensures r.Failure? ==> r.error == RecursionError
    decreases depth, 1, |ids|
  {
    if |ids| == 0 then Ok([])
    else
      var first :- Collect(onto, ids[0], depth);
      var rest :- CollectAll(onto, ids[1..], depth);
      Ok(first + rest)
  }

  /** `x` is reached from class `a` by between 1 and `n` steps along `child_ids`. */
  ghost predicate Below(onto: Ontology, a: string, x: string, n: nat)
    decreases n
  {
    n > 0 && a in KeySet(onto)
    && (x in Children(onto, a) || exists i :: 0 <= i < |Children(onto, a)| && Below(onto, Children(onto, a)[i], x, n - 1))
  }

  /** Collecting for a list succeeds exactly when it succeeds for each member. */
  lemma {:induction false} CollectAllOk(onto: Ontology, ids: seq<string>, depth: nat)
    ensures CollectAll(onto, ids, depth).Ok? <==> forall i :: 0 <= i < |ids| ==> Collect(onto, ids[i], depth).Ok?
    decreases |ids|
  {
    if |ids| > 0 {
      CollectAllOk(onto, ids[1..], depth);
      assert forall i :: 1 <= i < |ids| ==> ids[1..][i - 1] == ids[i];
    }
  }

  /** A successful collection for a list holds what its members collect. */
  lemma {:induction false} CollectAllHas(onto: Ontology, ids: seq<string>, depth: nat, x: string)
    requires CollectAll(onto, ids, depth).Ok?
    ensures forall i :: 0 <= i < |ids| ==> Collect(onto, ids[i], depth).Ok?
    ensures x in CollectAll(onto, ids, depth).value <==> exists i :: 0 <= i < |ids| && x in Collect(onto, ids[i], depth).value
    decreases |ids|
  {
    CollectAllOk(onto, ids, depth);
    if |ids| > 0 {
      var rest := ids[1..];
      CollectAllHas(onto, rest, depth, x);
      assert forall i :: 1 <= i < |ids| ==> rest[i - 1] == ids[i];
      if exists i :: 0 <= i < |ids| && x in Collect(onto, ids[i], depth).value {
        var i :| 0 <= i < |ids| && x in Collect(onto, ids[i], depth).value;
        if i > 0 {
          assert x in Collect(onto, rest[i - 1], depth).value;
        }
      }
    }
  }

  /** A successful walk from `a` lists exactly the classes below `a`; `a` itself appears
      only if it is below itself. */
  lemma {:induction false} CollectIsDescendants(onto: Ontology, a: string, depth: nat, x: string)
    requires Collect(onto, a, depth).Ok?
    ensures x in Collect(onto, a, depth).value <==> Below(onto, a, x, depth)
    decreases depth
  {
    if a in KeySet(onto) {
      var cs := Children(onto, a);
      var below := CollectAll(onto, cs, depth - 1);
      assert Collect(onto, a, depth).value == cs + below.value;
      CollectAllHas(onto, cs, depth - 1, x);
      forall i | 0 <= i < |cs|
        ensures x in Collect(onto, cs[i], depth - 1).value <==> Below(onto, cs[i], x, depth - 1)
      {
        CollectIsDescendants(onto, cs[i], depth - 1, x);
      }
    }
  }

  /** `collect_all_child_ids(ids, ontology)`: when it returns, it holds exactly the classes
      below some of `ids`. */
  lemma CollectChildIds(onto: Ontology, ids: seq<string>, depth: nat, x: string)
    requires CollectAll(onto, ids, depth).Ok?
    ensures x in CollectAll(onto, ids, depth).value <==> BelowAny(onto, ids, x, depth)
  {
    CollectAllHas(onto, ids, depth, x);
    forall i | 0 <= i < |ids|
      ensures x in Collect(onto, ids[i], depth).value <==> Below(onto, ids[i], x, depth)
    {
      CollectIsDescendants(onto, ids[i], depth, x);
    }
  }

  /** Whatever a successful walk reaches, it walked from with room to spare. */
  lemma {:induction false} ReachedWithRoom(onto: Ontology, a: string, x: string, depth: nat, n: nat) returns (d: nat)
    requires Collect(onto, a, depth).Ok? && Below(onto, a, x, n)
    ensures d < depth && Collect(onto, x, d).Ok?
    decreases n
  {
    var cs := Children(onto, a);
    if x in cs {
      var i :| 0 <= i < |cs| && cs[i] == x;
      ChildOk(onto, a, depth, i);
      d := depth - 1;
    } else {
      var i :| 0 <= i < |cs| && Below(onto, cs[i], x, n - 1);
      ChildOk(onto, a, depth, i);
      d := ReachedWithRoom(onto, cs[i], x, depth - 1, n - 1);
    }
  }

  /** A successful walk succeeded for every child, one level down. */
  lemma ChildOk(onto: Ontology, a: string, depth: nat, i: nat)
    requires Collect(onto, a, depth).Ok? && a in KeySet(onto) && i < |Children(onto, a)|
    ensures depth > 0 && Collect(onto, Children(onto, a)[i], depth - 1).Ok?
  {
    CollectAllOk(onto, Children(onto, a), depth - 1);
  }

  /** A class below itself sends the walk round for ever: no recursion limit is enough. */
  lemma {:induction false} CycleExhaustsDepth(onto: Ontology, a: string, n: nat, depth: nat)
    requires Below(onto, a, a, n)
    ensures Collect(onto, a, depth) == Failure(RecursionError)
    decreases depth
  {
    if Collect(onto, a, depth).Ok? {
      var d := ReachedWithRoom(onto, a, a, depth, n);
      CycleExhaustsDepth(onto, a, n, d);
    }
  }

  /* ---------------------------------------------------------------------------------------
     filter_with_id, remove_speech (lines 30-43)
     --------------------------------------------------------------------------------------- */

  /** The columns of `dev.csv` that are read: `fname` (as `str` renders it), `mids`, `split`. */
  datatype Row = Row(fname: string, mids: string, split: string)

  /** `filter_with_id(row)`: some comma-separated label of the row is in `ids`. */
  function FilterWithId(row: Row, ids: seq<string>): (b: bool)
    ensures b <==> exists m :: m in Split(row.mids, ',') && m in ids
  {
    AnyIn(Split(row.mids, ','), ids)
  }

  /** The loop over the labels with its early `return True`. */
  function AnyIn(mids: seq<string>, ids: seq<string>): (b: bool)
    ensures b <==> exists m :: m in mids && m in ids
    decreases |mids|
  {
    if |mids| == 0 then false
    else if mids[0] in ids then true
    else
      assert forall m :: m in mids ==> m == mids[0] || m in mids[1..];
      AnyIn(mids[1..], ids)
  }

  /** The rows `remove_speech` keeps: those `filter_with_id` rejects. */
  function NotSpeech(speech: seq<string>): Row -> bool
  {
    (row: Row) => !FilterWithId(row, speech)
  }

  /** `df[~df.apply(filter_with_id, axis=1)]` after collecting the voice classes. */
  function RemoveSpeech(rows: seq<Row>, onto: Ontology, depth: nat): (r: Result<seq<Row>>)
    ensures r.Ok? <==> CollectAll(onto, SpeechAncestors, depth).Ok?
    ensures r.Ok? ==> r.value == Select(rows, NotSpeech(CollectAll(onto, SpeechAncestors, depth).value))
  {
    var speech :- CollectAll(onto, SpeechAncestors, depth);
    Ok(Select(rows, NotSpeech(speech)))
  }

  /** A row survives exactly when none of its labels lies below a voice class. */
  lemma RemoveSpeechKeeps(rows: seq<Row>, onto: Ontology, depth: nat, row: Row)
    requires RemoveSpeech(rows, onto, depth).Ok?
    requires row in rows
    ensures row in RemoveSpeech(rows, onto, depth).value <==> !MentionsVoice(onto, depth, row)
  {
    var speech := CollectAll(onto, SpeechAncestors, depth).value;
    SelectHas(rows, NotSpeech(speech), row);
    if FilterWithId(row, speech) {
      var m :| m in Split(row.mids, ',') && m in speech;
      CollectChildIds(onto, SpeechAncestors, depth, m);
    } else {
      forall m | m in Split(row.mids, ',')
        ensures !BelowAny(onto, SpeechAncestors, m, depth)
      {
        CollectChildIds(onto, SpeechAncestors, depth, m);
      }
    }
  }

  /** `x` lies below one of `ids` within `n` steps. */
  ghost predicate BelowAny(onto: Ontology, ids: seq<string>, x: string, n: nat)
  {
    exists i :: 0 <= i < |ids| && Below(onto, ids[i], x, n)
  }

  /** Some label of the row lies below a voice class. */
  ghost predicate MentionsVoice(onto: Ontology, depth: nat, row: Row)
  {
    exists m :: m in Split(row.mids, ',') && BelowAny(onto, SpeechAncestors, m, depth)
  }

  /** Removing rows keeps the survivors in their order: it distributes over a split of the
      table. */
  lemma RemoveSpeechInOrder(a: seq<Row>, b: seq<Row>, onto: Ontology, depth: nat)
    requires RemoveSpeech(a + b, onto, depth).Ok?
    ensures RemoveSpeech(a + b, onto, depth).value == RemoveSpeech(a, onto, depth).value + RemoveSpeech(b, onto, depth).value
  {
    var speech := CollectAll(onto, SpeechAncestors, depth).value;
    SelectAppend(a, b, NotSpeech(speech));
  }

  /* ---------------------------------------------------------------------------------------
     split_train_val (lines 46-49) and the json of each part (lines 73-91)
     --------------------------------------------------------------------------------------- */

  /** The rows whose split is `train`, and those whose split is `val`, each in order. */
  function SplitTrainVal(rows: seq<Row>): (r: (seq<Row>, seq<Row>))
    ensures forall i :: 0 <= i < |r.0| ==> r.0[i].split == "train" && r.0[i] in rows
    ensures forall i :: 0 <= i < |r.1| ==> r.1[i].split == "val" && r.1[i] in rows
    ensures forall i :: 0 <= i < |rows| && rows[i].split == "train" ==> rows[i] in r.0
    ensures forall i :: 0 <= i < |rows| && rows[i].split == "val" ==> rows[i] in r.1
  {
    (Select(rows, InSplit("train")), Select(rows, InSplit("val")))
  }

  /** `df["split"] == name`, as a row test. */
  function InSplit(name: string): Row -> bool
  {
    (row: Row) => row.split == name
  }

  /** The boolean masks keep the table's order: each part of a split table is the part of
      its first half followed by the part of its second half. */
  lemma SplitTrainValInOrder(a: seq<Row>, b: seq<Row>)
    ensures SplitTrainVal(a + b).0 == SplitTrainVal(a).0 + SplitTrainVal(b).0
    ensures SplitTrainVal(a + b).1 == SplitTrainVal(a).1 + SplitTrainVal(b).1
  {
    SelectAppend(a, b, InSplit("train"));
    SelectAppend(a, b, InSplit("val"));
  }

  /** A row in neither part has a split other than `train` and `val`; no row is in both. */
  lemma SplitTrainValPartition(rows: seq<Row>, row: Row)
    requires row in rows
    ensures row !in SplitTrainVal(rows).0 && row !in SplitTrainVal(rows).1 <==> row.split != "train" && row.split != "val"
    ensures !(row in SplitTrainVal(rows).0 && row in SplitTrainVal(rows).1)
  {
  }

  /** The json written for one part: the entry of each clip the json has, copied. */
  function PartJson<V>(part: seq<Row>, json: Dict<V>): (r: Dict<V>)
    ensures UniqueKeys(r)
    ensures forall k :: k in KeySet(r) <==> (k in KeySet(json) && exists i :: 0 <= i < |part| && part[i].fname == k)
    ensures forall k :: k in KeySet(r) ==> Lookup(r, k) == Lookup(json, k)
  {
    var names := seq(|part|, i requires 0 <= i < |part| => part[i].fname);
    assert forall i :: 0 <= i < |part| ==> names[i] == part[i].fname;
    PickKeys(names, json)
  }

  /** The two files written, `fsd50k_noise_train.json` and `fsd50k_noise_validation.json`. */
  datatype Written<V> = Written(train: Dict<V>, validation: Dict<V>)

  /** The whole script after reading its inputs. */
  function Run<V>(rows: seq<Row>, onto: Ontology, json: Dict<V>, depth: nat): (r: Result<Written<V>>)
    ensures r.Ok? <==> CollectAll(onto, SpeechAncestors, depth).Ok?
    ensures r.Ok? ==> var kept := RemoveSpeech(rows, onto, depth).value;
                      r.value == Written(PartJson(SplitTrainVal(kept).0, json), PartJson(SplitTrainVal(kept).1, json))
  {
    var kept :- RemoveSpeech(rows, onto, depth);
    var (train, valid) := SplitTrainVal(kept);
    Ok(Written(PartJson(train, json), PartJson(valid, json)))
  }

  /** Every entry written is the json's entry of a clip that has no voice label and lies in
      the matching split. */
  lemma RunWritesOnlyKeptClips<V>(rows: seq<Row>, onto: Ontology, json: Dict<V>, depth: nat, k: string)
    requires Run(rows, onto, json, depth).Ok?
    requires k in KeySet(Run(rows, onto, json, depth).value.train)
    ensures k in KeySet(json)
    ensures exists row :: row in rows && row.fname == k && row.split == "train"
                          && !FilterWithId(row, CollectAll(onto, SpeechAncestors, depth).value)
  {
    var kept := RemoveSpeech(rows, onto, depth).value;
    var train := SplitTrainVal(kept).0;
    var i :| 0 <= i < |train| && train[i].fname == k;
    assert train[i] in kept;
  }
}

=== FILE: paths.dfy ===
/** The part of `pathlib.PurePosixPath` the utility scripts read: a path's `name`, `suffix`
    and `stem`. A path is its text; the components are the pieces between `/` that are
    neither empty nor `.`. */
module Paths {
  import opened Common

  /** The components of a path, as `PurePosixPath.parts` keeps them (without the root). */
  function Components(path: string): (cs: seq<string>)
    ensures forall i :: 0 <= i < |cs| ==> cs[i] != "" && cs[i] != "." && '/' !in cs[i]
  {
    Select(Split(path, '/'), c => c != "" && c != ".")
  }

  /** `path.name`: the last component, or the empty text for a path that has none. */
  function Name(path: string): (n: string)
    ensures '/' !in n
    ensures n == "" <==> |Components(path)| == 0
  {
    var cs := Components(path);
    if |cs| == 0 then "" else cs[|cs| - 1]
  }

  /** The index of the last `c` in `s`, or -1. */
  function LastIndexOf(s: string, c: char): (i: int)
    ensures -1 <= i < |s|
    ensures i == -1 <==> c !in s
    ensures i >= 0 ==> s[i] == c && c !in s[i + 1..]
    decreases |s|
  {
    if |s| == 0 then -1
    else if s[|s| - 1] == c then |s| - 1
    else
      var i := LastIndexOf(s[..|s| - 1], c);
      assert s == s[..|s| - 1] + [s[|s| - 1]];
      i
  }

  /** `name.suffix`: from the last `.` on, provided that dot neither starts nor ends the
      name; otherwise empty. */
  function Suffix(name: string): (x: string)
    ensures x == "" || (x[0] == '.' && '.' !in x[1..] && |x| >= 2 && EndsWith(name, x) && |x| < |name|)
  {
    var i := LastIndexOf(name, '.');
    if 0 < i < |name| - 1 then name[i..] else ""
  }

  /** `name.stem`: the name without its suffix. */
  function Stem(name: string): (st: string)
    ensures |st| <= |name| && name[..|st|] == st
  {
    var i := LastIndexOf(name, '.');
    if 0 < i < |name| - 1 then name[..i] else name
  }

  /** A name splits into its stem followed by its suffix. */
  lemma StemSuffix(name: string)
    ensures Stem(name) + Suffix(name) == name
  {
    var x := Suffix(name);
    if x != "" {
      assert name[|name| - |x|..] == x;
    }
  }

  /** A name has suffix `.json` exactly when it ends in `.json` and has something before it. */
  lemma JsonSuffix(name: string)
    ensures Suffix(name) == ".json" <==> (EndsWith(name, ".json") && |name| > 5)
  {
    var i := LastIndexOf(name, '.');
    if EndsWith(name, ".json") && |name| > 5 {
      var j := |name| - 5;
      assert name[j..] == ".json";
      assert name[j] == '.';
      assert name[j + 1..] == "json";
      assert '.' !in name[j + 1..];
      LastIndexOfIs(name, '.', j);
    }
    if Suffix(name) == ".json" {
      assert name[i..] == ".json";
    }
  }

  /** The last `c` is the one after which no `c` follows. */
  lemma LastIndexOfIs(s: string, c: char, j: nat)
    requires j < |s| && s[j] == c && c !in s[j + 1..]
    ensures LastIndexOf(s, c) == j
  {
  }
}

=== FILE: pipeline.dfy ===
/** `process_one_sample` (simulate_data_from_param2.py:413-581): one row of the meta table
    turned into the clean, noisy and (optionally) noise signals that are written out. The
    row is a dictionary from column name to text; audio files, the RIR estimator, the voice
    activity detector, the random generator and the foreign signal-processing libraries are
    the fields of a `Collaborators` record. */
module Pipeline {
  import opened Common
  import opened Transforms
  import Recipe

  /** Everything the simulation of one sample calls outside this model. */
  datatype Collaborators = Collaborators(
    parsers: Parsers,
    readAudio: (string, int) -> Signal,         // read_audio(path, force_1ch=True, fs=fs)[0]
    earlyRir: (Signal, int) -> Signal,          // estimate_early_rir(rir, fs=fs)
    vad: Signal -> seq<bool>,                   // detect_non_silence
    num: Numerics,
    draw: (nat, nat) -> nat,                    // default_rng(seed).integers(0, bound), first draw
    resample: Resampler,
    quantile: Quantile,
    applyFilter: (Filter, Signal, int) -> Signal,
    codec: (Signal, int, real) -> Signal,
    wind: WindTools)

  /** `rng.integers(0, bound)` lies in `[0, bound)`. */
  ghost predicate DrawsInRange(c: Collaborators)
  {
    forall seed: nat, bound: nat :: bound > 0 ==> c.draw(seed, bound) < bound
  }

  /** The fields of the meta row the mixing stage needs, already converted. */
  datatype Sample = Sample(
    uid: string, fs: int, snr: real, noiseUid: string, rirUid: string,
    speech: Signal, noise: Signal)

  /** The three buffers the code keeps: `speech_sample`, `noisy_speech`, `noise_sample`. */
  datatype Mixture = Mixture(clean: Signal, noisy: Signal, noise: Signal)

  /** What is saved: clean and noisy always, the noise only when it is stored. */
  datatype Outputs = Outputs(clean: Signal, noisy: Signal, noise: Option<Signal>)

  /* ---------------------------------------------------------------------------------------
     The loudness pass (lines 433-450)
     --------------------------------------------------------------------------------------- */

  function IsLoudness(a: string): bool { Recipe.IsLoudnessStep(a) }
  function NotLoudness(a: string): bool { !Recipe.IsLoudnessStep(a) }

  /** Every `loudness_transition` step applied in turn to a copy of the speech. The code
      overwrites the result before using it, so only its failures matter. */
  function LoudnessPass(x: Signal, steps: seq<string>, c: Collaborators): (r: Result<Signal>)
    ensures r.Ok? ==> |r.value| == |x|
    ensures Select(steps, IsLoudness) == [] ==> r == Ok(x)
    decreases |steps|
  {
    if |steps| == 0 then Ok(x)
    else if IsLoudness(steps[0]) then
      var lists :- Recipe.LoudnessArguments(steps[0], c.parsers);
      var y :- LoudnessTransition(x, lists, c.num.dbToAmp, c.parsers);
      LoudnessPass(y, steps[1..], c)
    else
      assert Select(steps, IsLoudness) == Select(steps[1..], IsLoudness);
      LoudnessPass(x, steps[1..], c)
  }

  /* ---------------------------------------------------------------------------------------
     Reverberation (lines 452-461)
     --------------------------------------------------------------------------------------- */

  /** The clean and noisy speech after the RIR step. Without a RIR both names refer to the
      same buffer (`shared`), which matters to the in-place scaling of `wind_noise`. */
  datatype Reverb = Reverb(clean: Signal, noisy: Signal, shared: bool)

  function Reverberate(speech: Signal, rirUid: string, rirDic: Option<Dict<string>>, fs: int,
                       c: Collaborators): (r: Result<Reverb>)
    ensures rirUid == "none" ==> r == Ok(Reverb(speech, speech, true))
    ensures rirUid != "none" && rirDic.None? ==> r == Failure(TypeError)
    ensures rirUid != "none" && rirDic.Some? && rirUid !in KeySet(rirDic.value) ==> r == Failure(KeyError(rirUid))
    ensures r.Ok? ==> |r.value.clean| == |speech| && |r.value.noisy| == |speech|
    ensures r.Ok? && rirUid != "none" ==> !r.value.shared && |speech| > 0
  {
    if rirUid == "none" then Ok(Reverb(speech, speech, true))
    else
      match rirDic
      case None => Failure(TypeError)
      case Some(d) =>
        var path :- Get(d, rirUid);
        var rir := c.readAudio(path, fs);
        var noisy :- AddReverberation(speech, rir);
        var clean :- AddReverberation(speech, c.earlyRir(rir, fs));
        Ok(Reverb(clean, noisy, false))
  }

  /* ---------------------------------------------------------------------------------------
     The random offset (lines 463, 96, 104, 133, 141)
     --------------------------------------------------------------------------------------- */

  /** `int(uid.split("_")[-1])`, which `default_rng` rejects when negative. */
  function Seed(uid: string, p: Parsers): (r: Result<nat>)
    ensures r.Ok? ==> p.toInt(Split(uid, '_')[|Split(uid, '_')| - 1]) == Some(r.value)
    ensures r.Failure? ==> r.error == ValueError
  {
    var parts := Split(uid, '_');
    var n :- Parsed(p.toInt(parts[|parts| - 1]));
    if n < 0 then Failure(ValueError) else Ok(n)
  }

  /** The crop or wrap offset: one draw from the sample's generator when the lengths
      differ, none when they agree. */
  function Offset(c: Collaborators, seed: nat, noiseLength: nat, len: nat): (r: nat)
    requires DrawsInRange(c)
    ensures OffsetInRange(noiseLength, len, r)
    ensures noiseLength == len ==> r == 0
  {
    if noiseLength < len then c.draw(seed, len - noiseLength)
    else if noiseLength > len then c.draw(seed, noiseLength - len)
    else 0
  }

  /* ---------------------------------------------------------------------------------------
     Adding the noise (lines 466-506)
     --------------------------------------------------------------------------------------- */

  function IsWindNoise(noiseUid: string): bool { StartsWith(noiseUid, "wind_noise") }

  /** `wind_noise` for wind-noise uids (its configuration read from the recipe's single
      `wind_noise` step), `mix_noise` otherwise. */
  function AddNoise(v: Reverb, noise: Signal, s: Sample, seed: nat, steps: seq<string>, c: Collaborators): (r: Result<Mixture>)
    requires DrawsInRange(c)
    ensures r.Ok? && IsWindNoise(s.noiseUid) ==> |Select(steps, Recipe.IsWindStep)| == 1
    ensures IsWindNoise(s.noiseUid) && |Select(steps, Recipe.IsWindStep)| != 1 ==> r == Failure(AssertionError)
    ensures !IsWindNoise(s.noiseUid) ==> r == AdditiveMix(v, noise, s.snr, seed, c)
  {
    if IsWindNoise(s.noiseUid) then
      var w :- Recipe.WindConfig(steps, c.parsers);
      WindMix(v, noise, s.snr, seed, w, c)
    else
      AdditiveMix(v, noise, s.snr, seed, c)
  }

  /** `mix_noise`: the clean speech is left alone and the noisy speech gains the noise. */
  function AdditiveMix(v: Reverb, noise: Signal, snr: real, seed: nat, c: Collaborators): (r: Result<Mixture>)
    requires DrawsInRange(c)
    ensures r.Ok? ==> r.value.clean == v.clean && |r.value.noisy| == |v.noisy| && |r.value.noise| == |v.noisy|
                      && forall i :: 0 <= i < |v.noisy| ==> r.value.noisy[i] == v.noisy[i] + r.value.noise[i]
    ensures |noise| == 0 && |v.noisy| > 0 ==> r == Failure(ValueError)
  {
    var m :- MixNoise(v.noisy, noise, snr, Offset(c, seed, |noise|, |v.noisy|), c.vad, c.num);
    Ok(Mixture(v.clean, m.noisy, m.noise))
  }

  /** `wind_noise`. It scales the buffer it is given in place, so without a RIR (where that
      buffer is also the clean speech) the saved clean speech is the scaled carrier. */
  function WindMix(v: Reverb, noise: Signal, snr: real, seed: nat, w: Recipe.WindParams, c: Collaborators): (r: Result<Mixture>)
    requires DrawsInRange(c)
    ensures r.Ok? && !v.shared ==> r.value.clean == v.clean
    ensures r.Ok? && v.shared ==>
              var scaled := ScaledNoise(v.noisy, noise, snr, Offset(c, seed, |noise|, |v.noisy|), c.vad, c.num);
              scaled.Ok? && PeakGain([v.noisy, scaled.value]).Ok?
              && r.value.clean == Scale(PeakGain([v.noisy, scaled.value]).value, v.noisy)
    ensures r.Ok? && w.clipping ==> exists m :: WindClip(m, w.clippingThreshold) == Ok(r.value.noisy)
  {
    var out :- WindNoise(v.noisy, noise, snr, Offset(c, seed, |noise|, |v.noisy|),
                         SidechainParams(w.threshold, w.ratio, w.attack, w.release, w.scGain),
                         w.clipping, w.clippingThreshold, c.vad, c.num, c.wind);
    Ok(Mixture(if v.shared then out.carrier else v.clean, out.mix, out.noise))
  }

  /* ---------------------------------------------------------------------------------------
     The secondary pass (lines 509-566)
     --------------------------------------------------------------------------------------- */

  /** The packet indices as the loop over them sees them: whatever `ast.literal_eval` gave
      is iterated (a list, tuple or set gives its items, a dict its keys, a string its
      characters), and every item must act as an integer in `idx * duration * fs // 1000`
      and as a slice bound: an int, or a bool as 0 or 1. Anything else is a TypeError. */
  function PacketIndices(v: Literal): (r: Result<seq<int>>)
    ensures r.Ok? <==> PyIter(v).Ok? && forall i :: 0 <= i < |PyIter(v).value| ==> AsIndex(PyIter(v).value[i]).Some?
    ensures r.Ok? ==> |r.value| == |PyIter(v).value|
                      && forall i :: 0 <= i < |r.value| ==> AsIndex(PyIter(v).value[i]) == Some(r.value[i])
    ensures r.Failure? ==> r.error == TypeError
  {
    var items :- PyIter(v);
    IntItems(items)
  }

  /** Python iterates whatever it is given: a bool counts as 0 or 1, a dict gives its keys,
      an empty string gives nothing, and a character is not an index. */
  lemma PacketIndicesIterate()
    ensures PacketIndices(LList([LBool(true)])) == Ok([1])
    ensures PacketIndices(LDict([(LInt(2), LInt(0))])) == Ok([2])
    ensures PacketIndices(LStr("")) == Ok([])
    ensures PacketIndices(LStr("1")) == Failure(TypeError)
  {
    var one := IntItems([LBool(true)]);
    assert AsIndex([LBool(true)][0]) == Some(1);
    assert one.Ok? && |one.value| == 1 && one.value[0] == 1;
    assert one.value == [1];
    assert PyIter(LDict([(LInt(2), LInt(0))])).value == [LInt(2)];
    var two := IntItems([LInt(2)]);
    assert AsIndex([LInt(2)][0]) == Some(2);
    assert two.Ok? && |two.value| == 1 && two.value[0] == 2;
    assert two.value == [2];
    assert PyIter(LStr("1")).value == [LStr("1")];
  }

  function IntItems(items: seq<Literal>): (r: Result<seq<int>>)
    ensures r.Ok? <==> forall i :: 0 <= i < |items| ==> AsIndex(items[i]).Some?
    ensures r.Ok? ==> |r.value| == |items| && forall i :: 0 <= i < |items| ==> AsIndex(items[i]) == Some(r.value[i])
    ensures r.Failure? ==> r.error == TypeError
    decreases |items|
  {
    if |items| == 0 then Ok([])
    else if AsIndex(items[0]).None? then Failure(TypeError)
    else
      var rest :- IntItems(items[1..]);
      assert forall i :: 1 <= i < |items| ==> items[i] == items[1..][i - 1];
      Ok([AsIndex(items[0]).value] + rest)
  }

  /** One parsed step applied to the noisy speech. */
  function ApplyStep(x: Signal, step: Recipe.Step, fs: int, c: Collaborators): (r: Result<Signal>)
    ensures step.Pass? ==> r == Ok(x)
    ensures step.Bandwidth? && r.Ok? ==> |r.value| <= |x|
    ensures step.Bandwidth? && step.fsNew == fs ==> r == Ok(x)
    ensures step.Bandwidth? && step.fsNew > fs ==> r == Failure(AssertionError)
    ensures step.Clip? && r.Ok? ==> |r.value| == |x| && |x| > 0
    ensures step.Clip? ==> (r.Ok? <==> 0.0 <= step.minQuantile <= 1.0 && 0.0 <= step.maxQuantile <= 1.0 && |x| > 0)
    ensures step.Codec? ==> (r.Ok? <==> 0.0 <= step.vbrQuality <= 10.0)
    ensures step.PacketLoss? && r.Ok? ==>
              PacketIndices(step.indices).Ok? &&
              var idx := PacketIndices(step.indices).value;
              |r.value| == |x|
              && forall t :: 0 <= t < |x| ==> r.value[t] == if Lost(t, |x|, fs, idx, step.durationMs) then 0.0 else x[t]
  {
    match step
    case Pass => Ok(x)
    case Bandwidth(resType, fsNew) => BandwidthLimitation(x, fs, fsNew, resType, c.resample)
    case Clip(lo, hi) =>
      var channels :- Clipping([x], lo, hi, c.quantile);
      Ok(channels[0])
    case Nonflat(lowHz, highHz, lowDb, highDb, peakHz, peakDb) =>
      var chain :- FilterChain(lowHz, highHz, lowDb, highDb, peakHz, peakDb);
      Ok(RunChain(x, fs, chain, c.applyFilter))
    case Codec(q) => CodecCompression(x, fs, q, c.codec)
    case PacketLoss(indices, durationMs) =>
      var idx :- PacketIndices(indices);
      Ok(Transforms.PacketLoss(x, fs, idx, durationMs))
  }

  /** The steps applied to the noisy speech in recipe order; the first step that cannot be
      read or applied ends the sample. */
  function SecondaryPass(x: Signal, steps: seq<string>, fs: int, c: Collaborators): (r: Result<Signal>)
    ensures r.Ok? ==> forall i :: 0 <= i < |steps| ==> Recipe.KindOf(steps[i]) != Recipe.Unknown
    ensures (forall i :: 0 <= i < |steps| ==> Recipe.Skipped(Recipe.KindOf(steps[i]))) ==> r == Ok(x)
    decreases |steps|
  {
    if |steps| == 0 then Ok(x)
    else
      var step :- Recipe.ParseStep(steps[0], c.parsers);
      var y :- ApplyStep(x, step, fs, c);
      var r := SecondaryPass(y, steps[1..], fs, c);
      assert forall i :: 1 <= i < |steps| ==> steps[i] == steps[1..][i - 1];
      r
  }

  /** Running two recipes one after the other is running their concatenation. */
  lemma {:induction false} SecondaryPassAppend(x: Signal, a: seq<string>, b: seq<string>, fs: int, c: Collaborators)
    ensures SecondaryPass(x, a + b, fs, c)
            == match SecondaryPass(x, a, fs, c)
               case Ok(y) => SecondaryPass(y, b, fs, c)
               case Failure(e) => Failure(e)
    decreases |a|
  {
    if |a| == 0 {
      assert a + b == b;
    } else {
      assert (a + b)[0] == a[0] && (a + b)[1..] == a[1..] + b;
      var step := Recipe.ParseStep(a[0], c.parsers);
      if step.Ok? {
        var y := ApplyStep(x, step.value, fs, c);
        if y.Ok? {
          SecondaryPassAppend(y.value, a[1..], b, fs, c);
        }
      }
    }
  }

  /** The loudness steps are skipped by the secondary pass: dropping them changes nothing. */
  lemma {:induction false} SecondaryPassIgnoresLoudness(x: Signal, steps: seq<string>, fs: int, c: Collaborators)
    ensures SecondaryPass(x, steps, fs, c) == SecondaryPass(x, Select(steps, NotLoudness), fs, c)
    decreases |steps|
  {
    if |steps| > 0 {
      var rest := Select(steps[1..], NotLoudness);
      if NotLoudness(steps[0]) {
        assert Select(steps, NotLoudness) == [steps[0]] + rest;
        var step := Recipe.ParseStep(steps[0], c.parsers);
        if step.Ok? {
          var y := ApplyStep(x, step.value, fs, c);
          if y.Ok? {
            SecondaryPassIgnoresLoudness(y.value, steps[1..], fs, c);
            assert ([steps[0]] + rest)[1..] == rest;
          }
        }
      } else {
        assert Select(steps, NotLoudness) == rest;
        assert Recipe.KindOf(steps[0]) == Recipe.LoudnessKind;
        SecondaryPassIgnoresLoudness(x, steps[1..], fs, c);
      }
    }
  }

  /* ---------------------------------------------------------------------------------------
     The whole simulation of one sample
     --------------------------------------------------------------------------------------- */

  /** From the read signals to the three buffers just before the length check. The RIR
      uid is read (`info["rir_uid"]`, given here as the outcome of that read) only after the
      loudness pass, so a failing loudness step is reported first. */
  function Simulate(s: Sample, steps: seq<string>, rirUid: Result<string>, rirDic: Option<Dict<string>>,
                    c: Collaborators): (r: Result<Mixture>)
    requires DrawsInRange(c)
    ensures LoudnessPass(s.speech, steps, c).Failure? ==> r.Failure?
    ensures LoudnessPass(s.speech, steps, c).Ok? && rirUid.Failure? ==> r == Failure(rirUid.error)
    ensures r.Ok? ==> forall i :: 0 <= i < |steps| ==> Recipe.KindOf(steps[i]) != Recipe.Unknown
    ensures r.Ok? && IsWindNoise(s.noiseUid) ==> |Select(steps, Recipe.IsWindStep)| == 1
    ensures r.Ok? && rirUid.value != "none" ==> rirDic.Some? && rirUid.value in KeySet(rirDic.value)
  {
    var _ :- LoudnessPass(s.speech, steps, c);
    var uid :- rirUid;
    Mix(s.(rirUid := uid), steps, rirDic, c)
  }

  /** Everything after the loudness pass. */
  function Mix(s: Sample, steps: seq<string>, rirDic: Option<Dict<string>>, c: Collaborators): (r: Result<Mixture>)
    requires DrawsInRange(c)
    ensures r.Ok? ==> forall i :: 0 <= i < |steps| ==> Recipe.KindOf(steps[i]) != Recipe.Unknown
    ensures r.Ok? && IsWindNoise(s.noiseUid) ==> |Select(steps, Recipe.IsWindStep)| == 1
    ensures r.Ok? && s.rirUid != "none" ==> rirDic.Some? && s.rirUid in KeySet(rirDic.value)
  {
    var v :- Reverberate(s.speech, s.rirUid, rirDic, s.fs, c);
    var seed :- Seed(s.uid, c.parsers);
    var m :- AddNoise(v, s.noise, s, seed, steps, c);
    var noisy :- SecondaryPass(m.noisy, steps, s.fs, c);
    Ok(Mixture(m.clean, noisy, m.noise))
  }

  /** The loudness pass only decides whether the sample fails: when it succeeds, the
      sample is the one the recipe without its loudness steps gives. */
  lemma LoudnessResultOverwritten(s: Sample, steps: seq<string>, rirUid: Result<string>,
                                  rirDic: Option<Dict<string>>, c: Collaborators)
    requires DrawsInRange(c)
    requires LoudnessPass(s.speech, steps, c).Ok?
    ensures Simulate(s, steps, rirUid, rirDic, c) == Simulate(s, Select(steps, NotLoudness), rirUid, rirDic, c)
  {
    NoLoudnessLeft(steps);
    assert LoudnessPass(s.speech, Select(steps, NotLoudness), c).Ok?;
    if rirUid.Ok? {
      MixIgnoresLoudness(s.(rirUid := rirUid.value), steps, rirDic, c);
    }
  }

  lemma MixIgnoresLoudness(s: Sample, steps: seq<string>, rirDic: Option<Dict<string>>, c: Collaborators)
    requires DrawsInRange(c)
    ensures Mix(s, steps, rirDic, c) == Mix(s, Select(steps, NotLoudness), rirDic, c)
  {
    var kept := Select(steps, NotLoudness);
    var v := Reverberate(s.speech, s.rirUid, rirDic, s.fs, c);
    var seed := Seed(s.uid, c.parsers);
    if v.Ok? && seed.Ok? {
      WindStepsKept(steps);
      AddNoiseReadsWindSteps(v.value, s.noise, s, seed.value, steps, kept, c);
      var m := AddNoise(v.value, s.noise, s, seed.value, steps, c);
      if m.Ok? {
        SecondaryPassIgnoresLoudness(m.value.noisy, steps, s.fs, c);
      }
    }
  }

  /** The recipe reaches the noise stage only through its wind steps. */
  lemma AddNoiseReadsWindSteps(v: Reverb, noise: Signal, s: Sample, seed: nat, a: seq<string>, b: seq<string>, c: Collaborators)
    requires DrawsInRange(c)
    requires Select(a, Recipe.IsWindStep) == Select(b, Recipe.IsWindStep)
    ensures AddNoise(v, noise, s, seed, a, c) == AddNoise(v, noise, s, seed, b, c)
  {
  }

  lemma {:induction false} NoLoudnessLeft(steps: seq<string>)
    ensures Select(Select(steps, NotLoudness), IsLoudness) == []
    decreases |steps|
  {
    if |steps| > 0 {
      NoLoudnessLeft(steps[1..]);
      var rest := Select(steps[1..], NotLoudness);
      if NotLoudness(steps[0]) {
        var kept := [steps[0]] + rest;
        assert Select(steps, NotLoudness) == kept;
        assert kept[0] == steps[0] && kept[1..] == rest;
        assert !IsLoudness(kept[0]);
        assert Select(kept, IsLoudness) == Select(rest, IsLoudness);
      } else {
        assert Select(steps, NotLoudness) == rest;
      }
    }
  }

  /** A step cannot start with both `loudness_transition` and `wind_noise`. */
  lemma LoudnessIsNotWind(a: string)
    requires Recipe.IsLoudnessStep(a)
    ensures !Recipe.IsWindStep(a)
  {
    assert a[..|"loudness_transition"|] == "loudness_transition";
    assert a[0] == 'l';
  }

  /** Removing the loudness steps keeps the wind steps, in order. */
  lemma {:induction false} WindStepsKept(steps: seq<string>)
    ensures Select(Select(steps, NotLoudness), Recipe.IsWindStep) == Select(steps, Recipe.IsWindStep)
    decreases |steps|
  {
    if |steps| > 0 {
      WindStepsKept(steps[1..]);
      var rest := Select(steps[1..], NotLoudness);
      if NotLoudness(steps[0]) {
        var kept := [steps[0]] + rest;
        assert Select(steps, NotLoudness) == kept;
        assert kept[0] == steps[0] && kept[1..] == rest;
      } else {
        assert Select(steps, NotLoudness) == rest;
        LoudnessIsNotWind(steps[0]);
      }
    }
  }

  /* ---------------------------------------------------------------------------------------
     The length check and the joint normalisation (lines 568-581)
     --------------------------------------------------------------------------------------- */

  predicate Silent(x: Signal)
  {
    forall i :: 0 <= i < |x| ==> x[i] == 0.0
  }

  /** No sample of any signal is louder than `level`, and one of them is exactly that loud. */
  predicate PeakIs(xs: seq<Signal>, level: real)
  {
    && (forall k, i :: 0 <= k < |xs| && 0 <= i < |xs[k]| ==> Abs(xs[k][i]) <= level)
    && (exists k, i :: 0 <= k < |xs| && 0 <= i < |xs[k]| && Abs(xs[k][i]) == level)
  }

  /** `0.9 / max(peak(noisy), peak(clean), peak(noise))` applied to all three buffers. It
      fails when a buffer is empty (`np.max` of nothing) or when all three are silent. */
  function Normalise(m: Mixture, storeNoise: bool): (r: Result<Outputs>)
    ensures r.Failure? <==> |m.noisy| == 0 || |m.clean| == 0 || |m.noise| == 0
                            || (Silent(m.noisy) && Silent(m.clean) && Silent(m.noise))
    ensures r.Ok? ==> r.value.noise.Some? == storeNoise && SavedWithin(r.value, 0.9)
    ensures r.Ok? ==> |r.value.clean| == |m.clean| && |r.value.noisy| == |m.noisy|
    ensures r.Ok? ==> exists g :: g > 0.0 && r.value == ScaleAll(m, g, storeNoise)
                                 && PeakIs([Scale(g, m.noisy), Scale(g, m.clean), Scale(g, m.noise)], 0.9)
  {
    JointPeakSilent([m.noisy, m.clean, m.noise]);
    var g :- PeakGain([m.noisy, m.clean, m.noise]);
    ScaleAllWithin(m, storeNoise);
    Ok(ScaleAll(m, g, storeNoise))
  }

  /** Every buffer multiplied by the same gain; the noise kept only when it is stored. */
  function ScaleAll(m: Mixture, g: real, storeNoise: bool): (r: Outputs)
    ensures |r.clean| == |m.clean| && |r.noisy| == |m.noisy|
    ensures r.noise.Some? == storeNoise
  {
    Outputs(Scale(g, m.clean), Scale(g, m.noisy), if storeNoise then Some(Scale(g, m.noise)) else None)
  }

  lemma ScaleAllWithin(m: Mixture, storeNoise: bool)
    requires PeakGain([m.noisy, m.clean, m.noise]).Ok?
    ensures var g := PeakGain([m.noisy, m.clean, m.noise]).value;
            g > 0.0 && SavedWithin(ScaleAll(m, g, storeNoise), 0.9)
            && PeakIs([Scale(g, m.noisy), Scale(g, m.clean), Scale(g, m.noise)], 0.9)
  {
    var xs := [m.noisy, m.clean, m.noise];
    var g := PeakGain(xs).value;
    PeakGainNormalises(xs);
    var ys := [Scale(g, m.noisy), Scale(g, m.clean), Scale(g, m.noise)];
    assert forall k :: 0 <= k < 3 ==> ys[k] == Scale(g, xs[k]);
    assert PeakIs(ys, 0.9);
    assert forall i :: 0 <= i < |ys[1]| ==> Abs(ys[1][i]) <= 0.9;
    assert forall i :: 0 <= i < |ys[0]| ==> Abs(ys[0][i]) <= 0.9;
    assert forall i :: 0 <= i < |ys[2]| ==> Abs(ys[2][i]) <= 0.9;
  }

  /** The joint peak is zero exactly when every signal is silent. */
  lemma JointPeakSilent(xs: seq<Signal>)
    requires |xs| > 0
    ensures JointPeak(xs).Ok? ==> (JointPeak(xs).value == 0.0 <==> forall k :: 0 <= k < |xs| ==> Silent(xs[k]))
  {
    if JointPeak(xs).Ok? {
      var m := JointPeak(xs).value;
      forall k | 0 <= k < |xs|
        ensures PeakAbs(xs[k]).value >= 0.0
        ensures Silent(xs[k]) <==> PeakAbs(xs[k]).value == 0.0
      {
        PeakAbsBounds(xs[k]);
      }
    }
  }

  /** One row of the meta table simulated, checked, normalised and saved: the text fields
      read in the order the code reads them, every saved sample within 0.9. */
  function ProcessOneSample(info: Dict<string>, storeNoise: bool, speechDic: Dict<string>, noiseDic: Dict<string>,
                            rirDic: Option<Dict<string>>, c: Collaborators): (r: Saved)
    requires DrawsInRange(c)
    ensures "id" !in KeySet(info) ==> r == Saved([], Some(KeyError("id")))
    ensures WritesWithin(r.writes, 0.9)
    ensures "clean_path" !in KeySet(info) ==> r.writes == [] && r.error.Some?
    ensures |r.writes| > 0 || r.error.None? ==>
              && "augmentation" in KeySet(info)
              && (var steps := Recipe.Steps(Lookup(info, "augmentation").value);
                  forall i :: 0 <= i < |steps| ==> Recipe.KindOf(steps[i]) != Recipe.Unknown)
    ensures r.error.None? ==>
              && |r.writes| == (if storeNoise then 3 else 2)
              && "length" in KeySet(info) && c.parsers.toInt(Lookup(info, "length").value) == Some(|r.writes[1].audio|)
              && Lookup(info, "clean_path") == Some(r.writes[0].path)
              && Lookup(info, "noisy_path") == Some(r.writes[1].path)
              && (storeNoise ==> Lookup(info, "noise_path") == Some(r.writes[2].path))
  {
    match SimulateRow(info, speechDic, noiseDic, rirDic, c)
    case Failure(e) => Saved([], Some(e))
    case Ok(m) => Finish(m, info, storeNoise, c)
  }

  /** Everything before the length check: the sample read, the recipe read, the mixture
      simulated. */
  function SimulateRow(info: Dict<string>, speechDic: Dict<string>, noiseDic: Dict<string>,
                       rirDic: Option<Dict<string>>, c: Collaborators): (r: Result<Mixture>)
    requires DrawsInRange(c)
    ensures "id" !in KeySet(info) ==> r == Failure(KeyError("id"))
    ensures r.Ok? ==> "augmentation" in KeySet(info)
                      && var steps := Recipe.Steps(Lookup(info, "augmentation").value);
                         forall i :: 0 <= i < |steps| ==> Recipe.KindOf(steps[i]) != Recipe.Unknown
  {
    var s :- ReadSample(info, speechDic, noiseDic, c);
    var augmentation :- Get(info, "augmentation");
    Simulate(s, Recipe.Steps(augmentation), Get(info, "rir_uid"), rirDic, c)
  }

  /** No saved sample is louder than `level`. */
  predicate SavedWithin(o: Outputs, level: real)
  {
    && (forall i :: 0 <= i < |o.clean| ==> Abs(o.clean[i]) <= level)
    && (forall i :: 0 <= i < |o.noisy| ==> Abs(o.noisy[i]) <= level)
    && (o.noise.Some? ==> forall i :: 0 <= i < |o.noise.value| ==> Abs(o.noise.value[i]) <= level)
  }

  /** The length check against the row's `length` field, then the normalisation. */
  function Checked(m: Mixture, info: Dict<string>, storeNoise: bool, c: Collaborators): (r: Result<Outputs>)
    ensures r.Ok? ==> "length" in KeySet(info)
                      && c.parsers.toInt(Lookup(info, "length").value) == Some(|m.noisy|)
                      && |r.value.noisy| == |m.noisy|
    ensures r.Ok? ==> SavedWithin(r.value, 0.9) && r.value.noise.Some? == storeNoise
    ensures "length" in KeySet(info) && c.parsers.toInt(Lookup(info, "length").value) == Some(|m.noisy|)
            ==> r == Normalise(m, storeNoise)
  {
    var lengthText :- Get(info, "length");
    var length :- Parsed(c.parsers.toInt(lengthText));
    var _ :- Need(|m.noisy| == length, AssertionError);
    Normalise(m, storeNoise)
  }

  /** One `save_audio(signal, path, fs)` call. */
  datatype AudioWrite = AudioWrite(path: string, audio: Signal)

  /** The files one sample writes, in order, and the exception that ended it, if any. */
  datatype Saved = Saved(writes: seq<AudioWrite>, error: Option<Error>)

  /** No sample of any written file is louder than `level`. */
  predicate WritesWithin(ws: seq<AudioWrite>, level: real)
  {
    forall k, i :: 0 <= k < |ws| && 0 <= i < |ws[k].audio| ==> Abs(ws[k].audio[i]) <= level
  }

  /** The saves in the order the code makes them: each row key with the buffer saved under
      the path it names. */
  function SavePlan(o: Outputs): seq<(string, Signal)>
  {
    [("clean_path", o.clean), ("noisy_path", o.noisy)] + (if o.noise.Some? then [("noise_path", o.noise.value)] else [])
  }

  /** `save_audio(buffer, info[key], fs)` for each planned save in turn. The path is read
      from the row just before its write, so a missing key raises KeyError after the earlier
      files are written. */
  function Save(plan: seq<(string, Signal)>, info: Dict<string>): (r: Saved)
    ensures r.error.None? <==> forall i :: 0 <= i < |plan| ==> plan[i].0 in KeySet(info)
    ensures r.error.None? ==> |r.writes| == |plan|
    ensures r.error.Some? ==> |r.writes| < |plan| && plan[|r.writes|].0 !in KeySet(info)
                              && r.error.value == KeyError(plan[|r.writes|].0)
    ensures |r.writes| <= |plan|
    ensures forall i :: 0 <= i < |r.writes| ==> Lookup(info, plan[i].0) == Some(r.writes[i].path)
                                                && r.writes[i].audio == plan[i].1
    decreases |plan|
  {
    if |plan| == 0 then Saved([], None)
    else
      match Lookup(info, plan[0].0)
      case None => Saved([], Some(KeyError(plan[0].0)))
      case Some(path) =>
        var rest := Save(plan[1..], info);
        assert forall i :: 1 <= i < |plan| ==> plan[1..][i - 1] == plan[i];
        Saved([AudioWrite(path, plan[0].1)] + rest.writes, rest.error)
  }

  /** The length check, the normalisation and the saves (lines 568-581). */
  function Finish(m: Mixture, info: Dict<string>, storeNoise: bool, c: Collaborators): (r: Saved)
    ensures |r.writes| > 0 || r.error.None? ==>
              "length" in KeySet(info) && c.parsers.toInt(Lookup(info, "length").value) == Some(|m.noisy|)
              && Normalise(m, storeNoise).Ok?
    ensures WritesWithin(r.writes, 0.9)
    ensures "clean_path" !in KeySet(info) ==> r.writes == [] && r.error.Some?
    ensures Checked(m, info, storeNoise, c).Ok? && "clean_path" !in KeySet(info) ==> r == Saved([], Some(KeyError("clean_path")))
    ensures Checked(m, info, storeNoise, c).Ok? && "clean_path" in KeySet(info) && "noisy_path" !in KeySet(info) ==>
              r == Saved([AudioWrite(Lookup(info, "clean_path").value, Normalise(m, storeNoise).value.clean)], Some(KeyError("noisy_path")))
    ensures r.error.None? ==>
              && |r.writes| == (if storeNoise then 3 else 2)
              && |r.writes[1].audio| == |m.noisy|
              && Lookup(info, "clean_path") == Some(r.writes[0].path)
              && Lookup(info, "noisy_path") == Some(r.writes[1].path)
              && (storeNoise ==> Lookup(info, "noise_path") == Some(r.writes[2].path))
  {
    match Checked(m, info, storeNoise, c)
    case Failure(e) => Saved([], Some(e))
    case Ok(o) =>
      SaveOutputs(o, info);
      Save(SavePlan(o), info)
  }

  /** Saving normalised outputs: which files are written under which paths, and where a
      missing path stops the saves. */
  lemma SaveOutputs(o: Outputs, info: Dict<string>)
    ensures var r := Save(SavePlan(o), info);
            && (SavedWithin(o, 0.9) ==> WritesWithin(r.writes, 0.9))
            && ("clean_path" !in KeySet(info) ==> r == Saved([], Some(KeyError("clean_path"))))
            && ("clean_path" in KeySet(info) && "noisy_path" !in KeySet(info) ==>
                  r == Saved([AudioWrite(Lookup(info, "clean_path").value, o.clean)], Some(KeyError("noisy_path"))))
            && (r.error.None? ==>
                  && |r.writes| == (if o.noise.Some? then 3 else 2)
                  && r.writes[1].audio == o.noisy
                  && Lookup(info, "clean_path") == Some(r.writes[0].path)
                  && Lookup(info, "noisy_path") == Some(r.writes[1].path)
                  && (o.noise.Some? ==> Lookup(info, "noise_path") == Some(r.writes[2].path)))
  {
    var plan := SavePlan(o);
    var r := Save(plan, info);
    assert plan[0] == ("clean_path", o.clean) && plan[1] == ("noisy_path", o.noisy);
    assert o.noise.Some? ==> plan[2] == ("noise_path", o.noise.value);
    if SavedWithin(o, 0.9) {
      assert forall k :: 0 <= k < |plan| ==> forall i :: 0 <= i < |plan[k].1| ==> Abs(plan[k].1[i]) <= 0.9;
    }
    if "clean_path" in KeySet(info) && "noisy_path" !in KeySet(info) {
      assert |r.writes| == 1;
    }
  }

  /** The fields read before the recipe: id, rate, SNR, the two uids looked up in their
      registries, and the two signals. The RIR uid is read later and filled in by
      `Simulate`. */
  function ReadSample(info: Dict<string>, speechDic: Dict<string>, noiseDic: Dict<string>, c: Collaborators): (r: Result<Sample>)
    ensures "id" !in KeySet(info) ==> r == Failure(KeyError("id"))
    ensures r.Ok? ==> "speech_uid" in KeySet(info) && Lookup(info, "speech_uid").value in KeySet(speechDic)
    ensures r.Ok? ==> "noise_uid" in KeySet(info) && Lookup(info, "noise_uid").value in KeySet(noiseDic)
                      && r.value.noiseUid == Lookup(info, "noise_uid").value
  {
    var uid :- Get(info, "id");
    var fsText :- Get(info, "fs");
    var fs :- Parsed(c.parsers.toInt(fsText));
    var snrText :- Get(info, "snr_dB");
    var snr :- Parsed(c.parsers.toFloat(snrText));
    var speechUid :- Get(info, "speech_uid");
    var speechPath :- Get(speechDic, speechUid);
    var noiseUid :- Get(info, "noise_uid");
    var noisePath :- Get(noiseDic, noiseUid);
    Ok(Sample(uid, fs, snr, noiseUid, "", c.readAudio(speechPath, fs), c.readAudio(noisePath, fs)))
  }
}

=== FILE: recipe.dfy ===
/** The per-sample augmentation recipe: a `/`-separated list of steps, each recognised by
    its prefix and then picked apart by a `re.fullmatch` template whose capture groups are
    greedy `(.*)` (or `(\d+)`), followed by `float()`, `int()`, `bool()` or
    `ast.literal_eval` on the captured text. */
module Recipe {
  import opened Common

  /* ---------------------------------------------------------------------------------------
     `info["augmentation"].split("/")`
     --------------------------------------------------------------------------------------- */

  /** The recipe's steps, in the order they are written. */
  function Steps(augmentation: string): seq<string>
  {
    Split(augmentation, '/')
  }

  /** Splitting is lossless and order-preserving: the steps, rejoined with `/`, are the recipe,
      and a list of slash-free steps written as a recipe is read back unchanged. */
  lemma StepsRoundTrip(augmentation: string, steps: seq<string>)
    requires |steps| >= 1
    requires forall i :: 0 <= i < |steps| ==> '/' !in steps[i]
    ensures Join(Steps(augmentation), '/') == augmentation
    ensures Steps(Join(steps, '/')) == steps
  {
    SplitJoin(steps, '/');
  }

  /* ---------------------------------------------------------------------------------------
     `re.fullmatch` with greedy capture groups
     --------------------------------------------------------------------------------------- */

  /** `(.*)` captures any text without a newline; `(\d+)` one or more digits. */
  datatype Capture = AnyText | Digits

  /** A pattern `head (g1) lit1 (g2) lit2 ... (gn) litn`. */
  datatype Template = Template(head: string, groups: seq<(Capture, string)>)

  predicate Fits(c: Capture, s: string)
  {
    match c
    case AnyText => '\n' !in s
    case Digits => |s| > 0 && AllDigits(s)
  }

  /** The text `v1 lit1 v2 lit2 ... vn litn`. */
  function Assemble(groups: seq<(Capture, string)>, values: seq<string>): string
    requires |values| == |groups|
  {
    if |groups| == 0 then "" else values[0] + groups[0].1 + Assemble(groups[1..], values[1..])
  }

  /** `values` is one way of reading `u` as the groups of the pattern. */
  predicate Decomposes(u: string, groups: seq<(Capture, string)>, values: seq<string>)
  {
    && |values| == |groups|
    && (forall i :: 0 <= i < |values| ==> Fits(groups[i].0, values[i]))
    && Assemble(groups, values) == u
  }

  /** The regex engine's search: the first group tries the longest capture first and gives
      back one character at a time until the rest of the pattern matches. */
  function MatchGroups(u: string, groups: seq<(Capture, string)>): (r: Option<seq<string>>)
    ensures r.Some? ==> Decomposes(u, groups, r.value)
    decreases |groups|, 1, 0
  {
    if |groups| == 0 then (if u == "" then Some([]) else None)
    else TryLength(u, groups, |u|)
  }

  function TryLength(u: string, groups: seq<(Capture, string)>, k: nat): (r: Option<seq<string>>)
    requires |groups| > 0 && k <= |u|
    ensures r.Some? ==> Decomposes(u, groups, r.value)
    decreases |groups|, 0, k
  {
    var lit := groups[0].1;
    var rest := u[k..];
    if Fits(groups[0].0, u[..k]) && StartsWith(rest, lit) && MatchGroups(rest[|lit|..], groups[1..]).Some? then
      var tail := MatchGroups(rest[|lit|..], groups[1..]).value;
      assert Assemble(groups, [u[..k]] + tail) == u[..k] + lit + Assemble(groups[1..], tail);
      assert u == u[..k] + lit + rest[|lit|..];
      Some([u[..k]] + tail)
    else if k == 0 then None
    else TryLength(u, groups, k - 1)
  }

  lemma {:induction false} TryLengthComplete(u: string, groups: seq<(Capture, string)>, values: seq<string>, k: nat)
    requires |groups| > 0 && Decomposes(u, groups, values)
    requires |values[0]| <= k <= |u|
    ensures TryLength(u, groups, k).Some?
    decreases |groups|, 0, k
  {
    var lit := groups[0].1;
    var rest := u[k..];
    assert u == values[0] + lit + Assemble(groups[1..], values[1..]);
    if k == |values[0]| {
      assert u[..k] == values[0];
      assert rest == lit + Assemble(groups[1..], values[1..]);
      assert rest[|lit|..] == Assemble(groups[1..], values[1..]);
      assert Decomposes(rest[|lit|..], groups[1..], values[1..]);
      MatchGroupsComplete(rest[|lit|..], groups[1..], values[1..]);
    } else {
      TryLengthComplete(u, groups, values, k - 1);
    }
  }

  lemma {:induction false} MatchGroupsComplete(u: string, groups: seq<(Capture, string)>, values: seq<string>)
    requires Decomposes(u, groups, values)
    ensures MatchGroups(u, groups).Some?
    decreases |groups|, 1, 0
  {
    if |groups| > 0 {
      assert u == values[0] + groups[0].1 + Assemble(groups[1..], values[1..]);
      TryLengthComplete(u, groups, values, |u|);
    }
  }

  /** The engine finds a match exactly when one exists. */
  lemma MatchGroupsExact(u: string, groups: seq<(Capture, string)>)
    ensures MatchGroups(u, groups).Some? <==> exists vs :: Decomposes(u, groups, vs)
  {
    if vs :| Decomposes(u, groups, vs) {
      MatchGroupsComplete(u, groups, vs);
    }
  }

  /** `re.fullmatch(template, s)`, with `None` for no match. */
  function FullMatch(s: string, t: Template): (r: Option<seq<string>>)
    ensures r.Some? <==> StartsWith(s, t.head) && exists vs :: Decomposes(s[|t.head|..], t.groups, vs)
    ensures r.Some? ==> |r.value| == |t.groups| && s == t.head + Assemble(t.groups, r.value)
    ensures r.Some? ==> forall i :: 0 <= i < |r.value| ==> Fits(t.groups[i].0, r.value[i])
  {
    if StartsWith(s, t.head) then
      MatchGroupsExact(s[|t.head|..], t.groups);
      assert s == t.head + s[|t.head|..];
      MatchGroups(s[|t.head|..], t.groups)
    else None
  }

  /** `match.groups()`: a failed match is `None`, whose `.groups()` raises AttributeError. */
  function Groups(s: string, t: Template): (r: Result<seq<string>>)
    ensures r.Ok? <==> FullMatch(s, t).Some?
    ensures r.Failure? ==> r.error == AttributeError
    ensures r.Ok? ==> |r.value| == |t.groups|
    ensures r.Ok? ==> forall i :: 0 <= i < |r.value| ==> Fits(t.groups[i].0, r.value[i])
  {
    match FullMatch(s, t)
    case Some(vs) => Ok(vs)
    case None => Failure(AttributeError)
  }

  function Fields(names: seq<string>, close: string): seq<(Capture, string)>
    requires |names| >= 1
  {
    if |names| == 1 then [(AnyText, close)]
    else [(AnyText, "," + names[1] + "=")] + Fields(names[1..], close)
  }

  /** `name\(k1=(.*),k2=(.*),...\)` */
  function Call(name: string, keys: seq<string>): Template
    requires |keys| >= 1
  {
    Template(name + "(" + keys[0] + "=", Fields(keys, ")"))
  }

  const LoudnessTemplate: Template := Call("loudness_transition", ["start", "peak", "end", "gain_db"])
  const WindTemplate: Template :=
    Call("wind_noise", ["threshold", "ratio", "attack", "release", "sc_gain", "clipping", "clipping_threshold"])
  const BandwidthTemplate: Template :=
    Template("bandwidth_limitation-", [(AnyText, "->"), (Digits, "")])
  const ClippingTemplate: Template := Call("clipping", ["min", "max"])
  const NonflatTemplate: Template :=
    Call("nonflat_freq_res", ["low_shelf_hz", "high_shelf_hz", "low_shelf_db", "high_shelf_db", "peak_hz", "peak_db"])
  const CodecTemplate: Template := Call("codec", ["vbr_quality"])
  const PacketLossTemplate: Template := Call("packet_loss", ["packet_loss_indices", "packet_duration_ms"])

  /* ---------------------------------------------------------------------------------------
     Step dispatch (the `if/elif` chain of the secondary pass)
     --------------------------------------------------------------------------------------- */

  datatype Kind =
    | Blank | LoudnessKind | WindKind | BandwidthKind | ClippingKind | NonflatKind | CodecKind | PacketLossKind
    | Unknown

  /** The branch a step takes, decided in the order of the code's `if/elif` chain. */
  function KindOf(a: string): Kind
  {
    if a == "none" || a == "" then Blank
    else if StartsWith(a, "loudness_transition") then LoudnessKind
    else if StartsWith(a, "wind_noise") then WindKind
    else if StartsWith(a, "bandwidth_limitation") then BandwidthKind
    else if StartsWith(a, "clipping") then ClippingKind
    else if StartsWith(a, "nonflat_freq_res") then NonflatKind
    else if StartsWith(a, "codec") then CodecKind
    else if StartsWith(a, "packet_loss") then PacketLossKind
    else Unknown
  }

  /** Steps the secondary pass leaves alone: they were consumed earlier, or say nothing. */
  predicate Skipped(k: Kind)
  {
    k == Blank || k == LoudnessKind || k == WindKind
  }

  const Prefixes: seq<string> :=
    ["loudness_transition", "wind_noise", "bandwidth_limitation", "clipping", "nonflat_freq_res", "codec", "packet_loss"]

  /** A step is rejected exactly when it is neither blank nor begins with a known name;
      it is skipped exactly when it is blank or a loudness-transition or wind-noise step. */
  lemma KindOfClassifies(a: string)
    ensures KindOf(a) == Unknown <==> a != "none" && a != "" && forall i :: 0 <= i < |Prefixes| ==> !StartsWith(a, Prefixes[i])
    ensures Skipped(KindOf(a)) <==> a == "none" || a == "" || StartsWith(a, "loudness_transition") || StartsWith(a, "wind_noise")
  {
    if KindOf(a) != Unknown && a != "none" && a != "" {
      var k := KindOf(a);
      var i := if k == LoudnessKind then 0 else if k == WindKind then 1 else if k == BandwidthKind then 2
               else if k == ClippingKind then 3 else if k == NonflatKind then 4 else if k == CodecKind then 5 else 6;
      assert StartsWith(a, Prefixes[i]);
    }
  }

  /** A step of the secondary pass with its parameters converted. */
  datatype Step =
    | Pass
    | Bandwidth(resType: string, fsNew: nat)
    | Clip(minQuantile: real, maxQuantile: real)
    | Nonflat(lowShelfHz: int, highShelfHz: int, lowShelfDb: real, highShelfDb: real, peakHz: Literal, peakDb: Literal)
    | Codec(vbrQuality: real)
    | PacketLoss(indices: Literal, durationMs: int)

  function TemplateOf(k: Kind): Template
    requires !Skipped(k) && k != Unknown
  {
    match k
    case BandwidthKind => BandwidthTemplate
    case ClippingKind => ClippingTemplate
    case NonflatKind => NonflatTemplate
    case CodecKind => CodecTemplate
    case PacketLossKind => PacketLossTemplate
  }

  /** One step of the secondary pass, read as the code reads it. */
  function ParseStep(a: string, p: Parsers): (r: Result<Step>)
    ensures Skipped(KindOf(a)) ==> r == Ok(Pass)
    ensures KindOf(a) == Unknown ==> r == Failure(NotImplementedError(a))
    ensures (!Skipped(KindOf(a)) && KindOf(a) != Unknown && FullMatch(a, TemplateOf(KindOf(a))).None?)
              ==> r == Failure(AttributeError)
    ensures r.Ok? && r.value != Pass ==> !Skipped(KindOf(a)) && KindOf(a) != Unknown
    ensures KindOf(a) == BandwidthKind && r.Ok? ==>
              Groups(a, BandwidthTemplate).Ok? && r.value == Bandwidth(Groups(a, BandwidthTemplate).value[0], DigitsValue(Groups(a, BandwidthTemplate).value[1]))
  {
    var k := KindOf(a);
    if Skipped(k) then Ok(Pass)
    else if k == Unknown then Failure(NotImplementedError(a))
    else
      var g :- Groups(a, TemplateOf(k));
      ReadStep(k, g, p)
  }

  /** The conversions applied to the captured groups of a matched step, in argument order;
      a text the converter refuses is its ValueError. */
  function ReadStep(k: Kind, g: seq<string>, p: Parsers): (r: Result<Step>)
    requires !Skipped(k) && k != Unknown && |g| == |TemplateOf(k).groups|
    requires forall i :: 0 <= i < |g| ==> Fits(TemplateOf(k).groups[i].0, g[i])
    ensures r.Ok? ==> r.value != Pass
    ensures k == BandwidthKind ==> AllDigits(g[1]) && r == Ok(Bandwidth(g[0], DigitsValue(g[1])))
    ensures k == ClippingKind ==> (r.Ok? <==> p.toFloat(g[0]).Some? && p.toFloat(g[1]).Some?)
    ensures k == ClippingKind && r.Ok? ==> r.value == Clip(p.toFloat(g[0]).value, p.toFloat(g[1]).value)
    ensures k == NonflatKind ==>
              (r.Ok? <==> p.toInt(g[0]).Some? && p.toInt(g[1]).Some? && p.toFloat(g[2]).Some? && p.toFloat(g[3]).Some?
                          && p.literalEval(g[4]).Value? && p.literalEval(g[5]).Value?)
    ensures k == NonflatKind && r.Ok? ==>
              r.value == Nonflat(p.toInt(g[0]).value, p.toInt(g[1]).value, p.toFloat(g[2]).value, p.toFloat(g[3]).value,
                                 p.literalEval(g[4]).v, p.literalEval(g[5]).v)
    ensures k == CodecKind ==> (r.Ok? <==> p.toFloat(g[0]).Some?)
    ensures k == CodecKind && r.Ok? ==> r.value == Codec(p.toFloat(g[0]).value)
    ensures k == PacketLossKind ==> (r.Ok? <==> p.literalEval(g[0]).Value? && p.toInt(g[1]).Some?)
    ensures k == PacketLossKind && r.Ok? ==> r.value == PacketLoss(p.literalEval(g[0]).v, p.toInt(g[1]).value)
    ensures k == PacketLossKind && r.Failure? ==>
              r.error == (if p.literalEval(g[0]).Value? then ValueError else LiteralEval(p, g[0]).error)
    ensures (k == ClippingKind || k == CodecKind) && r.Failure? ==> r.error == ValueError
    ensures k == NonflatKind && r.Failure? ==>
              r.error == (if p.toInt(g[0]).Some? && p.toInt(g[1]).Some? && p.toFloat(g[2]).Some? && p.toFloat(g[3]).Some?
                          then (if p.literalEval(g[4]).Value? then LiteralEval(p, g[5]).error else LiteralEval(p, g[4]).error)
                          else ValueError)
    ensures r.Failure? && r.error != ValueError ==>
              r.error == SyntaxError && exists j :: 0 <= j < |g| && p.literalEval(g[j]).BadSyntax?
  {
    match k
    case BandwidthKind =>
      assert Fits(TemplateOf(k).groups[1].0, g[1]);
      Ok(Bandwidth(g[0], DigitsValue(g[1])))
    case ClippingKind =>
      var lo :- Parsed(p.toFloat(g[0]));
      var hi :- Parsed(p.toFloat(g[1]));
      Ok(Clip(lo, hi))
    case NonflatKind =>
      var lowHz :- Parsed(p.toInt(g[0]));
      var highHz :- Parsed(p.toInt(g[1]));
      var lowDb :- Parsed(p.toFloat(g[2]));
      var highDb :- Parsed(p.toFloat(g[3]));
      var peakHz :- LiteralEval(p, g[4]);
      var peakDb :- LiteralEval(p, g[5]);
      Ok(Nonflat(lowHz, highHz, lowDb, highDb, peakHz, peakDb))
    case CodecKind =>
      var q :- Parsed(p.toFloat(g[0]));
      Ok(Codec(q))
    case PacketLossKind =>
      var indices :- LiteralEval(p, g[0]);
      var duration :- Parsed(p.toInt(g[1]));
      Ok(PacketLoss(indices, duration))
  }

  /** A parsed `bandwidth_limitation` step reads back as its step text: the resampler name
      and the decimal rate are exactly the two captured groups. */
  lemma BandwidthStepText(a: string, p: Parsers)
    requires KindOf(a) == BandwidthKind && ParseStep(a, p).Ok?
    ensures ParseStep(a, p).value.Bandwidth?
    ensures exists d :: |d| > 0 && AllDigits(d) && DigitsValue(d) == ParseStep(a, p).value.fsNew
                        && a == "bandwidth_limitation-" + ParseStep(a, p).value.resType + "->" + d
  {
    var g := Groups(a, BandwidthTemplate).value;
    BandwidthGroups(a, g);
  }

  lemma BandwidthGroups(a: string, g: seq<string>)
    requires Groups(a, BandwidthTemplate) == Ok(g)
    ensures |g| == 2 && |g[1]| > 0 && AllDigits(g[1]) && a == "bandwidth_limitation-" + g[0] + "->" + g[1]
  {
    var gs := BandwidthTemplate.groups;
    assert Assemble(gs[1..], g[1..]) == g[1] + "" + Assemble(gs[2..], g[2..]);
    assert Assemble(gs, g) == g[0] + "->" + Assemble(gs[1..], g[1..]);
    assert Fits(gs[1].0, g[1]);
  }

  /* ---------------------------------------------------------------------------------------
     Loudness transition and wind noise: read before the secondary pass
     --------------------------------------------------------------------------------------- */

  function IsLoudnessStep(a: string): bool { StartsWith(a, "loudness_transition") }
  function IsWindStep(a: string): bool { StartsWith(a, "wind_noise") }

  /** The four literal lists of a `loudness_transition(start=...,peak=...,end=...,gain_db=...)`
      step, evaluated in argument order. */
  function LoudnessArguments(a: string, p: Parsers): (r: Result<seq<Literal>>)
    ensures FullMatch(a, LoudnessTemplate).None? ==> r == Failure(AttributeError)
    ensures Groups(a, LoudnessTemplate).Ok? ==>
              var g := Groups(a, LoudnessTemplate).value;
              && (r.Ok? <==> forall j :: 0 <= j < 4 ==> p.literalEval(g[j]).Value?)
              && (r.Ok? ==> |r.value| == 4 && forall j :: 0 <= j < 4 ==> r.value[j] == p.literalEval(g[j]).v)
              && (r.Failure? ==> exists j :: 0 <= j < 4 && (forall i :: 0 <= i < j ==> p.literalEval(g[i]).Value?)
                                             && !p.literalEval(g[j]).Value? && r == Failure(LiteralEval(p, g[j]).error))
  {
    var g :- Groups(a, LoudnessTemplate);
    LiteralEvalAll(p, g)
  }

  datatype WindParams = WindParams(
    threshold: real, ratio: real, attack: real, release: real, scGain: real,
    clipping: bool, clippingThreshold: real)

  /** `float()` accepts the six numeric fields of a wind step: every captured group except
      the clipping flag (group 5). */
  predicate WindFloatsRead(g: seq<string>, p: Parsers)
    requires |g| == 7
  {
    && p.toFloat(g[0]).Some? && p.toFloat(g[1]).Some? && p.toFloat(g[2]).Some?
    && p.toFloat(g[3]).Some? && p.toFloat(g[4]).Some? && p.toFloat(g[6]).Some?
  }

  /** The wind-noise configuration: the recipe must hold exactly one `wind_noise` step. The
      clipping flag is `bool()` of the captured text, so any non-empty text (even `False`)
      switches clipping on. */
  function WindConfig(steps: seq<string>, p: Parsers): (r: Result<WindParams>)
    ensures |Select(steps, IsWindStep)| != 1 ==> r == Failure(AssertionError)
    ensures (|Select(steps, IsWindStep)| == 1 && FullMatch(Select(steps, IsWindStep)[0], WindTemplate).None?)
              ==> r == Failure(AttributeError)
    ensures r.Ok? ==> |Select(steps, IsWindStep)| == 1
                      && var g := FullMatch(Select(steps, IsWindStep)[0], WindTemplate);
                         g.Some? && r.value.clipping == (g.value[5] != "")
    ensures var chosen := Select(steps, IsWindStep);
            |chosen| == 1 && Groups(chosen[0], WindTemplate).Ok? ==>
              var g := Groups(chosen[0], WindTemplate).value;
              && (r.Ok? <==> WindFloatsRead(g, p))
              && (r.Ok? ==> r.value == WindParams(p.toFloat(g[0]).value, p.toFloat(g[1]).value, p.toFloat(g[2]).value,
                                                   p.toFloat(g[3]).value, p.toFloat(g[4]).value, g[5] != "",
                                                   p.toFloat(g[6]).value))
              && (r.Failure? ==> r.error == ValueError)
  {
    WindParamsOf(Select(steps, IsWindStep), p)
  }

  /** The configuration read from the `wind_noise` steps of a recipe. */
  function WindParamsOf(chosen: seq<string>, p: Parsers): (r: Result<WindParams>)
    ensures |chosen| != 1 ==> r == Failure(AssertionError)
    ensures |chosen| == 1 && FullMatch(chosen[0], WindTemplate).None? ==> r == Failure(AttributeError)
    ensures r.Ok? ==> |chosen| == 1 && var g := FullMatch(chosen[0], WindTemplate);
                                       g.Some? && r.value.clipping == (g.value[5] != "")
    ensures |chosen| == 1 && Groups(chosen[0], WindTemplate).Ok? ==>
              var g := Groups(chosen[0], WindTemplate).value;
              && (r.Ok? <==> WindFloatsRead(g, p))
              && (r.Ok? ==> r.value == WindParams(p.toFloat(g[0]).value, p.toFloat(g[1]).value, p.toFloat(g[2]).value,
                                                   p.toFloat(g[3]).value, p.toFloat(g[4]).value, g[5] != "",
                                                   p.toFloat(g[6]).value))
              && (r.Failure? ==> r.error == ValueError)
  {
    var _ :- Need(|chosen| == 1, AssertionError);
    var g :- Groups(chosen[0], WindTemplate);
    var threshold :- Parsed(p.toFloat(g[0]));
    var ratio :- Parsed(p.toFloat(g[1]));
    var attack :- Parsed(p.toFloat(g[2]));
    var release :- Parsed(p.toFloat(g[3]));
    var scGain :- Parsed(p.toFloat(g[4]));
    var clippingThreshold :- Parsed(p.toFloat(g[6]));
    Ok(WindParams(threshold, ratio, attack, release, scGain, g[5] != "", clippingThreshold))
  }
}

=== FILE: registry.dfy ===
/** The registries `main` builds before simulating (simulate_data_from_param2.py:355-392):
    each scp file is a list of `uid fs path` lines folded into an insertion-ordered
    dictionary from uid to path, the wind-noise registry is merged over the noise registry,
    and the RIR registry is optional. */
module Registry {
  import opened Common

  /** The lines of one scp file. */
  type Scp = seq<string>

  datatype Registries = Registries(speech: Dict<string>, noise: Dict<string>, rir: Option<Dict<string>>)

  /** `uid, fs, audio_path = line.strip().split()`: exactly three words, else the unpacking's
      ValueError. */
  function ParseLine(line: string): (r: Result<(string, string)>)
    ensures r.Ok? <==> |Tokens(line)| == 3
    ensures r.Ok? ==> r.value == (Tokens(line)[0], Tokens(line)[2])
    ensures r.Failure? ==> r.error == ValueError
  {
    var t := Tokens(line);
    if |t| == 3 then Ok((t[0], t[2])) else Failure(ValueError)
  }

  function Uid(line: string): string
    requires |Tokens(line)| == 3
  {
    Tokens(line)[0]
  }

  function Path(line: string): string
    requires |Tokens(line)| == 3
  {
    Tokens(line)[2]
  }

  /** Every line has three words, and no uid is already registered or repeated. */
  predicate Registrable(d: Dict<string>, lines: seq<string>)
  {
    && (forall i :: 0 <= i < |lines| ==> |Tokens(lines[i])| == 3)
    && (forall i :: 0 <= i < |lines| ==> Uid(lines[i]) !in KeySet(d))
    && (forall i, j :: 0 <= i < j < |lines| ==> Uid(lines[i]) != Uid(lines[j]))
  }

  /** The entries the lines describe, in line order. */
  function Entries(lines: seq<string>): (r: Dict<string>)
    requires forall i :: 0 <= i < |lines| ==> |Tokens(lines[i])| == 3
    ensures |r| == |lines|
  {
    seq(|lines|, i requires 0 <= i < |lines| => (Uid(lines[i]), Path(lines[i])))
  }

  /** The lines of one file added to `d` in order, under the duplicate-id assertion. The
      registry succeeds exactly when every line is registrable, and then holds `d` followed
      by one entry per line, in line order, with no uid twice. */
  function AddLines(d: Dict<string>, lines: seq<string>): (r: Result<Dict<string>>)
    requires UniqueKeys(d)
    ensures r.Ok? <==> Registrable(d, lines)
    ensures r.Failure? ==> r.error == ValueError || r.error == AssertionError
    ensures r.Ok? ==> Registrable(d, lines) && r.value == d + Entries(lines) && UniqueKeys(r.value)
    decreases |lines|
  {
    if |lines| == 0 then
      assert d + Entries(lines) == d;
      Ok(d)
    else
      var e :- ParseLine(lines[0]);
      var _ :- Need(e.0 !in KeySet(d), AssertionError);
      RegistrableStep(d, lines);
      AddLines(Put(d, e.0, e.1), lines[1..])
  }

  /** Registering a first line, then the rest against the grown registry. */
  lemma RegistrableStep(d: Dict<string>, lines: seq<string>)
    requires |lines| > 0 && |Tokens(lines[0])| == 3 && Uid(lines[0]) !in KeySet(d)
    ensures Registrable(d, lines)
            <==> Registrable(d + [(Uid(lines[0]), Path(lines[0]))], lines[1..])
    ensures Registrable(d, lines) ==>
              d + Entries(lines) == (d + [(Uid(lines[0]), Path(lines[0]))]) + Entries(lines[1..])
  {
    KeySetSnoc(d, (Uid(lines[0]), Path(lines[0])));
    if Registrable(d, lines) {
      RegistrableTail(d, lines);
      EntriesCons(lines);
    }
    if Registrable(d + [(Uid(lines[0]), Path(lines[0]))], lines[1..]) {
      RegistrableCons(d, lines);
    }
  }

  lemma RegistrableTail(d: Dict<string>, lines: seq<string>)
    requires |lines| > 0 && Registrable(d, lines)
    requires KeySet(d + [(Uid(lines[0]), Path(lines[0]))]) == KeySet(d) + {Uid(lines[0])}
    ensures Registrable(d + [(Uid(lines[0]), Path(lines[0]))], lines[1..])
  {
    var rest := lines[1..];
    assert forall i :: 0 <= i < |rest| ==> rest[i] == lines[i + 1];
  }

  lemma RegistrableCons(d: Dict<string>, lines: seq<string>)
    requires |lines| > 0 && |Tokens(lines[0])| == 3 && Uid(lines[0]) !in KeySet(d)
    requires KeySet(d + [(Uid(lines[0]), Path(lines[0]))]) == KeySet(d) + {Uid(lines[0])}
    requires Registrable(d + [(Uid(lines[0]), Path(lines[0]))], lines[1..])
    ensures Registrable(d, lines)
  {
    var rest := lines[1..];
    assert forall i :: 1 <= i < |lines| ==> rest[i - 1] == lines[i];
    forall i, j | 0 <= i < j < |lines|
      ensures Uid(lines[i]) != Uid(lines[j])
    {
      assert rest[j - 1] == lines[j];
      if i > 0 {
        assert rest[i - 1] == lines[i];
      }
    }
  }

  lemma EntriesCons(lines: seq<string>)
    requires |lines| > 0 && forall i :: 0 <= i < |lines| ==> |Tokens(lines[i])| == 3
    ensures Entries(lines) == [(Uid(lines[0]), Path(lines[0]))] + Entries(lines[1..])
  {
    assert forall i :: 1 <= i < |lines| ==> lines[1..][i - 1] == lines[i];
  }

  /** The files of one kind read one after the other into the same registry. */
  function ReadScps(d: Dict<string>, files: seq<Scp>): (r: Result<Dict<string>>)
    requires UniqueKeys(d)
    ensures r.Ok? ==> UniqueKeys(r.value)
    decreases |files|
  {
    if |files| == 0 then Ok(d)
    else
      var d' :- AddLines(d, files[0]);
      ReadScps(d', files[1..])
  }

  function Concat(files: seq<Scp>): seq<string>
    decreases |files|
  {
    if |files| == 0 then [] else files[0] + Concat(files[1..])
  }

  /** Reading the files one by one is reading their lines as one file: the duplicate check
      spans files. */
  lemma {:induction false} ReadScpsIsOneFile(d: Dict<string>, files: seq<Scp>)
    requires UniqueKeys(d)
    ensures ReadScps(d, files) == AddLines(d, Concat(files))
    decreases |files|
  {
    if |files| > 0 {
      AddLinesAppend(d, files[0], Concat(files[1..]));
      var first := AddLines(d, files[0]);
      if first.Ok? {
        ReadScpsIsOneFile(first.value, files[1..]);
      }
    }
  }

  lemma {:induction false} AddLinesAppend(d: Dict<string>, a: seq<string>, b: seq<string>)
    requires UniqueKeys(d)
    ensures AddLines(d, a + b)
            == match AddLines(d, a)
               case Ok(d') => AddLines(d', b)
               case Failure(e) => Failure(e)
    decreases |a|
  {
    if |a| == 0 {
      assert a + b == b;
    } else {
      assert (a + b)[0] == a[0] && (a + b)[1..] == a[1..] + b;
      var e := ParseLine(a[0]);
      if e.Ok? && e.value.0 !in KeySet(d) {
        AddLinesAppend(Put(d, e.value.0, e.value.1), a[1..], b);
      }
    }
  }

  /** `d.update(e)`: every entry of `e` put into `d` in order. Keys of `e` take `e`'s value;
      the other keys keep theirs and their places. */
  function Update(d: Dict<string>, e: Dict<string>): (r: Dict<string>)
    requires UniqueKeys(d) && UniqueKeys(e)
    ensures UniqueKeys(r)
    ensures KeySet(r) == KeySet(d) + KeySet(e)
    ensures forall k :: Lookup(r, k) == if k in KeySet(e) then Lookup(e, k) else Lookup(d, k)
    decreases |e|
  {
    if |e| == 0 then d
    else
      var d' := Put(d, e[0].0, e[0].1);
      var rest := e[1..];
      assert UniqueKeys(rest);
      var r := Update(d', rest);
      UpdateStep(e);
      r
  }

  /** The keys already present keep their places; new keys come after them. */
  lemma {:induction false} UpdateKeepsPlaces(d: Dict<string>, e: Dict<string>)
    requires UniqueKeys(d) && UniqueKeys(e)
    ensures |d| <= |Update(d, e)| && forall i :: 0 <= i < |d| ==> Update(d, e)[i].0 == d[i].0
    decreases |e|
  {
    if |e| > 0 {
      var d' := Put(d, e[0].0, e[0].1);
      assert UniqueKeys(e[1..]);
      UpdateKeepsPlaces(d', e[1..]);
      assert forall i :: 0 <= i < |d| ==> d'[i].0 == d[i].0;
    }
  }

  lemma UpdateStep(e: Dict<string>)
    requires |e| > 0 && UniqueKeys(e)
    ensures KeySet(e) == {e[0].0} + KeySet(e[1..])
    ensures e[0].0 !in KeySet(e[1..])
    ensures Lookup(e, e[0].0) == Some(e[0].1)
    ensures forall k :: k != e[0].0 ==> Lookup(e, k) == Lookup(e[1..], k)
  {
    assert forall i :: 1 <= i < |e| ==> e[1..][i - 1] == e[i];
    forall k | k != e[0].0 && k in KeySet(e)
      ensures k in KeySet(e[1..]) && Lookup(e, k) == Lookup(e[1..], k)
    {
      var i := IndexOfKey(e, k);
      assert e[1..][i - 1] == e[i];
      IndexOfKeyUnique(e[1..], k, i - 1);
    }
  }

  /** The three registries as `main` builds them. `dict(rir_dic)` is applied even when no
      RIR files were given, and `dict(None)` raises TypeError. */
  function BuildRegistriesAsWritten(speechScps: seq<Scp>, noiseScps: seq<Scp>, windScps: seq<Scp>,
                                    rirScps: Option<seq<Scp>>): (r: Result<Registries>)
    ensures rirScps.None? ==> r.Failure?
    ensures rirScps.Some? ==> r == BuildRegistries(speechScps, noiseScps, windScps, rirScps)
  {
    var b :- BuildRegistries(speechScps, noiseScps, windScps, rirScps);
    if b.rir.None? then Failure(TypeError) else Ok(b)
  }

  /** The registries with the RIR registry left absent when no RIR files were given. The
      noise registry holds the noise and wind-noise uids, a wind-noise path winning over a
      noise path with the same uid. */
  function BuildRegistries(speechScps: seq<Scp>, noiseScps: seq<Scp>, windScps: seq<Scp>,
                           rirScps: Option<seq<Scp>>): (r: Result<Registries>)
    ensures r.Ok? <==> ReadScps([], speechScps).Ok? && ReadScps([], noiseScps).Ok? && ReadScps([], windScps).Ok?
                       && (rirScps.Some? ==> ReadScps([], rirScps.value).Ok?)
    ensures r.Ok? ==> r.value.rir.Some? == rirScps.Some?
    ensures r.Ok? ==> var noise := ReadScps([], noiseScps).value;
                      var wind := ReadScps([], windScps).value;
                      KeySet(r.value.noise) == KeySet(noise) + KeySet(wind)
                      && forall k :: Lookup(r.value.noise, k) == if k in KeySet(wind) then Lookup(wind, k) else Lookup(noise, k)
  {
    var speech :- ReadScps([], speechScps);
    var noise :- ReadScps([], noiseScps);
    var wind :- ReadScps([], windScps);
    var rir :- match rirScps
               case None => Ok(None)
               case Some(files) =>
                 var d :- ReadScps([], files);
                 Ok(Some(d));
    Ok(Registries(speech, Update(noise, wind), rir))
  }

  /** Without RIR files `main` stops with a TypeError where the registries it means to
      build exist: all empty, with no RIR registry. */
  lemma AsWrittenRejectsMissingRir()
    ensures BuildRegistriesAsWritten([], [], [], None) == Failure(TypeError)
    ensures BuildRegistries([], [], [], None) == Ok(Registries([], [], None))
  {
  }
}

=== FILE: resolve_paths.dfy ===
/** utils/resolve_file_path.py: rewriting a json of `key -> [path, ...]` entries so that each
    entry whose key is the stem of an audio file found on disk points at that file; entries
    with no such file are dropped. The directory walk and the json reading and writing are
    left to the caller: the audio files are given as their paths, the json as a `Dict`. */
module ResolvePaths {
  import opened Common
  import opened Paths

  /** A json value inside an entry: a string, or anything else (kept as its json text). */
  datatype Item = Str(s: string) | OtherItem(json: string)

  /** A json entry: a list, or a value of another kind (string, number, object, ...). */
  datatype Entry = List(items: seq<Item>) | NotList(json: string)

  /** `path.stem` of a file found on disk. */
  function StemOf(path: string): string
  {
    Stem(Name(path))
  }

  /** The (stem, path) pair of each file, in walk order. */
  function StemPairs(files: seq<string>): (pairs: seq<(string, string)>)
    ensures |pairs| == |files|
    ensures forall i :: 0 <= i < |files| ==> pairs[i] == (StemOf(files[i]), files[i])
    ensures (set i | 0 <= i < |pairs| :: pairs[i].0) == set i | 0 <= i < |files| :: StemOf(files[i])
  {
    seq(|files|, i requires 0 <= i < |files| => (StemOf(files[i]), files[i]))
  }

  /** `audio_paths[path.stem] = str(path)` for each file in turn: a later file with the same
      stem replaces an earlier one. */
  function AudioPaths(files: seq<string>): (d: Dict<string>)
    ensures UniqueKeys(d)
    ensures KeySet(d) == set i | 0 <= i < |files| :: StemOf(files[i])
    ensures forall i :: 0 <= i < |files| && (forall j :: i < j < |files| ==> StemOf(files[j]) != StemOf(files[i]))
                        ==> Lookup(d, StemOf(files[i])) == Some(files[i])
  {
    FromPairs(StemPairs(files))
  }

  /** The json file must be named `*.json`; anything else is a RuntimeError. */
  function CheckJsonFile(jsonFile: string): (r: Result<()>)
    ensures r.Ok? <==> Suffix(Name(jsonFile)) == ".json"
    ensures r.Failure? ==> r.error == RuntimeError
  {
    Need(Suffix(Name(jsonFile)) == ".json", RuntimeError)
  }

  /** An entry with an element 0 to replace. */
  predicate HasFirst(e: Entry)
  {
    e.List? && |e.items| > 0
  }

  /** `this_data[0] = path`: an empty list has no element 0 and a non-list cannot be
      assigned into. */
  function ReplaceFirst(e: Entry, path: string): (r: Result<Entry>)
    ensures r.Ok? <==> HasFirst(e)
    ensures r.Failure? ==> r.error == (if e.List? then IndexError else TypeError)
    ensures r.Ok? ==> r.value.List? && |r.value.items| == |e.items|
                      && r.value.items[0] == Str(path) && r.value.items[1..] == e.items[1..]
  {
    match e
    case NotList(_) => Failure(TypeError)
    case List(items) => if |items| == 0 then Failure(IndexError) else Ok(List(items[0 := Str(path)]))
  }

  /** The json entries whose key is the stem of an audio file. */
  function InAudio(audio: Dict<string>): ((string, Entry)) -> bool
  {
    (kv: (string, Entry)) => kv.0 in KeySet(audio)
  }

  /** Where the first entry without an element 0 sits (the length when there is none). */
  function FirstUnresolvable(entries: Dict<Entry>): (i: nat)
    ensures i <= |entries|
    ensures forall j :: 0 <= j < i ==> HasFirst(entries[j].1)
    ensures i < |entries| ==> !HasFirst(entries[i].1)
  {
    if |entries| == 0 || !HasFirst(entries[0].1) then 0 else 1 + FirstUnresolvable(entries[1..])
  }

  /** The loop over the json's keys: each key with an audio file is kept, in order, with
      element 0 of its entry replaced by the file's path; the others are skipped. The loop
      stops at the first kept entry that cannot be assigned into, with that entry's error. */
  function Resolve(data: Dict<Entry>, audio: Dict<string>): (r: Result<Dict<Entry>>)
    ensures var kept := Select(data, InAudio(audio));
            r.Ok? <==> forall i :: 0 <= i < |kept| ==> HasFirst(kept[i].1)
    ensures var kept := Select(data, InAudio(audio));
            var i := FirstUnresolvable(kept);
            r.Failure? ==> i < |kept| && r.error == (if kept[i].1.List? then IndexError else TypeError)
    ensures var kept := Select(data, InAudio(audio));
            r.Ok? ==> |r.value| == |kept| && forall i :: 0 <= i < |kept| ==> Resolved(kept[i], audio, r.value[i])
    decreases |data|
  {
    if |data| == 0 then Ok([])
    else
      var keep := InAudio(audio);
      assert Select(data, keep) == (if keep(data[0]) then [data[0]] else []) + Select(data[1..], keep);
      var tail := Resolve(data[1..], audio);
      ResolveFirstExplains(data[0], audio, Select(data[1..], keep), tail);
      ResolveFirst(data[0], audio, tail)
  }

  /** One iteration of the loop, in front of the outcome of the iterations after it. */
  function ResolveFirst(kv: (string, Entry), audio: Dict<string>, tail: Result<Dict<Entry>>): Result<Dict<Entry>>
  {
    if !InAudio(audio)(kv) then tail
    else
      var kept :- ReplaceFirst(kv.1, Lookup(audio, kv.0).value);
      var rest :- tail;
      Ok([(kv.0, kept)] + rest)
  }

  /** `r` is the outcome of the loop over the entries `kept` that have an audio file. */
  predicate Explains(kept: Dict<Entry>, audio: Dict<string>, r: Result<Dict<Entry>>)
  {
    && (r.Ok? <==> forall i :: 0 <= i < |kept| ==> HasFirst(kept[i].1))
    && (r.Failure? ==> FirstUnresolvable(kept) < |kept|
                       && r.error == (if kept[FirstUnresolvable(kept)].1.List? then IndexError else TypeError))
    && (r.Ok? ==> |r.value| == |kept| && forall i :: 0 <= i < |kept| ==> Resolved(kept[i], audio, r.value[i]))
  }

  lemma ResolveFirstExplains(kv: (string, Entry), audio: Dict<string>, kept: Dict<Entry>, tail: Result<Dict<Entry>>)
    requires forall i :: 0 <= i < |kept| ==> InAudio(audio)(kept[i])
    requires Explains(kept, audio, tail)
    ensures Explains((if InAudio(audio)(kv) then [kv] else []) + kept, audio, ResolveFirst(kv, audio, tail))
  {
    if InAudio(audio)(kv) {
      var all := [kv] + kept;
      assert all[1..] == kept;
      if HasFirst(kv.1) {
        assert FirstUnresolvable(all) == 1 + FirstUnresolvable(kept);
        var out := (kv.0, ReplaceFirst(kv.1, Lookup(audio, kv.0).value).value);
        if tail.Ok? {
          ResolvedCons(kv, audio, out, kept, tail.value);
          assert forall i :: 1 <= i < |all| ==> all[i] == kept[i - 1];
        } else {
          assert all[FirstUnresolvable(all)] == kept[FirstUnresolvable(kept)];
        }
      } else {
        assert FirstUnresolvable(all) == 0;
      }
    } else {
      assert [] + kept == kept;
    }
  }

  /** Two kept entries that both fail: the loop stops at the first, an empty list, and
      raises its IndexError. */
  lemma ResolveStopsAtFirst(audio: Dict<string>)
    requires "a" in KeySet(audio) && "b" in KeySet(audio)
    ensures Resolve([("a", List([])), ("b", NotList("x"))], audio) == Failure(IndexError)
  {
    var data := [("a", List([])), ("b", NotList("x"))];
    assert Select(data, InAudio(audio)) == data;
  }

  /** `out` is entry `kv` with its path resolved. */
  predicate Resolved(kv: (string, Entry), audio: Dict<string>, out: (string, Entry))
  {
    kv.0 in KeySet(audio) && out.0 == kv.0 && ReplaceFirst(kv.1, Lookup(audio, kv.0).value) == Ok(out.1)
  }

  lemma ResolvedCons(kv: (string, Entry), audio: Dict<string>, out: (string, Entry),
                     kept: Dict<Entry>, rest: Dict<Entry>)
    requires Resolved(kv, audio, out)
    requires |rest| == |kept| && forall i :: 0 <= i < |kept| ==> Resolved(kept[i], audio, rest[i])
    ensures forall i :: 0 <= i < |[kv] + kept| ==> Resolved(([kv] + kept)[i], audio, ([out] + rest)[i])
  {
    forall i | 1 <= i < |[kv] + kept|
      ensures Resolved(([kv] + kept)[i], audio, ([out] + rest)[i])
    {
      assert ([kv] + kept)[i] == kept[i - 1] && ([out] + rest)[i] == rest[i - 1];
    }
  }

  /** The whole script after the directory walk and the json load: the suffix check comes
      first. */
  function Run(jsonFile: string, data: Dict<Entry>, files: seq<string>): (r: Result<Dict<Entry>>)
    requires UniqueKeys(data)
    ensures Suffix(Name(jsonFile)) != ".json" ==> r == Failure(RuntimeError)
    ensures Suffix(Name(jsonFile)) == ".json" ==> r == Resolve(data, AudioPaths(files))
  {
    var _ :- CheckJsonFile(jsonFile);
    Resolve(data, AudioPaths(files))
  }

  /** A kept entry is the input entry with only its first element changed, to the path of
      the last audio file with the key as its stem. */
  lemma ResolvedEntry(data: Dict<Entry>, files: seq<string>, j: nat, f: nat)
    requires UniqueKeys(data) && Resolve(data, AudioPaths(files)).Ok?
    requires j < |data| && f < |files| && StemOf(files[f]) == data[j].0
    requires forall g :: f < g < |files| ==> StemOf(files[g]) != data[j].0
    ensures data[j].0 in KeySet(Resolve(data, AudioPaths(files)).value)
    ensures var out := Lookup(Resolve(data, AudioPaths(files)).value, data[j].0).value;
            data[j].1.List? && out == List([Str(files[f])] + data[j].1.items[1..])
  {
    var audio := AudioPaths(files);
    assert Lookup(audio, data[j].0) == Some(files[f]);
    ResolvedKey(data, audio, j);
    ReplaceFirstIs(data[j].1, files[f]);
  }

  /** Replacing element 0 keeps the rest of the list. */
  lemma ReplaceFirstIs(e: Entry, path: string)
    requires HasFirst(e)
    ensures ReplaceFirst(e, path) == Ok(List([Str(path)] + e.items[1..]))
  {
    assert e.items[0 := Str(path)] == [Str(path)] + e.items[1..];
  }

  /** The same, for any map from stems to paths. */
  lemma ResolvedKey(data: Dict<Entry>, audio: Dict<string>, j: nat)
    requires UniqueKeys(data) && Resolve(data, audio).Ok?
    requires j < |data| && data[j].0 in KeySet(audio)
    ensures data[j].0 in KeySet(Resolve(data, audio).value)
    ensures Resolved(data[j], audio, (data[j].0, Lookup(Resolve(data, audio).value, data[j].0).value))
  {
    var r := Resolve(data, audio).value;
    var kept := Select(data, InAudio(audio));
    SelectHas(data, InAudio(audio), data[j]);
    var i :| 0 <= i < |kept| && kept[i] == data[j];
    assert Resolved(kept[i], audio, r[i]);
    ResolveUnique(data, audio);
    IndexOfKeyUnique(r, data[j].0, i);
  }

  /** The output has one entry per key, the keys that have an audio file, in input order. */
  lemma ResolveUnique(data: Dict<Entry>, audio: Dict<string>)
    requires UniqueKeys(data) && Resolve(data, audio).Ok?
    ensures UniqueKeys(Resolve(data, audio).value)
    ensures Keys(Resolve(data, audio).value) == Keys(Select(data, InAudio(audio)))
  {
    var kept := Select(data, InAudio(audio));
    SelectUniqueKeys(data, InAudio(audio));
    SameKeys(kept, Resolve(data, audio).value);
  }

  /** Two dicts whose entries have the same keys, position by position. */
  lemma SameKeys<A, B>(a: Dict<A>, b: Dict<B>)
    requires |a| == |b| && forall i :: 0 <= i < |a| ==> a[i].0 == b[i].0
    ensures Keys(a) == Keys(b)
    ensures UniqueKeys(a) ==> UniqueKeys(b)
  {
  }
}

=== FILE: segment_mls.dfy ===
/** utils/segment_mls.py: cutting Multilingual LibriSpeech recordings into utterances. Each
    segment line names a recording and lists `(id, start, end)` triples; every triple
    becomes the first-channel samples between the two times, written under
    `output_dir/<first id part>/<second id part>/<id>.flac`. Reading and writing audio, the
    directory walk and the worker pool are left to the caller; `float()` on a time is the
    parameter `toFloat`. */
module SegmentMls {
  import opened Common
  import opened Paths

  /* ---------------------------------------------------------------------------------------
     Times (lines 11-16)
     --------------------------------------------------------------------------------------- */

  /** `int(float(seconds) * sample_rate)`: the product truncated toward zero. */
  function SecToSample(seconds: string, rate: int, toFloat: string -> Option<real>): (r: Result<int>)
    ensures r.Failure? <==> toFloat(seconds).None?
    ensures r.Failure? ==> r.error == ValueError
    ensures r.Ok? ==> TruncatesTo(toFloat(seconds).value * rate as real, r.value)
  {
    match toFloat(seconds)
    case None => Failure(ValueError)
    case Some(x) => Ok(Trunc(x * rate as real))
  }

  /** `int(float(seconds) * 1000)`. */
  function SecToMs(seconds: string, toFloat: string -> Option<real>): (r: Result<int>)
    ensures r.Failure? <==> toFloat(seconds).None?
    ensures r.Ok? ==> TruncatesTo(toFloat(seconds).value * 1000.0, r.value)
  {
    match toFloat(seconds)
    case None => Failure(ValueError)
    case Some(x) => Ok(Trunc(x * 1000.0))
  }

  /** `n` is `x` with its fractional part dropped (toward zero). */
  predicate TruncatesTo(x: real, n: int)
  {
    && (x >= 0.0 ==> 0 <= n && n as real <= x < n as real + 1.0)
    && (x < 0.0 ==> n <= 0 && n as real - 1.0 < x <= n as real)
  }

  /** Truncation is unique: only one integer truncates a given number. */
  lemma TruncationUnique(x: real, m: int, n: int)
    requires TruncatesTo(x, m) && TruncatesTo(x, n)
    ensures m == n
  {
  }

  /* ---------------------------------------------------------------------------------------
     process_audio (lines 19-35)
     --------------------------------------------------------------------------------------- */

  /** `sf.read(path, always_2d=True)`: frames of `channels` samples each. */
  datatype Audio = Audio(frames: seq<seq<real>>, channels: nat)

  ghost predicate Rectangular(a: Audio)
  {
    forall i :: 0 <= i < |a.frames| ==> |a.frames[i]| == a.channels
  }

  /** `audio[:, 0]`; an audio with no channel has no column 0. */
  function FirstChannel(a: Audio): (r: Result<seq<real>>)
    requires Rectangular(a)
    ensures r.Failure? <==> a.channels == 0
    ensures r.Failure? ==> r.error == IndexError
    ensures r.Ok? ==> |r.value| == |a.frames| && forall i :: 0 <= i < |a.frames| ==> r.value[i] == a.frames[i][0]
  {
    if a.channels == 0 then Failure(IndexError)
    else Ok(seq(|a.frames|, i requires 0 <= i < |a.frames| => a.frames[i][0]))
  }

  /** `ids.split("_")` must have a second piece: the file goes to
      `output_dir / piece0 / piece1 / (ids + ".flac")`, given as its path components. */
  function OutputPath(outputDir: string, ids: string): (r: Result<seq<string>>)
    ensures r.Ok? <==> '_' in ids
    ensures r.Failure? ==> r.error == IndexError
    ensures r.Ok? ==> |r.value| == 4 && r.value[0] == outputDir && r.value[3] == ids + ".flac"
    ensures r.Ok? ==> r.value[1] == ids[..IndexOf(ids, '_')]
    ensures r.Ok? ==> '_' !in r.value[2] && StartsWith(AfterFirst(ids, '_'), r.value[2])
                      && (|r.value[2]| == |AfterFirst(ids, '_')| || AfterFirst(ids, '_')[|r.value[2]|] == '_')
  {
    var pieces := Split(ids, '_');
    if '_' in ids then
      FirstPieces(ids);
      Ok([outputDir, pieces[0], pieces[1], ids + ".flac"])
    else
      SplitNoSep(ids, '_');
      Failure(IndexError)
  }

  /** The first piece of a split is the text before the first separator; the second is
      the first piece of the remainder. */
  lemma FirstPieces(s: string)
    requires '_' in s
    ensures |Split(s, '_')| >= 2
    ensures Split(s, '_')[0] == s[..IndexOf(s, '_')]
    ensures Split(s, '_')[1] == Split(AfterFirst(s, '_'), '_')[0]
    ensures StartsWith(AfterFirst(s, '_'), Split(s, '_')[1])
    ensures |Split(s, '_')[1]| == |AfterFirst(s, '_')| || AfterFirst(s, '_')[|Split(s, '_')[1]|] == '_'
  {
    var i := IndexOf(s, '_');
    var a, b := s[..i], s[i + 1..];
    assert s == a + ['_'] + b;
    SplitAtSep(a, b, '_');
    FirstPiece(b);
  }

  /** The first piece of a split is a prefix ending at a separator or at the end. */
  lemma FirstPiece(b: string)
    ensures StartsWith(b, Split(b, '_')[0])
    ensures |Split(b, '_')[0]| == |b| || b[|Split(b, '_')[0]|] == '_'
  {
    if '_' in b {
      var i := IndexOf(b, '_');
      assert b == b[..i] + ['_'] + b[i + 1..];
      SplitAtSep(b[..i], b[i + 1..], '_');
    } else {
      SplitNoSep(b, '_');
    }
  }

  /** One file to write: its path components, its samples and its rate. */
  datatype Write = Write(path: seq<string>, samples: seq<real>, rate: int)

  /** The first channel cut to `[start_sample, end_sample)` with Python's slice clamping. */
  function ProcessAudio(audio: Audio, rate: int, ids: string, start: string, end: string, outputDir: string,
                        toFloat: string -> Option<real>): (r: Result<Write>)
    requires Rectangular(audio)
    ensures r.Ok? ==> OutputPath(outputDir, ids) == Ok(r.value.path) && r.value.rate == rate
    ensures r.Ok? ==> audio.channels > 0 && SecToSample(start, rate, toFloat).Ok? && SecToSample(end, rate, toFloat).Ok?
    ensures r.Ok? ==> var a := SecToSample(start, rate, toFloat).value;
                      var b := SecToSample(end, rate, toFloat).value;
                      var n := |audio.frames|;
                      |r.value.samples| == SliceHi(a, b, n) - SliceLo(a, n)
                      && forall t :: 0 <= t < |r.value.samples| ==> r.value.samples[t] == audio.frames[SliceLo(a, n) + t][0]
  {
    var channel :- FirstChannel(audio);
    var a :- SecToSample(start, rate, toFloat);
    var b :- SecToSample(end, rate, toFloat);
    var path :- OutputPath(outputDir, ids);
    Ok(Write(path, PySlice(channel, a, b), rate))
  }

  /* ---------------------------------------------------------------------------------------
     process_line (lines 63-82)
     --------------------------------------------------------------------------------------- */

  ghost predicate ReadsRectangular(read: string -> (Audio, int))
  {
    forall p :: Rectangular(read(p).0)
  }

  /** What handling one line leaves behind: the files written, in order, and the exception
      that stopped the loop, if any. Files written before the exception stay on disk: the
      worker pool's results are never read, so the exception goes nowhere. */
  datatype Cuts = Cuts(writes: seq<Write>, error: Option<Error>)

  /** The recording `parts[0]` read once and cut at every triple `parts[i..i + 3]`,
      `i = 1, 4, 7, ...`. A trailing incomplete triple is an IndexError. */
  function ProcessLine(parts: seq<string>, outputDir: string, read: string -> (Audio, int),
                       toFloat: string -> Option<real>): (r: Cuts)
    requires ReadsRectangular(read)
    ensures |parts| == 0 ==> r == Cuts([], Some(IndexError))
    ensures r.error.None? ==> |parts| == 1 + 3 * |r.writes|
    ensures forall k :: 0 <= k < |r.writes| ==>
              Cut(parts, 1 + 3 * k, read(parts[0]).0, read(parts[0]).1, outputDir, toFloat, r.writes[k])
    ensures |parts| > 0 && r.error.Some? ==>
              Stopped(parts, 1 + 3 * |r.writes|, read(parts[0]).0, read(parts[0]).1, outputDir, toFloat, r.error.value)
  {
    if |parts| == 0 then Cuts([], Some(IndexError))
    else
      var (audio, rate) := read(parts[0]);
      ProcessTriples(parts, 1, Segmenter(audio, rate, outputDir, toFloat))
  }

  /** `process_audio` with the recording, its rate and the output directory fixed. */
  function Segmenter(audio: Audio, rate: int, outputDir: string, toFloat: string -> Option<real>): Cutter
    requires Rectangular(audio)
  {
    (ids: string, start: string, end: string) => ProcessAudio(audio, rate, ids, start, end, outputDir, toFloat)
  }

  type Cutter = (string, string, string) -> Result<Write>

  /** The triples from index `i` on, in order: every triple before the first failing one is
      written, and the failing one stops the loop. */
  function ProcessTriples(parts: seq<string>, i: nat, cut: Cutter): (r: Cuts)
    ensures r.error.None? ==> i + 3 * |r.writes| == MaxI(i, |parts|)
    ensures forall k :: 0 <= k < |r.writes| ==> CutBy(parts, i + 3 * k, cut, r.writes[k])
    ensures r.error.Some? ==> StoppedBy(parts, i + 3 * |r.writes|, cut, r.error.value)
    decreases |parts| - i
  {
    if i >= |parts| then Cuts([], None)
    else if i + 2 >= |parts| then Cuts([], Some(IndexError))
    else
      match cut(parts[i], parts[i + 1], parts[i + 2])
      case Failure(e) => Cuts([], Some(e))
      case Ok(w) =>
        var rest := ProcessTriples(parts, i + 3, cut);
        ShiftCons((j, x) => CutBy(parts, j, cut, x), i, w, rest.writes);
        assert i + 3 * |[w] + rest.writes| == i + 3 + 3 * |rest.writes|;
        Cuts([w] + rest.writes, rest.error)
  }

  /** A line whose second triple is cut short still writes the file of its first triple
      before the IndexError. */
  lemma PartialTripleKeepsEarlier(parts: seq<string>, outputDir: string, read: string -> (Audio, int),
                                  toFloat: string -> Option<real>)
    requires ReadsRectangular(read) && |parts| == 6
    requires ProcessAudio(read(parts[0]).0, read(parts[0]).1, parts[1], parts[2], parts[3], outputDir, toFloat).Ok?
    ensures ProcessLine(parts, outputDir, read, toFloat)
            == Cuts([ProcessAudio(read(parts[0]).0, read(parts[0]).1, parts[1], parts[2], parts[3], outputDir, toFloat).value],
                    Some(IndexError))
  {
    var (audio, rate) := read(parts[0]);
    var cut := Segmenter(audio, rate, outputDir, toFloat);
    assert ProcessTriples(parts, 4, cut) == Cuts([], Some(IndexError));
  }

  /** `w` is the file the triple `parts[j..j + 3]` gives. */
  predicate CutBy(parts: seq<string>, j: int, cut: Cutter, w: Write)
  {
    0 <= j && j + 2 < |parts| && cut(parts[j], parts[j + 1], parts[j + 2]) == Ok(w)
  }

  /** The triple at `j` is where the loop stopped, with error `e`: it is incomplete, or
      cutting it raised `e`. */
  predicate StoppedBy(parts: seq<string>, j: int, cut: Cutter, e: Error)
  {
    && 0 <= j < |parts|
    && (j + 2 >= |parts| ==> e == IndexError)
    && (j + 2 < |parts| ==> cut(parts[j], parts[j + 1], parts[j + 2]) == Failure(e))
  }

  /** `w` is the file cut for the triple `parts[j..j + 3]`. */
  ghost predicate Cut(parts: seq<string>, j: int, audio: Audio, rate: int, outputDir: string,
                      toFloat: string -> Option<real>, w: Write)
  {
    && Rectangular(audio) && 0 <= j && j + 2 < |parts|
    && ProcessAudio(audio, rate, parts[j], parts[j + 1], parts[j + 2], outputDir, toFloat) == Ok(w)
  }

  /** The same for the triple where the loop stopped with error `e`. */
  ghost predicate Stopped(parts: seq<string>, j: int, audio: Audio, rate: int, outputDir: string,
                          toFloat: string -> Option<real>, e: Error)
  {
    && Rectangular(audio) && 0 <= j < |parts|
    && (j + 2 >= |parts| ==> e == IndexError)
    && (j + 2 < |parts| ==> ProcessAudio(audio, rate, parts[j], parts[j + 1], parts[j + 2], outputDir, toFloat) == Failure(e))
  }

  /** A property of the element at each third position survives putting one more in front. */
  lemma ShiftCons<W>(p: (int, W) -> bool, i: int, w: W, rest: seq<W>)
    requires p(i, w)
    requires forall k :: 0 <= k < |rest| ==> p(i + 3 + 3 * k, rest[k])
    ensures forall k :: 0 <= k < |[w] + rest| ==> p(i + 3 * k, ([w] + rest)[k])
  {
    forall k | 1 <= k < |[w] + rest|
      ensures p(i + 3 * k, ([w] + rest)[k])
    {
      assert ([w] + rest)[k] == rest[k - 1];
      assert i + 3 * k == i + 3 + 3 * (k - 1);
    }
  }

  /* ---------------------------------------------------------------------------------------
     main: resolving and dropping segment lines (lines 85-112)
     --------------------------------------------------------------------------------------- */

  /** A segment line after the resolving loop: split and resolved, or left as it was. */
  datatype Entry = Resolved(parts: seq<string>) | Unresolved(line: string)

  /** One line: its first word looked up among the recordings by file name and, when
      found, replaced by the recording's path. A blank line has no first word. */
  function MarkLine(line: string, names: Dict<string>): (r: Result<Entry>)
    ensures r.Failure? <==> |Tokens(line)| == 0
    ensures r.Failure? ==> r.error == IndexError
    ensures r.Ok? ==> (r.value.Resolved? <==> Tokens(line)[0] in KeySet(names))
    ensures r.Ok? && r.value.Resolved? ==>
              r.value.parts == [Lookup(names, Tokens(line)[0]).value] + Tokens(line)[1..]
    ensures r.Ok? && r.value.Unresolved? ==> r.value.line == line
  {
    var parts := Tokens(line);
    if |parts| == 0 then Failure(IndexError)
    else if parts[0] in KeySet(names) then Ok(Resolved([Lookup(names, parts[0]).value] + parts[1..]))
    else Ok(Unresolved(line))
  }

  /** Indices of the unresolved entries, ascending. */
  function UnresolvedIndices(m: seq<Entry>): (r: seq<nat>)
    ensures forall k :: 0 <= k < |r| ==> r[k] < |m| && m[r[k]].Unresolved?
    ensures Ascending(r)
    decreases |m|
  {
    if |m| == 0 then []
    else
      var n := |m| - 1;
      var front := UnresolvedIndices(m[..n]);
      assert forall k :: 0 <= k < |front| ==> m[front[k]] == m[..n][front[k]];
      assert forall i :: 0 <= i < n ==> m[i] == m[..n][i];
      front + (if m[n].Unresolved? then [n] else [])
  }

  predicate Ascending(s: seq<nat>)
  {
    forall i, j :: 0 <= i < j < |s| ==> s[i] < s[j]
  }

  /** The resolving loop: every line marked, in order. */
  function MarkLines(lines: seq<string>, names: Dict<string>): (r: Result<seq<Entry>>)
    ensures r.Ok? <==> forall i :: 0 <= i < |lines| ==> |Tokens(lines[i])| > 0
    ensures r.Ok? ==> |r.value| == |lines|
    ensures r.Ok? ==> forall i :: 0 <= i < |lines| ==> MarkLine(lines[i], names) == Ok(r.value[i])
    decreases |lines|
  {
    if |lines| == 0 then Ok([])
    else
      var n := |lines| - 1;
      var front := MarkLines(lines[..n], names);
      var e := MarkLine(lines[n], names);
      MarkedSnoc(lines, names, front, e);
      if front.Failure? then front
      else if e.Failure? then Failure(e.error)
      else Ok(front.value + [e.value])
  }

  lemma MarkedSnoc(lines: seq<string>, names: Dict<string>, front: Result<seq<Entry>>, e: Result<Entry>)
    requires |lines| > 0
    requires front.Ok? <==> forall i :: 0 <= i < |lines| - 1 ==> |Tokens(lines[i])| > 0
    requires front.Ok? ==> |front.value| == |lines| - 1
    requires front.Ok? ==> forall i :: 0 <= i < |lines| - 1 ==> MarkLine(lines[i], names) == Ok(front.value[i])
    requires e == MarkLine(lines[|lines| - 1], names)
    ensures (front.Ok? && e.Ok?) <==> forall i :: 0 <= i < |lines| ==> |Tokens(lines[i])| > 0
    ensures front.Ok? && e.Ok? ==> forall i :: 0 <= i < |lines| ==> MarkLine(lines[i], names) == Ok((front.value + [e.value])[i])
  {
  }

  /** `del s[i]` */
  function DeleteAt<T>(s: seq<T>, i: nat): (r: seq<T>)
    requires i < |s|
    ensures |r| == |s| - 1
  {
    s[..i] + s[i + 1..]
  }

  /** `for idx in idxs[::-1]: del s[idx]` */
  function DeleteReversed<T>(s: seq<T>, idxs: seq<nat>): (r: seq<T>)
    requires Ascending(idxs) && forall k :: 0 <= k < |idxs| ==> idxs[k] < |s|
    ensures |r| == |s| - |idxs|
    decreases |idxs|
  {
    if |idxs| == 0 then s
    else
      var n := |idxs| - 1;
      DeleteReversed(DeleteAt(s, idxs[n]), idxs[..n])
  }

  /** Deleting from the back below `j` keeps everything from `j` on. */
  lemma {:induction false} DeleteReversedBelow<T>(m: seq<T>, j: nat, idxs: seq<nat>)
    requires j <= |m|
    requires Ascending(idxs) && forall k :: 0 <= k < |idxs| ==> idxs[k] < j
    ensures DeleteReversed(m, idxs) == DeleteReversed(m[..j], idxs) + m[j..]
    decreases |idxs|
  {
    if |idxs| > 0 {
      var n := |idxs| - 1;
      var i := idxs[n];
      var d := DeleteAt(m, i);
      assert d[..j - 1] == DeleteAt(m[..j], i);
      assert d[j - 1..] == m[j..];
      DeleteReversedBelow(d, j - 1, idxs[..n]);
    }
  }

  /** Deleting the recorded indices from the back removes exactly the unresolved entries
      and keeps the resolved ones in order. */
  lemma {:induction false} DeleteUnresolved(m: seq<Entry>)
    ensures DeleteReversed(m, UnresolvedIndices(m)) == ResolvedEntries(m)
    decreases |m|
  {
    if |m| > 0 {
      var front, x := m[..|m| - 1], m[|m| - 1];
      DeleteUnresolved(front);
      Snoc(m);
      DeleteUnresolvedSnoc(front, x);
    }
  }

  /** One more entry: an unresolved one is the last index deleted, a resolved one stays. */
  lemma DeleteUnresolvedSnoc(front: seq<Entry>, x: Entry)
    requires DeleteReversed(front, UnresolvedIndices(front)) == ResolvedEntries(front)
    ensures DeleteReversed(front + [x], UnresolvedIndices(front + [x])) == ResolvedEntries(front + [x])
  {
    var m := front + [x];
    assert m[..|front|] == front && m[|front|] == x;
    var idx := UnresolvedIndices(front);
    if x.Unresolved? {
      assert UnresolvedIndices(m) == idx + [|front|];
      DeleteLast(m, idx);
    } else {
      assert UnresolvedIndices(m) == idx;
      DeleteKeep(front, x, idx);
    }
  }

  lemma Snoc<T>(m: seq<T>)
    requires |m| > 0
    ensures m == m[..|m| - 1] + [m[|m| - 1]]
  {
  }

  /** Deletions before the last element leave it in place. */
  lemma DeleteKeep<T>(front: seq<T>, x: T, idx: seq<nat>)
    requires Ascending(idx) && forall k :: 0 <= k < |idx| ==> idx[k] < |front|
    ensures DeleteReversed(front + [x], idx) == DeleteReversed(front, idx) + [x]
  {
    var m := front + [x];
    assert m[..|front|] == front;
    assert m[|front|..] == [x];
    DeleteReversedBelow(m, |front|, idx);
  }

  /** Deleting the last index first leaves the front to the other deletions. */
  lemma DeleteLast<T>(m: seq<T>, idx: seq<nat>)
    requires |m| > 0
    requires Ascending(idx) && forall k :: 0 <= k < |idx| ==> idx[k] < |m| - 1
    ensures DeleteReversed(m, idx + [|m| - 1]) == DeleteReversed(m[..|m| - 1], idx)
  {
    var all := idx + [|m| - 1];
    assert all[..|idx|] == idx;
    assert DeleteAt(m, |m| - 1) == m[..|m| - 1];
  }

  function ResolvedEntries(m: seq<Entry>): (r: seq<Entry>)
    ensures forall k :: 0 <= k < |r| ==> r[k].Resolved?
    decreases |m|
  {
    if |m| == 0 then []
    else
      var n := |m| - 1;
      ResolvedEntries(m[..n]) + (if m[n].Resolved? then [m[n]] else [])
  }

  /** `audio_path_dict`: every recording under its file name, a later recording with the
      same name replacing an earlier one. */
  function RecordingNames(recordings: seq<string>): (names: Dict<string>)
    ensures UniqueKeys(names)
    ensures KeySet(names) == set i | 0 <= i < |recordings| :: Name(recordings[i])
  {
    var pairs := seq(|recordings|, i requires 0 <= i < |recordings| => (Name(recordings[i]), recordings[i]));
    assert forall i :: 0 <= i < |pairs| ==> pairs[i].0 == Name(recordings[i]);
    FromPairs(pairs)
  }

  /** The lines handed to the workers: each line whose recording exists, in file order,
      with its first word replaced by the recording's path. */
  function ResolveLines(lines: seq<string>, recordings: seq<string>): (r: Result<seq<Entry>>)
    ensures r.Ok? <==> forall i :: 0 <= i < |lines| ==> |Tokens(lines[i])| > 0
    ensures r.Ok? ==> r.value == ResolvedEntries(MarkLines(lines, RecordingNames(recordings)).value)
    ensures r.Ok? ==> forall k :: 0 <= k < |r.value| ==> r.value[k].Resolved?
  {
    var marked :- MarkLines(lines, RecordingNames(recordings));
    DeleteUnresolved(marked);
    Ok(DeleteReversed(marked, UnresolvedIndices(marked)))
  }

  /** A line whose first word is the name of a recording is kept with that word replaced by
      the last such recording's path and the other words unchanged. */
  lemma ResolvedLine(line: string, recordings: seq<string>, i: nat)
    requires |Tokens(line)| > 0
    requires i < |recordings| && Name(recordings[i]) == Tokens(line)[0]
    requires forall j :: i < j < |recordings| ==> Name(recordings[j]) != Name(recordings[i])
    ensures MarkLine(line, RecordingNames(recordings)) == Ok(Resolved([recordings[i]] + Tokens(line)[1..]))
  {
    var pairs := seq(|recordings|, i requires 0 <= i < |recordings| => (Name(recordings[i]), recordings[i]));
    assert pairs[i] == (Tokens(line)[0], recordings[i]);
  }

  /** A line whose first word names no recording is left unresolved, to be deleted. */
  lemma UnresolvedLine(line: string, recordings: seq<string>)
    requires |Tokens(line)| > 0
    requires forall j :: 0 <= j < |recordings| ==> Name(recordings[j]) != Tokens(line)[0]
    ensures MarkLine(line, RecordingNames(recordings)) == Ok(Unresolved(line))
  {
  }
}

=== FILE: transforms.dfy ===
/** The degradations applied to one mono signal (`(1, T)` arrays in the source, since every
    read forces one channel). Floating point is modelled by `real`; the foreign pieces
    (square root, dB-to-linear, voice-activity detection, resampling, quantiles, filters,
    the MP3 codec, the ffmpeg sidechain compressor) are function parameters. */
module Transforms {
  import opened Common

  type Signal = seq<real>

  function Abs(x: real): real { if x < 0.0 then -x else x }

  /** A product behind a name. Contracts about results of recursive functions (extremes,
      envelopes) multiply through it, which keeps the solver's nonlinear reasoning local. */
  function Mul(a: real, b: real): real { a * b }

  /** `c * x` */
  function Scale(c: real, x: Signal): (r: Signal)
    ensures |r| == |x| && forall i :: 0 <= i < |x| ==> r[i] == c * x[i]
  {
    seq(|x|, i requires 0 <= i < |x| => c * x[i])
  }

  lemma ScalePrefix(c: real, x: Signal, n: nat)
    requires n <= |x|
    ensures Scale(c, x)[..n] == Scale(c, x[..n])
  {
    var a := Scale(c, x)[..n];
    var b := Scale(c, x[..n]);
    forall i | 0 <= i < n
      ensures a[i] == b[i]
    {
      assert a[i] == Scale(c, x)[i];
      assert x[..n][i] == x[i];
    }
  }

  lemma ScaleSuffix(c: real, x: Signal, n: nat)
    requires n <= |x|
    ensures Scale(c, x)[n..] == Scale(c, x[n..])
  {
    var a := Scale(c, x)[n..];
    var b := Scale(c, x[n..]);
    forall i | 0 <= i < |a|
      ensures a[i] == b[i]
    {
      assert a[i] == Scale(c, x)[n + i];
      assert x[n..][i] == x[n + i];
    }
  }

  lemma ScaleInverse(c: real, x: Signal)
    requires c != 0.0
    ensures Scale(1.0 / c, Scale(c, x)) == x
  {
    var y := Scale(1.0 / c, Scale(c, x));
    forall i | 0 <= i < |x|
      ensures y[i] == x[i]
    {
      calc {
        y[i];
        (1.0 / c) * (c * x[i]);
        ((1.0 / c) * c) * x[i];
        x[i];
      }
    }
  }

  /* ---------------------------------------------------------------------------------------
     packet_loss (simulate_data_from_param2.py:323-331)
     --------------------------------------------------------------------------------------- */

  /** `idx * packet_duration_ms * fs // 1000` (floor division; the divisor is positive, so
      Dafny's Euclidean division agrees with Python's). */
  function WindowStart(idx: int, durationMs: int, fs: int): int { idx * durationMs * fs / 1000 }
  function WindowEnd(idx: int, durationMs: int, fs: int): int { (idx + 1) * durationMs * fs / 1000 }

  /** Sample `t` falls in the slice `[start:end]` of one of the lost packets. */
  predicate Lost(t: int, n: nat, fs: int, indices: seq<int>, durationMs: int)
  {
    exists k :: 0 <= k < |indices| && InSlice(t, WindowStart(indices[k], durationMs, fs), WindowEnd(indices[k], durationMs, fs), n)
  }

  /** `x[a:b] = 0` */
  function ZeroSlice(x: Signal, a: int, b: int): (r: Signal)
    ensures |r| == |x|
    ensures forall t :: 0 <= t < |x| ==> r[t] == if InSlice(t, a, b, |x|) then 0.0 else x[t]
  {
    seq(|x|, t requires 0 <= t < |x| => if InSlice(t, a, b, |x|) then 0.0 else x[t])
  }

  /** Exactly the samples of the lost packets' windows become zero; every other sample and
      the length are kept. */
  function PacketLoss(x: Signal, fs: int, indices: seq<int>, durationMs: int): (r: Signal)
    ensures |r| == |x|
    ensures forall t :: 0 <= t < |x| ==> r[t] == if Lost(t, |x|, fs, indices, durationMs) then 0.0 else x[t]
    decreases |indices|
  {
    if |indices| == 0 then x
    else
      var y := ZeroSlice(x, WindowStart(indices[0], durationMs, fs), WindowEnd(indices[0], durationMs, fs));
      var r := PacketLoss(y, fs, indices[1..], durationMs);
      assert forall t :: Lost(t, |x|, fs, indices, durationMs) <==>
          InSlice(t, WindowStart(indices[0], durationMs, fs), WindowEnd(indices[0], durationMs, fs), |x|)
          || Lost(t, |x|, fs, indices[1..], durationMs) by {
        forall t ensures Lost(t, |x|, fs, indices, durationMs) ==>
          InSlice(t, WindowStart(indices[0], durationMs, fs), WindowEnd(indices[0], durationMs, fs), |x|)
          || Lost(t, |x|, fs, indices[1..], durationMs)
        {
          if Lost(t, |x|, fs, indices, durationMs) {
            var k :| 0 <= k < |indices| && InSlice(t, WindowStart(indices[k], durationMs, fs), WindowEnd(indices[k], durationMs, fs), |x|);
            if k > 0 {
              assert indices[1..][k - 1] == indices[k];
            }
          }
        }
        forall t | Lost(t, |x|, fs, indices[1..], durationMs)
          ensures Lost(t, |x|, fs, indices, durationMs)
        {
          var k :| 0 <= k < |indices[1..]| && InSlice(t, WindowStart(indices[1..][k], durationMs, fs), WindowEnd(indices[1..][k], durationMs, fs), |x|);
          assert indices[k + 1] == indices[1..][k];
        }
      }
      r
  }

  /** For non-negative packet indices and a positive duration, packet `idx` covers
      `[idx·d·fs // 1000, (idx+1)·d·fs // 1000)` clipped to the signal. */
  lemma PacketLossWindow(x: Signal, fs: int, indices: seq<int>, durationMs: int, k: nat, t: nat)
    requires fs > 0 && durationMs > 0
    requires k < |indices| && indices[k] >= 0 && t < |x|
    requires indices[k] * durationMs * fs / 1000 <= t < (indices[k] + 1) * durationMs * fs / 1000
    ensures PacketLoss(x, fs, indices, durationMs)[t] == 0.0
  {
    var a := WindowStart(indices[k], durationMs, fs);
    var b := WindowEnd(indices[k], durationMs, fs);
    assert 0 <= indices[k] * durationMs * fs by {
      assert 0 <= indices[k] * durationMs;
    }
    assert 0 <= a;
    assert InSlice(t, a, b, |x|);
  }

  /* ---------------------------------------------------------------------------------------
     Noise alignment (mix_noise and wind_noise, lines 93-105 and 130-142)
     --------------------------------------------------------------------------------------- */

  /** `np.pad(noise, (offset, len - |noise| - offset), mode="wrap")`: the noise repeated
      periodically, with its first sample at `offset`. */
  function WrapPad(noise: Signal, len: nat, offset: nat): (r: Signal)
    requires 0 < |noise| < len && offset < len - |noise|
    ensures |r| == len
    ensures r[offset..offset + |noise|] == noise
    ensures forall j :: 0 <= j < len - |noise| ==> r[j + |noise|] == r[j]
  {
    var r := seq(len, j requires 0 <= j < len => noise[WrapIndex(j, offset, |noise|)]);
    forall j | 0 <= j < len - |noise|
      ensures r[j + |noise|] == r[j]
    {
      ModShift(j - offset, |noise|);
    }
    forall i | 0 <= i < |noise|
      ensures r[offset + i] == noise[i]
    {
      ModUnique(offset + i - offset, |noise|, 0, i);
    }
    r
  }

  /** Sample `j` of the padded noise is `noise[(j - offset) mod |noise|]`. */
  lemma WrapPadAt(noise: Signal, len: nat, offset: nat, j: nat)
    requires 0 < |noise| < len && offset < len - |noise| && j < len
    ensures WrapPad(noise, len, offset)[j] == noise[(j - offset) % |noise|]
  {
  }

  /** The noise sample that lands at position `j`. */
  function WrapIndex(j: int, offset: int, n: nat): (k: nat)
    requires n > 0
    ensures k < n
  {
    (j - offset) % n
  }

  lemma ModShift(a: int, n: int)
    requires n > 0
    ensures (a + n) % n == a % n
  {
    var q := a / n;
    assert a == q * n + a % n;
    assert a + n == (q + 1) * n + a % n;
    ModUnique(a + n, n, q + 1, a % n);
  }

  /** A remainder in `[0, n)` is the remainder. */
  lemma ModUnique(x: int, n: int, q: int, r: int)
    requires n > 0 && 0 <= r < n && x == q * n + r
    ensures x % n == r
  {
    var q' := x / n;
    var r' := x % n;
    assert x == q' * n + r';
    assert (q - q') * n == r' - r;
    if q > q' {
      MulAtLeast(q - q', n);
    } else if q < q' {
      MulAtLeast(q' - q, n);
    }
  }

  lemma MulAtLeast(d: int, n: int)
    requires d >= 1 && n > 0
    ensures d * n >= n
  {
    assert d * n == (d - 1) * n + n;
    assert (d - 1) * n >= 0;
  }

  /** The two facts `WrapPad` promises pin the padded noise down completely. */
  lemma WrapPadUnique(noise: Signal, len: nat, offset: nat, s: Signal)
    requires 0 < |noise| < len && offset < len - |noise|
    requires |s| == len
    requires s[offset..offset + |noise|] == noise
    requires forall j :: 0 <= j < len - |noise| ==> s[j + |noise|] == s[j]
    ensures s == WrapPad(noise, len, offset)
  {
    var r := WrapPad(noise, len, offset);
    forall j | 0 <= j < len
      ensures s[j] == r[j]
    {
      PeriodicAgree(noise, len, offset, s, r, j);
    }
  }

  lemma {:induction false} PeriodicAgree(noise: Signal, len: nat, offset: nat, s: Signal, r: Signal, j: nat)
    requires 0 < |noise| < len && offset < len - |noise|
    requires |s| == len && |r| == len && j < len
    requires s[offset..offset + |noise|] == noise && r[offset..offset + |noise|] == noise
    requires forall j :: 0 <= j < len - |noise| ==> s[j + |noise|] == s[j]
    requires forall j :: 0 <= j < len - |noise| ==> r[j + |noise|] == r[j]
    ensures s[j] == r[j]
    decreases if j < offset then 2 * (offset - j) + |noise| else j - offset
  {
    var n := |noise|;
    if j < offset {
      PeriodicAgree(noise, len, offset, s, r, j + n);
      assert s[j + n] == s[j] && r[j + n] == r[j];
    } else if j < offset + n {
      assert s[j] == s[offset..offset + n][j - offset];
      assert r[j] == r[offset..offset + n][j - offset];
    } else {
      PeriodicAgree(noise, len, offset, s, r, j - n);
      assert s[(j - n) + n] == s[j - n] && r[(j - n) + n] == r[j - n];
    }
  }

  /** The offsets `rng.integers(0, bound)` may return for this alignment. */
  predicate OffsetInRange(noiseLength: nat, len: nat, offset: nat)
  {
    && (noiseLength < len ==> offset < len - noiseLength)
    && (noiseLength > len ==> offset < noiseLength - len)
  }

  /** Noise of the speech's length: wrap-padded when shorter, cropped at `offset` when longer.
      Padding an empty noise is numpy's ValueError. */
  function AlignNoise(noise: Signal, len: nat, offset: nat): (r: Result<Signal>)
    requires OffsetInRange(|noise|, len, offset)
    ensures r.Failure? <==> |noise| == 0 && len > 0
    ensures r.Failure? ==> r.error == ValueError
    ensures r.Ok? ==> |r.value| == len
    ensures |noise| == len ==> r == Ok(noise)
    ensures 0 < |noise| < len ==> r.value[offset..offset + |noise|] == noise
                                  && forall j :: 0 <= j < len - |noise| ==> r.value[j + |noise|] == r.value[j]
    ensures |noise| > len ==> offset + len < |noise| && r.value == noise[offset..offset + len]
  {
    if |noise| < len then
      if |noise| == 0 then Failure(ValueError) else Ok(WrapPad(noise, len, offset))
    else if |noise| > len then Ok(noise[offset..offset + len])
    else Ok(noise)
  }

  /* ---------------------------------------------------------------------------------------
     Power and the SNR scale (lines 107-112)
     --------------------------------------------------------------------------------------- */

  /** Foreign numerics: `np.sqrt` and `10 ** (db / 20)`. */
  datatype Numerics = Numerics(sqrt: real -> real, dbToAmp: real -> real)

  function CountTrue(m: seq<bool>): (c: nat)
    ensures c <= |m|
  {
    if |m| == 0 then 0 else CountTrue(m[..|m| - 1]) + (if m[|m| - 1] then 1 else 0)
  }

  function Sum(v: seq<real>): real
  {
    if |v| == 0 then 0.0 else Sum(v[..|v| - 1]) + v[|v| - 1]
  }

  /** `x ** 2` where the mask is set, 0 elsewhere. */
  function MaskedSquares(x: Signal, m: seq<bool>): (r: Signal)
    requires |m| == |x|
    ensures |r| == |x|
  {
    seq(|x|, i requires 0 <= i < |x| => if m[i] then x[i] * x[i] else 0.0)
  }

  function SumSquares(x: Signal, m: seq<bool>): real
    requires |m| == |x|
  {
    Sum(MaskedSquares(x, m))
  }

  /** `(x[mask] ** 2).mean()`: a mask of the wrong shape is an IndexError, an all-silent
      mask averages nothing (nan). */
  function MaskedPower(x: Signal, m: seq<bool>): (r: Result<real>)
    ensures r.Failure? <==> |m| != |x| || CountTrue(m) == 0
  {
    if |m| != |x| then Failure(IndexError)
    else if CountTrue(m) == 0 then Failure(NonFinite)
    else Ok(Mean(SumSquares(x, m), CountTrue(m)))
  }

  function Mean(total: real, count: nat): real
    requires count > 0
  {
    total / (count as real)
  }

  lemma {:induction false} SumScale(k: real, v: seq<real>)
    ensures Sum(Scale(k, v)) == k * Sum(v)
    decreases |v|
  {
    if |v| > 0 {
      var n := |v| - 1;
      ScalePrefix(k, v, n);
      SumScale(k, v[..n]);
      Distribute(k, Sum(v[..n]), v[n]);
    }
  }

  lemma MaskedSquaresScale(c: real, x: Signal, m: seq<bool>)
    requires |m| == |x|
    ensures MaskedSquares(Scale(c, x), m) == Scale(c * c, MaskedSquares(x, m))
  {
    var a := MaskedSquares(Scale(c, x), m);
    var b := Scale(c * c, MaskedSquares(x, m));
    forall i | 0 <= i < |x|
      ensures a[i] == b[i]
    {
      MaskedSquare(m[i], c, x[i], Scale(c, x)[i]);
    }
  }

  lemma SumSquaresScale(c: real, x: Signal, m: seq<bool>)
    requires |m| == |x|
    ensures SumSquares(Scale(c, x), m) == c * c * SumSquares(x, m)
  {
    MaskedSquaresScale(c, x, m);
    SumScale(c * c, MaskedSquares(x, m));
  }

  lemma MaskedSquare(b: bool, c: real, v: real, w: real)
    requires w == c * v
    ensures (if b then w * w else 0.0) == c * c * (if b then v * v else 0.0)
  {
    if b {
      SquareScale(c, v);
    }
  }

  /** Scaling a signal by `c` scales its masked power by `c²`. */
  lemma MaskedPowerScale(c: real, x: Signal, m: seq<bool>, p: real)
    requires MaskedPower(x, m) == Ok(p)
    ensures MaskedPower(Scale(c, x), m) == Ok(c * c * p)
  {
    var n := CountTrue(m);
    var s := SumSquares(x, m);
    var s2 := SumSquares(Scale(c, x), m);
    SumSquaresScale(c, x, m);
    MeanScale(c * c, s, s2, n);
    assert p == Mean(s, n);
    assert Mean(s2, n) == c * c * p;
    assert MaskedPower(Scale(c, x), m) == Ok(Mean(s2, n));
    assert Ok(Mean(s2, n)) == Ok(c * c * p);
  }

  lemma MeanScale(k: real, s: real, s2: real, n: nat)
    requires n > 0 && s2 == k * s
    ensures Mean(s2, n) == k * Mean(s, n)
  {
    var p := s / (n as real);
    assert s == p * (n as real);
    assert s2 == (k * p) * (n as real);
  }

  lemma SquareScale(c: real, v: real)
    ensures (c * v) * (c * v) == c * c * (v * v)
  {
  }

  lemma Distribute(k: real, a: real, b: real)
    ensures k * a + k * b == k * (a + b)
  {
  }

  /** The noise floor `max(power_noise, 1e-10)`. */
  function Floored(powerNoise: real): real { MaxR(powerNoise, 0.0000000001) }

  /** `10 ** (-snr / 20) * sqrt(power_speech) / sqrt(max(power_noise, 1e-10))`; a zero
      denominator (only possible with a foreign square root) is a non-finite scale. */
  function NoiseScale(powerSpeech: real, powerNoise: real, snr: real, num: Numerics): (r: Result<real>)
    ensures r.Failure? <==> num.sqrt(Floored(powerNoise)) == 0.0
    ensures r.Ok? ==> r.value * num.sqrt(Floored(powerNoise)) == num.dbToAmp(-snr) * num.sqrt(powerSpeech)
  {
    var denominator := num.sqrt(Floored(powerNoise));
    if denominator == 0.0 then Failure(NonFinite)
    else Ok(num.dbToAmp(-snr) * num.sqrt(powerSpeech) / denominator)
  }

  /** The noise as both `mix_noise` and `wind_noise` prepare it: aligned to the speech and
      scaled so that its voiced power sits `snr` dB below the speech's voiced power. */
  function ScaledNoise(speech: Signal, noise: Signal, snr: real, offset: nat,
                       vad: Signal -> seq<bool>, num: Numerics): (r: Result<Signal>)
    requires OffsetInRange(|noise|, |speech|, offset)
    ensures r.Ok? ==> |r.value| == |speech|
    ensures r.Ok? ==> AlignNoise(noise, |speech|, offset).Ok?
                      && exists c :: r.value == Scale(c, AlignNoise(noise, |speech|, offset).value)
    ensures |noise| == 0 && |speech| > 0 ==> r == Failure(ValueError)
  {
    var aligned :- AlignNoise(noise, |speech|, offset);
    var powerSpeech :- MaskedPower(speech, vad(speech));
    var powerNoise :- MaskedPower(aligned, vad(aligned));
    var scale :- NoiseScale(powerSpeech, powerNoise, snr, num);
    Ok(Scale(scale, aligned))
  }

  lemma SnrArithmetic(a: real, s: real, d: real, k: real, ps: real, pn: real, m: real)
    requires d != 0.0 && k * d == a * s && s * s == ps && d * d == m
    ensures (k * k * pn) * m == a * a * ps * pn
  {
    calc {
      (k * k * pn) * m;
      (k * d) * (k * d) * pn;
      (a * s) * (a * s) * pn;
      a * a * (s * s) * pn;
    }
  }

  /** With a true square root, the scaled noise's voiced power times the floored raw noise
      power equals `amp(-snr)²` times the speech power times the raw noise power: above the
      1e-10 floor the realised SNR is exactly the requested one, below it the noise ends up
      quieter. */
  lemma ScaledNoiseRealisedSnr(speech: Signal, noise: Signal, snr: real, offset: nat,
                               vad: Signal -> seq<bool>, num: Numerics)
    requires OffsetInRange(|noise|, |speech|, offset)
    requires ScaledNoise(speech, noise, snr, offset, vad, num).Ok?
    requires var aligned := AlignNoise(noise, |speech|, offset).value;
             var ps := MaskedPower(speech, vad(speech)).value;
             var pn := MaskedPower(aligned, vad(aligned)).value;
             num.sqrt(ps) * num.sqrt(ps) == ps && num.sqrt(Floored(pn)) * num.sqrt(Floored(pn)) == Floored(pn)
    ensures var aligned := AlignNoise(noise, |speech|, offset).value;
            var ps := MaskedPower(speech, vad(speech)).value;
            var pn := MaskedPower(aligned, vad(aligned)).value;
            var a := num.dbToAmp(-snr);
            var realised := MaskedPower(ScaledNoise(speech, noise, snr, offset, vad, num).value, vad(aligned));
            realised.Ok? && realised.value * Floored(pn) == a * a * ps * pn
  {
    var aligned := AlignNoise(noise, |speech|, offset).value;
    var ps := MaskedPower(speech, vad(speech)).value;
    var pn := MaskedPower(aligned, vad(aligned)).value;
    var scale := NoiseScale(ps, pn, snr, num).value;
    MaskedPowerScale(scale, aligned, vad(aligned), pn);
    SnrArithmetic(num.dbToAmp(-snr), num.sqrt(ps), num.sqrt(Floored(pn)), scale, ps, pn, Floored(pn));
  }

  datatype Mixed = Mixed(noisy: Signal, noise: Signal)

  /** `mix_noise`: speech plus the prepared noise, and that noise. */
  function MixNoise(speech: Signal, noise: Signal, snr: real, offset: nat,
                    vad: Signal -> seq<bool>, num: Numerics): (r: Result<Mixed>)
    requires OffsetInRange(|noise|, |speech|, offset)
    ensures r.Ok? <==> ScaledNoise(speech, noise, snr, offset, vad, num).Ok?
    ensures r.Ok? ==> r.value.noise == ScaledNoise(speech, noise, snr, offset, vad, num).value
    ensures r.Ok? ==> |r.value.noisy| == |speech|
                      && forall i :: 0 <= i < |speech| ==> r.value.noisy[i] == speech[i] + r.value.noise[i]
  {
    var scaled :- ScaledNoise(speech, noise, snr, offset, vad, num);
    Ok(Mixed(seq(|speech|, i requires 0 <= i < |speech| => speech[i] + scaled[i]), scaled))
  }

  /* ---------------------------------------------------------------------------------------
     add_reverberation (lines 196-206)
     --------------------------------------------------------------------------------------- */

  /** `sum_{k < m} h[k] * a[n - k]`, terms outside `a` counting as zero. */
  function ConvSum(a: Signal, h: Signal, n: int, m: nat): real
    requires m <= |h|
  {
    if m == 0 then 0.0
    else ConvSum(a, h, n, m - 1) + (if 0 <= n - (m - 1) < |a| then h[m - 1] * a[n - (m - 1)] else 0.0)
  }

  /** `scipy.signal.convolve(speech, rir, mode="full")[:, :len(speech)]`. An empty input makes
      scipy return a one-dimensional empty array, which the 2-D slice rejects. */
  function AddReverberation(speech: Signal, rir: Signal): (r: Result<Signal>)
    ensures r.Failure? <==> |speech| == 0 || |rir| == 0
    ensures r.Failure? ==> r.error == IndexError
    ensures r.Ok? ==> |r.value| == |speech|
  {
    if |speech| == 0 || |rir| == 0 then Failure(IndexError)
    else Ok(seq(|speech|, n requires 0 <= n < |speech| => ConvSum(speech, rir, n, |rir|)))
  }

  function Zeros(d: nat): (z: Signal)
    ensures |z| == d && forall i :: 0 <= i < d ==> z[i] == 0.0
  {
    seq(d, _ => 0.0)
  }

  lemma {:induction false} ConvSumDelayed(a: Signal, d: nat, g: real, n: int, m: nat)
    requires m <= d + 1
    ensures ConvSum(a, Zeros(d) + [g], n, m) == if m == d + 1 && 0 <= n - d < |a| then g * a[n - d] else 0.0
    decreases m
  {
    if m > 0 {
      ConvSumDelayed(a, d, g, n, m - 1);
    }
  }

  /** An impulse of gain `g` delayed by `d` samples delays and scales the speech. */
  lemma ReverbDelayedImpulse(speech: Signal, d: nat, g: real)
    requires |speech| > 0
    ensures AddReverberation(speech, Zeros(d) + [g]).Ok?
    ensures var r := AddReverberation(speech, Zeros(d) + [g]).value;
            forall n :: 0 <= n < |speech| ==> r[n] == if n >= d then g * speech[n - d] else 0.0
  {
    var r := AddReverberation(speech, Zeros(d) + [g]).value;
    forall n | 0 <= n < |speech|
      ensures r[n] == if n >= d then g * speech[n - d] else 0.0
    {
      ConvSumDelayed(speech, d, g, n, d + 1);
    }
  }

  /** A zero-delay unit impulse reproduces the speech. */
  lemma ReverbUnitImpulse(speech: Signal)
    requires |speech| > 0
    ensures AddReverberation(speech, [1.0]) == Ok(speech)
  {
    assert Zeros(0) + [1.0] == [1.0];
    ReverbDelayedImpulse(speech, 0, 1.0);
    var r := AddReverberation(speech, [1.0]).value;
    assert forall n :: 0 <= n < |speech| ==> r[n] == 1.0 * speech[n - 0];
    assert r == speech;
  }

  /** Output sample `n` depends on speech samples `0..n` only. */
  lemma {:induction false} ConvSumCausal(a: Signal, b: Signal, h: Signal, n: nat, m: nat)
    requires m <= |h| && n < |a| && n < |b| && a[..n + 1] == b[..n + 1]
    ensures ConvSum(a, h, n, m) == ConvSum(b, h, n, m)
  {
    if m > 0 {
      ConvSumCausal(a, b, h, n, m - 1);
      if 0 <= n - (m - 1) {
        assert a[n - (m - 1)] == a[..n + 1][n - (m - 1)];
        assert b[n - (m - 1)] == b[..n + 1][n - (m - 1)];
      }
    }
  }

  /* ---------------------------------------------------------------------------------------
     bandwidth_limitation (lines 209-228)
     --------------------------------------------------------------------------------------- */

  /** `librosa.resample(x, orig_sr, target_sr, res_type)` */
  type Resampler = (Signal, int, int, string) -> Signal

  function BandwidthLimitation(x: Signal, fs: int, fsNew: int, resType: string, resample: Resampler): (r: Result<Signal>)
    ensures fs == fsNew ==> r == Ok(x)
    ensures fs != fsNew ==> (r.Failure? <==> fsNew > fs)
    ensures r.Failure? ==> r.error == AssertionError
    ensures r.Ok? ==> |r.value| <= |x|
    ensures fs > fsNew ==> r.value == var y := resample(resample(x, fs, fsNew, resType), fsNew, fs, resType);
                                      y[..MinI(|y|, |x|)]
  {
    if fs == fsNew then Ok(x)
    else if !(fs > fsNew) then Failure(AssertionError)
    else
      var down := resample(x, fs, fsNew, resType);
      var back := resample(down, fsNew, fs, resType);
      Ok(PySlice(back, 0, |x|))
  }

  /* ---------------------------------------------------------------------------------------
     clipping (lines 231-252)
     --------------------------------------------------------------------------------------- */

  /** `np.quantile(channel, q)` */
  type Quantile = (Signal, real) -> real

  /** `np.clip(x, lo, hi)`, which is `minimum(maximum(x, lo), hi)`. */
  function ClipChannel(x: Signal, lo: real, hi: real): (r: Signal)
    ensures |r| == |x|
    ensures lo <= hi ==> forall t :: 0 <= t < |x| ==> lo <= r[t] <= hi
    ensures forall t :: 0 <= t < |x| && lo <= x[t] <= hi ==> r[t] == x[t]
  {
    seq(|x|, t requires 0 <= t < |x| => MinR(MaxR(x[t], lo), hi))
  }

  /** Clipping twice with the same bounds is clipping once. */
  lemma ClipChannelIdempotent(x: Signal, lo: real, hi: real)
    requires lo <= hi
    ensures ClipChannel(ClipChannel(x, lo, hi), lo, hi) == ClipChannel(x, lo, hi)
  {
  }

  /** Per-channel quantile clipping. A quantile outside [0, 1] is numpy's ValueError; so is an
      empty stack of channels; an empty channel has no quantile. */
  function Clipping(channels: seq<Signal>, minQuantile: real, maxQuantile: real, quantile: Quantile): (r: Result<seq<Signal>>)
    ensures r.Ok? <==> 0.0 <= minQuantile <= 1.0 && 0.0 <= maxQuantile <= 1.0 && |channels| > 0
                        && forall i :: 0 <= i < |channels| ==> |channels[i]| > 0
    ensures r.Ok? ==> |r.value| == |channels|
    ensures r.Ok? ==> forall i :: 0 <= i < |channels| ==>
              r.value[i] == ClipChannel(channels[i], quantile(channels[i], minQuantile), quantile(channels[i], maxQuantile))
  {
    if !(0.0 <= minQuantile <= 1.0 && 0.0 <= maxQuantile <= 1.0) then Failure(ValueError)
    else if exists i :: 0 <= i < |channels| && |channels[i]| == 0 then Failure(IndexError)
    else if |channels| == 0 then Failure(ValueError)
    else Ok(seq(|channels|, i requires 0 <= i < |channels| =>
              ClipChannel(channels[i], quantile(channels[i], minQuantile), quantile(channels[i], maxQuantile))))
  }

  /** Channels are clipped independently: a channel's result depends on that channel only. */
  lemma ClippingPerChannel(a: seq<Signal>, b: seq<Signal>, minQuantile: real, maxQuantile: real, quantile: Quantile, i: nat)
    requires Clipping(a, minQuantile, maxQuantile, quantile).Ok? && Clipping(b, minQuantile, maxQuantile, quantile).Ok?
    requires i < |a| && i < |b| && a[i] == b[i]
    ensures Clipping(a, minQuantile, maxQuantile, quantile).value[i] == Clipping(b, minQuantile, maxQuantile, quantile).value[i]
  {
  }

  /* ---------------------------------------------------------------------------------------
     nonflat_frequency_response (lines 255-277)
     --------------------------------------------------------------------------------------- */

  datatype Filter = LowShelf(hz: int, db: real) | HighShelf(hz: int, db: real) | Peak(peakHz: real, peakDb: real)

  /** A value handed to a `float` argument of a native pedalboard constructor: an int or a
      bool converts, a float is itself, and anything else, text included, is the binding's
      TypeError. `PeakFilter` receives the `literal_eval` values without a `float()` call. */
  function NativeFloat(v: Literal): (r: Result<real>)
    ensures r.Ok? <==> v.LInt? || v.LBool? || v.LFloat?
    ensures v.LInt? ==> r == Ok(v.i as real)
    ensures v.LBool? ==> r == Ok(if v.b then 1.0 else 0.0)
    ensures v.LFloat? ==> r == Ok(v.x)
    ensures r.Failure? ==> r.error == TypeError
  {
    match v
    case LInt(i) => Ok(i as real)
    case LBool(b) => Ok(if b then 1.0 else 0.0)
    case LFloat(x) => Ok(x)
    case _ => Failure(TypeError)
  }

  /** Low shelf, high shelf, then one peak filter per `zip(peak_hz_list, peak_db_list)` pair. */
  function FilterChain(lowHz: int, highHz: int, lowDb: real, highDb: real, peakHz: Literal, peakDb: Literal): (r: Result<seq<Filter>>)
    ensures r.Ok? ==> PyIter(peakHz).Ok? && PyIter(peakDb).Ok?
    ensures r.Ok? ==> |r.value| == 2 + MinI(|PyIter(peakHz).value|, |PyIter(peakDb).value|)
    ensures r.Ok? ==> r.value[0] == LowShelf(lowHz, lowDb) && r.value[1] == HighShelf(highHz, highDb)
    ensures r.Ok? ==> forall i :: 2 <= i < |r.value| ==>
              var h := NativeFloat(PyIter(peakHz).value[i - 2]);
              var d := NativeFloat(PyIter(peakDb).value[i - 2]);
              h.Ok? && d.Ok? && r.value[i] == Peak(h.value, d.value)
    ensures PyIter(peakHz).Failure? || PyIter(peakDb).Failure? ==> r == Failure(TypeError)
    ensures r.Failure? ==> r.error == TypeError
  {
    var hz :- PyIter(peakHz);
    var db :- PyIter(peakDb);
    var peaks :- PeakFilters(hz, db);
    Ok([LowShelf(lowHz, lowDb), HighShelf(highHz, highDb)] + peaks)
  }

  function PeakFilters(hz: seq<Literal>, db: seq<Literal>): (r: Result<seq<Filter>>)
    ensures r.Ok? <==> forall i :: 0 <= i < MinI(|hz|, |db|) ==> NativeFloat(hz[i]).Ok? && NativeFloat(db[i]).Ok?
    ensures r.Ok? ==> |r.value| == MinI(|hz|, |db|)
    ensures r.Ok? ==> forall i :: 0 <= i < |r.value| ==>
              r.value[i] == Peak(NativeFloat(hz[i]).value, NativeFloat(db[i]).value)
    ensures r.Failure? ==> r.error == TypeError
  {
    if |hz| == 0 || |db| == 0 then Ok([])
    else
      var h :- NativeFloat(hz[0]);
      var d :- NativeFloat(db[0]);
      var rest :- PeakFilters(hz[1..], db[1..]);
      Ok([Peak(h, d)] + rest)
  }

  /** A peak frequency given as text is refused by `PeakFilter`, even when `float()` would
      read it. */
  lemma TextPeakRefused()
    ensures FilterChain(100, 8000, 0.0, 0.0, LList([LStr("1000")]), LList([LInt(3)])) == Failure(TypeError)
  {
    assert PeakFilters([LStr("1000")], [LInt(3)]) == Failure(TypeError);
  }

  /** `Pedalboard(chain)(x, fs)`: the filters run one after another, in chain order. */
  function RunChain(x: Signal, fs: int, chain: seq<Filter>, apply: (Filter, Signal, int) -> Signal): Signal
    decreases |chain|
  {
    if |chain| == 0 then x else RunChain(apply(chain[0], x, fs), fs, chain[1..], apply)
  }

  lemma {:induction false} RunChainAppend(x: Signal, fs: int, a: seq<Filter>, b: seq<Filter>, apply: (Filter, Signal, int) -> Signal)
    ensures RunChain(x, fs, a + b, apply) == RunChain(RunChain(x, fs, a, apply), fs, b, apply)
    decreases |a|
  {
    if |a| > 0 {
      assert (a + b)[1..] == a[1..] + b;
      RunChainAppend(apply(a[0], x, fs), fs, a[1..], b, apply);
    } else {
      assert a + b == b;
    }
  }

  /** The shelves act before any peak filter. */
  lemma NonflatOrder(x: Signal, fs: int, chain: seq<Filter>, apply: (Filter, Signal, int) -> Signal)
    requires |chain| >= 2
    ensures RunChain(x, fs, chain, apply) == RunChain(apply(chain[1], apply(chain[0], x, fs), fs), fs, chain[2..], apply)
  {
    RunChainAppend(x, fs, chain[..2], chain[2..], apply);
    assert chain[..2] + chain[2..] == chain;
    assert chain[..2][1..] == [chain[1]];
  }

  /* ---------------------------------------------------------------------------------------
     codec_compression (lines 308-320)
     --------------------------------------------------------------------------------------- */

  function CodecCompression(x: Signal, fs: int, quality: real, codec: (Signal, int, real) -> Signal): (r: Result<Signal>)
    ensures r.Failure? <==> !(0.0 <= quality <= 10.0)
    ensures r.Failure? ==> r.error == AssertionError
    ensures r.Ok? ==> r.value == codec(x, fs, quality)
  {
    if 0.0 <= quality <= 10.0 then Ok(codec(x, fs, quality)) else Failure(AssertionError)
  }

  /* ---------------------------------------------------------------------------------------
     loudness_transition (lines 280-305)
     --------------------------------------------------------------------------------------- */

  /** `np.linspace(a, b, n)` */
  function Linspace(a: real, b: real, n: nat): (r: seq<real>)
    ensures |r| == n
    ensures n >= 1 ==> r[0] == a
    ensures n >= 2 ==> r[n - 1] == b
    ensures a == 0.0 && b == 0.0 ==> forall i :: 0 <= i < n ==> r[i] == 0.0
  {
    seq(n, i requires 0 <= i < n => if n == 1 then a else a + (b - a) * (i as real) / ((n - 1) as real))
  }

  /** `env[a:b] = vals` under numpy broadcasting: the lengths agree, or `vals` has one element
      that fills the window; anything else is a ValueError. */
  function Assign(env: Signal, a: int, b: int, vals: seq<real>): (r: Result<Signal>)
    ensures r.Ok? <==> Broadcasts(vals, a, b, |env|)
    ensures r.Failure? ==> r.error == ValueError
    ensures r.Ok? ==> |r.value| == |env|
    ensures r.Ok? ==> forall t :: 0 <= t < |env| && !InSlice(t, a, b, |env|) ==> r.value[t] == env[t]
    ensures r.Ok? ==> forall t :: 0 <= t < |env| && InSlice(t, a, b, |env|) ==>
              r.value[t] == Broadcast(vals, a, b, |env|, t)
  {
    var lo := SliceLo(a, |env|);
    var hi := SliceHi(a, b, |env|);
    if |vals| == hi - lo || |vals| == 1 then
      Ok(seq(|env|, t requires 0 <= t < |env| =>
        if lo <= t < hi then (if |vals| == 1 then vals[0] else vals[t - lo]) else env[t]))
    else Failure(ValueError)
  }

  /** `vals` can be assigned to the window `[a:b]` of `n` samples: the lengths agree, or
      `vals` is a single value. */
  predicate Broadcasts(vals: seq<real>, a: int, b: int, n: nat)
  {
    |vals| == SliceHi(a, b, n) - SliceLo(a, n) || |vals| == 1
  }

  /** The value such an assignment writes at sample `t` of the window. */
  function Broadcast(vals: seq<real>, a: int, b: int, n: nat, t: int): real
    requires Broadcasts(vals, a, b, n) && InSlice(t, a, b, n)
  {
    if |vals| == 1 then vals[0] else vals[t - SliceLo(a, n)]
  }

  function Map(f: real -> real, xs: seq<real>): (r: seq<real>)
    ensures |r| == |xs| && forall i :: 0 <= i < |xs| ==> r[i] == f(xs[i])
  {
    seq(|xs|, i requires 0 <= i < |xs| => f(xs[i]))
  }

  datatype Keyframe = Keyframe(start: int, peak: int, end: int, gainDb: real)

  /** The samples one keyframe group writes. */
  predicate Covers(k: Keyframe, t: int, n: nat)
  {
    InSlice(t, k.start, k.peak, n) || InSlice(t, k.peak, k.end, n)
  }

  /** The rising ramp of a group: `10 ** (linspace(0, gain_db, peak - start) / 20)`. */
  function Rise(k: Keyframe, amp: real -> real): seq<real>
    requires k.start <= k.peak
  {
    Map(amp, Linspace(0.0, k.gainDb, k.peak - k.start))
  }

  /** The falling ramp of a group: `10 ** (linspace(gain_db, 0, end - peak) / 20)`. */
  function Fall(k: Keyframe, amp: real -> real): seq<real>
    requires k.peak <= k.end
  {
    Map(amp, Linspace(k.gainDb, 0.0, k.end - k.peak))
  }

  /** One group: a dB ramp 0 → gain over `[start:peak]`, then gain → 0 over `[peak:end]`.
      A negative ramp length is linspace's ValueError, and so is a ramp that does not
      broadcast into its window. */
  function ApplyKeyframe(env: Signal, k: Keyframe, amp: real -> real): (r: Result<Signal>)
    ensures k.peak < k.start || k.end < k.peak ==> r == Failure(ValueError)
    ensures r.Ok? <==> k.start <= k.peak <= k.end && Broadcasts(Rise(k, amp), k.start, k.peak, |env|)
                       && Broadcasts(Fall(k, amp), k.peak, k.end, |env|)
    ensures r.Failure? ==> r.error == ValueError
    ensures r.Ok? ==> |r.value| == |env|
    ensures r.Ok? ==> forall t :: 0 <= t < |env| && !Covers(k, t, |env|) ==> r.value[t] == env[t]
    ensures r.Ok? ==> k.start <= k.peak <= k.end
                      && (forall t :: 0 <= t < |env| && InSlice(t, k.peak, k.end, |env|) ==>
                            r.value[t] == Broadcast(Fall(k, amp), k.peak, k.end, |env|, t))
                      && (forall t :: 0 <= t < |env| && InSlice(t, k.start, k.peak, |env|) && !InSlice(t, k.peak, k.end, |env|) ==>
                            r.value[t] == Broadcast(Rise(k, amp), k.start, k.peak, |env|, t))
  {
    var _ :- Need(k.peak - k.start >= 0, ValueError);
    var env1 :- Assign(env, k.start, k.peak, Rise(k, amp));
    var _ :- Need(k.end - k.peak >= 0, ValueError);
    Assign(env1, k.peak, k.end, Fall(k, amp))
  }

  /** A group rising over two samples and falling over one: the rise is the gains of 0 dB and
      `gain_db`, the one-sample fall is `gain_db` alone, and the sample after `end` is kept. */
  lemma ApplyKeyframeRamps(amp: real -> real)
    ensures ApplyKeyframe([1.0, 1.0, 1.0, 1.0], Keyframe(0, 2, 3, 6.0), amp) == Ok([amp(0.0), amp(6.0), amp(6.0), 1.0])
  {
    var k := Keyframe(0, 2, 3, 6.0);
    assert Linspace(0.0, 6.0, 2) == [0.0, 6.0];
    assert Linspace(6.0, 0.0, 1) == [6.0];
    assert Rise(k, amp) == [amp(0.0), amp(6.0)];
    assert Fall(k, amp) == [amp(6.0)];
    var env1 := Assign([1.0, 1.0, 1.0, 1.0], 0, 2, Rise(k, amp));
    assert env1.Ok? && env1.value == [amp(0.0), amp(6.0), 1.0, 1.0];
    var env2 := Assign(env1.value, 2, 3, Fall(k, amp));
    assert env2.Ok? && env2.value == [amp(0.0), amp(6.0), amp(6.0), 1.0];
  }

  /** Whether a group succeeds, and what it writes, does not depend on the envelope's values. */
  lemma ApplyKeyframeShape(e: Signal, e': Signal, k: Keyframe, amp: real -> real, t: nat)
    requires |e| == |e'| && t < |e|
    ensures ApplyKeyframe(e, k, amp).Ok? == ApplyKeyframe(e', k, amp).Ok?
    ensures ApplyKeyframe(e, k, amp).Ok? && (Covers(k, t, |e|) || e[t] == e'[t]) ==>
              ApplyKeyframe(e, k, amp).value[t] == ApplyKeyframe(e', k, amp).value[t]
  {
  }

  type Row = (Literal, Literal, Literal, Literal)

  /** `zip(start_list, peak_list, end_list, gain_db_list)`: as long as the shortest. */
  function Zip4(s: seq<Literal>, p: seq<Literal>, e: seq<Literal>, g: seq<Literal>): (rows: seq<Row>)
    ensures |rows| == MinI(MinI(|s|, |p|), MinI(|e|, |g|))
    ensures forall i :: 0 <= i < |rows| ==> rows[i] == (s[i], p[i], e[i], g[i])
  {
    var n := MinI(MinI(|s|, |p|), MinI(|e|, |g|));
    seq(n, i requires 0 <= i < n => (s[i], p[i], e[i], g[i]))
  }

  /** `int(start), int(peak), int(end), float(gain_db)` */
  function RowKeyframe(row: Row, conv: Parsers): Result<Keyframe>
  {
    var start :- PyInt(row.0, conv);
    var peak :- PyInt(row.1, conv);
    var end :- PyInt(row.2, conv);
    var gain :- PyFloat(row.3, conv);
    Ok(Keyframe(start, peak, end, gain))
  }

  predicate CoveredBy(rows: seq<Row>, t: int, n: nat, conv: Parsers)
  {
    exists i :: 0 <= i < |rows| && RowKeyframe(rows[i], conv).Ok? && Covers(RowKeyframe(rows[i], conv).value, t, n)
  }

  /** The gain envelope: groups applied in list order, each overwriting what it covers. */
  function Envelope(env: Signal, rows: seq<Row>, amp: real -> real, conv: Parsers): (r: Result<Signal>)
    ensures r.Ok? ==> |r.value| == |env|
    ensures r.Ok? ==> forall t :: 0 <= t < |env| && !CoveredBy(rows, t, |env|, conv) ==> r.value[t] == env[t]
    decreases |rows|
  {
    if |rows| == 0 then Ok(env)
    else
      var k :- RowKeyframe(rows[0], conv);
      var env1 :- ApplyKeyframe(env, k, amp);
      var r := Envelope(env1, rows[1..], amp, conv);
      assert r.Ok? ==> forall t :: 0 <= t < |env| && !CoveredBy(rows, t, |env|, conv) ==> !CoveredBy(rows[1..], t, |env|, conv) by {
        forall t | 0 <= t < |env| && CoveredBy(rows[1..], t, |env|, conv)
          ensures CoveredBy(rows, t, |env|, conv)
        {
          var i :| 0 <= i < |rows[1..]| && RowKeyframe(rows[1..][i], conv).Ok? && Covers(RowKeyframe(rows[1..][i], conv).value, t, |env|);
          assert rows[i + 1] == rows[1..][i];
        }
      }
      assert forall t :: 0 <= t < |env| && !CoveredBy(rows, t, |env|, conv) ==> !Covers(k, t, |env|) by {
        assert rows[0] == rows[0];
        forall t | 0 <= t < |env| && Covers(k, t, |env|)
          ensures CoveredBy(rows, t, |env|, conv)
        {
          assert RowKeyframe(rows[0], conv).Ok? && Covers(RowKeyframe(rows[0], conv).value, t, |env|);
        }
      }
      r
  }

  lemma {:induction false} EnvelopeAppend(env: Signal, a: seq<Row>, b: seq<Row>, amp: real -> real, conv: Parsers)
    ensures Envelope(env, a + b, amp, conv) ==
              match Envelope(env, a, amp, conv)
              case Ok(e) => Envelope(e, b, amp, conv)
              case Failure(err) => Failure(err)
    decreases |a|
  {
    if |a| > 0 {
      assert (a + b)[0] == a[0];
      assert (a + b)[1..] == a[1..] + b;
      var k := RowKeyframe(a[0], conv);
      if k.Ok? {
        var e1 := ApplyKeyframe(env, k.value, amp);
        if e1.Ok? {
          EnvelopeAppend(e1.value, a[1..], b, amp, conv);
        }
      }
    } else {
      assert a + b == b;
    }
  }

  /** Two envelopes of equal length run through the same groups succeed together and agree
      at every sample the groups cover, or at which they already agreed. */
  lemma {:induction false} EnvelopeAgrees(e: Signal, e': Signal, rows: seq<Row>, amp: real -> real, t: nat, conv: Parsers)
    requires |e| == |e'| && t < |e|
    ensures Envelope(e, rows, amp, conv).Ok? == Envelope(e', rows, amp, conv).Ok?
    ensures Envelope(e, rows, amp, conv).Ok? && (CoveredBy(rows, t, |e|, conv) || e[t] == e'[t]) ==>
              Envelope(e, rows, amp, conv).value[t] == Envelope(e', rows, amp, conv).value[t]
    decreases |rows|
  {
    if |rows| > 0 {
      var k := RowKeyframe(rows[0], conv);
      if k.Ok? {
        ApplyKeyframeShape(e, e', k.value, amp, t);
        var e1 := ApplyKeyframe(e, k.value, amp);
        var e1' := ApplyKeyframe(e', k.value, amp);
        if e1.Ok? {
          EnvelopeAgrees(e1.value, e1'.value, rows[1..], amp, t, conv);
          if CoveredBy(rows, t, |e|, conv) && !Covers(k.value, t, |e|) {
            var i :| 0 <= i < |rows| && RowKeyframe(rows[i], conv).Ok? && Covers(RowKeyframe(rows[i], conv).value, t, |e|);
            assert i > 0;
            assert rows[1..][i - 1] == rows[i];
            assert CoveredBy(rows[1..], t, |e|, conv);
          }
        }
      }
    }
  }

  /** Later groups overwrite earlier ones: where a later group writes, the earlier groups
      (and the starting envelope) leave no trace. */
  lemma LaterGroupsWin(env: Signal, earlier: seq<Row>, later: seq<Row>, amp: real -> real, t: nat, conv: Parsers)
    requires t < |env|
    requires Envelope(env, earlier + later, amp, conv).Ok?
    requires CoveredBy(later, t, |env|, conv)
    ensures Envelope(Ones(|env|), later, amp, conv).Ok?
    ensures Envelope(env, earlier + later, amp, conv).value[t] == Envelope(Ones(|env|), later, amp, conv).value[t]
  {
    EnvelopeAppend(env, earlier, later, amp, conv);
    var e := Envelope(env, earlier, amp, conv).value;
    EnvelopeAgrees(e, Ones(|env|), later, amp, t, conv);
  }

  function Ones(n: nat): (r: Signal)
    ensures |r| == n && forall i :: 0 <= i < n ==> r[i] == 1.0
  {
    seq(n, _ => 1.0)
  }

  /** `zip(start_list, peak_list, end_list, gain_db_list)`: each argument is iterated first
      (a list, tuple or set by its items, a dict by its keys, a string by its characters),
      so a number or `None` is a TypeError. */
  function LoudnessRows(lists: seq<Literal>): (r: Result<seq<Row>>)
    requires |lists| == 4
    ensures r.Ok? <==> forall k :: 0 <= k < 4 ==> PyIter(lists[k]).Ok?
    ensures r.Failure? ==> r.error == TypeError
    ensures r.Ok? ==> r.value == Zip4(PyIter(lists[0]).value, PyIter(lists[1]).value, PyIter(lists[2]).value, PyIter(lists[3]).value)
  {
    var s :- PyIter(lists[0]);
    var p :- PyIter(lists[1]);
    var e :- PyIter(lists[2]);
    var g :- PyIter(lists[3]);
    Ok(Zip4(s, p, e, g))
  }

  /** Any iterable serves as a list: a string, a set and a dict zip like lists, and the
      shortest decides the number of groups. */
  lemma LoudnessRowsIterate()
    ensures LoudnessRows([LStr("05"), LList([LBool(true)]), LSet([LInt(9)]), LDict([(LFloat(0.5), LOther)])])
            == Ok([(LStr("0"), LBool(true), LInt(9), LFloat(0.5))])
  {
    var s := PyIter(LStr("05")).value;
    assert |s| == 2 && s[0] == LStr(["05"[0]]) && "05"[0] == '0';
    var g := PyIter(LDict([(LFloat(0.5), LOther)])).value;
    assert |g| == 1 && g[0] == LFloat(0.5);
    var rows := Zip4(s, [LBool(true)], [LInt(9)], g);
    assert |rows| == 1 && rows[0] == (s[0], LBool(true), LInt(9), g[0]);
    assert LoudnessRows([LStr("05"), LList([LBool(true)]), LSet([LInt(9)]), LDict([(LFloat(0.5), LOther)])]) == Ok(rows);
    assert rows == [(LStr("0"), LBool(true), LInt(9), LFloat(0.5))];
  }

  /** Elementwise product of two signals of equal length. */
  function Modulate(x: Signal, env: Signal): (r: Signal)
    requires |env| == |x|
    ensures |r| == |x| && forall t :: 0 <= t < |x| ==> r[t] == Mul(x[t], env[t])
  {
    seq(|x|, t requires 0 <= t < |x| => Mul(x[t], env[t]))
  }

  /** `speech * gain_envelope`, the envelope starting from ones. Samples no group covers are
      kept as they were. */
  function LoudnessTransition(x: Signal, lists: seq<Literal>, amp: real -> real, conv: Parsers): (r: Result<Signal>)
    requires |lists| == 4
    ensures r.Ok? <==> LoudnessRows(lists).Ok? && Envelope(Ones(|x|), LoudnessRows(lists).value, amp, conv).Ok?
    ensures r.Ok? ==> r.value == Modulate(x, Envelope(Ones(|x|), LoudnessRows(lists).value, amp, conv).value)
    ensures r.Ok? ==> forall t :: 0 <= t < |x| && !CoveredBy(LoudnessRows(lists).value, t, |x|, conv) ==> r.value[t] == x[t]
  {
    var rows :- LoudnessRows(lists);
    var env :- Envelope(Ones(|x|), rows, amp, conv);
    Ok(Modulate(x, env))
  }

  predicate AllGainsZero(rows: seq<Row>, conv: Parsers)
  {
    forall i :: 0 <= i < |rows| ==> RowKeyframe(rows[i], conv).Ok? ==> RowKeyframe(rows[i], conv).value.gainDb == 0.0
  }

  predicate AllOnes(e: Signal)
  {
    forall t :: 0 <= t < |e| ==> e[t] == 1.0
  }

  lemma AssignOnes(env: Signal, a: int, b: int, vals: seq<real>)
    requires AllOnes(env) && forall i :: 0 <= i < |vals| ==> vals[i] == 1.0
    requires Assign(env, a, b, vals).Ok?
    ensures Assign(env, a, b, vals).value == env
  {
    var r := Assign(env, a, b, vals).value;
    forall t | 0 <= t < |env|
      ensures r[t] == env[t]
    {
      if InSlice(t, a, b, |env|) {
        if |vals| != 1 {
          assert 0 <= t - SliceLo(a, |env|) < |vals|;
        }
      }
    }
  }

  /** A 0 dB group writes gain 1 everywhere it covers. */
  lemma ApplyKeyframeZeroGain(env: Signal, k: Keyframe, amp: real -> real)
    requires amp(0.0) == 1.0 && k.gainDb == 0.0 && AllOnes(env)
    requires ApplyKeyframe(env, k, amp).Ok?
    ensures ApplyKeyframe(env, k, amp).value == env
  {
    var rise := Map(amp, Linspace(0.0, k.gainDb, k.peak - k.start));
    var fall := Map(amp, Linspace(k.gainDb, 0.0, k.end - k.peak));
    AssignOnes(env, k.start, k.peak, rise);
    AssignOnes(env, k.peak, k.end, fall);
  }

  lemma {:induction false} ZeroGainEnvelope(env: Signal, rows: seq<Row>, amp: real -> real, conv: Parsers)
    requires amp(0.0) == 1.0 && AllOnes(env) && AllGainsZero(rows, conv)
    requires Envelope(env, rows, amp, conv).Ok?
    ensures Envelope(env, rows, amp, conv).value == env
    decreases |rows|
  {
    if |rows| > 0 {
      var k := RowKeyframe(rows[0], conv).value;
      ApplyKeyframeZeroGain(env, k, amp);
      assert AllGainsZero(rows[1..], conv) by {
        forall i | 0 <= i < |rows[1..]| && RowKeyframe(rows[1..][i], conv).Ok?
          ensures RowKeyframe(rows[1..][i], conv).value.gainDb == 0.0
        {
          assert rows[1..][i] == rows[i + 1];
        }
      }
      ZeroGainEnvelope(env, rows[1..], amp, conv);
    }
  }

  /** A transition whose every group has gain 0 dB leaves the signal as it was. */
  lemma LoudnessZeroGainIdentity(x: Signal, lists: seq<Literal>, amp: real -> real, conv: Parsers)
    requires |lists| == 4 && amp(0.0) == 1.0
    requires LoudnessTransition(x, lists, amp, conv).Ok?
    requires forall v :: v in PyIter(lists[3]).value && PyFloat(v, conv).Ok? ==> PyFloat(v, conv).value == 0.0
    ensures LoudnessTransition(x, lists, amp, conv) == Ok(x)
  {
    var rows := LoudnessRows(lists).value;
    var g := PyIter(lists[3]).value;
    assert AllGainsZero(rows, conv) by {
      forall i | 0 <= i < |rows| && RowKeyframe(rows[i], conv).Ok?
        ensures RowKeyframe(rows[i], conv).value.gainDb == 0.0
      {
        assert rows[i].3 == g[i];
        assert g[i] in g;
      }
    }
    ZeroGainEnvelope(Ones(|x|), rows, amp, conv);
    var r := LoudnessTransition(x, lists, amp, conv).value;
    assert forall t :: 0 <= t < |x| ==> r[t] == Mul(x[t], 1.0);
    assert r == x;
  }

  /* ---------------------------------------------------------------------------------------
     Peak normalisation (wind_noise lines 156-161, process_one_sample lines 572-581)
     --------------------------------------------------------------------------------------- */

  /** `np.max(np.abs(x))`; numpy refuses the maximum of an empty array. */
  function PeakAbs(x: Signal): (r: Result<real>)
    ensures r.Failure? <==> |x| == 0
    ensures r.Failure? ==> r.error == ValueError
  {
    if |x| == 0 then Failure(ValueError)
    else if |x| == 1 then Ok(Abs(x[0]))
    else Ok(MaxR(Abs(x[0]), PeakAbs(x[1..]).value))
  }

  /** The peak bounds every sample's magnitude and is attained by one of them. */
  lemma {:induction false} PeakAbsBounds(x: Signal)
    requires |x| > 0
    ensures PeakAbs(x).value >= 0.0
    ensures forall i :: 0 <= i < |x| ==> Abs(x[i]) <= PeakAbs(x).value
    ensures exists i :: 0 <= i < |x| && Abs(x[i]) == PeakAbs(x).value
    decreases |x|
  {
    if |x| > 1 {
      PeakAbsBounds(x[1..]);
      assert forall i :: 1 <= i < |x| ==> x[i] == x[1..][i - 1];
      var j :| 0 <= j < |x[1..]| && Abs(x[1..][j]) == PeakAbs(x[1..]).value;
      assert x[j + 1] == x[1..][j];
    }
  }

  lemma MulLe(c: real, a: real, b: real)
    requires c >= 0.0 && a <= b
    ensures c * a <= c * b
  {
    assert c * b - c * a == c * (b - a);
  }

  lemma AbsScale(c: real, v: real)
    requires c >= 0.0
    ensures Abs(c * v) == c * Abs(v)
  {
    if v < 0.0 {
      MulLe(c, v, 0.0);
    } else {
      MulLe(c, 0.0, v);
    }
  }

  /** `max(np.max(np.abs(x0)), np.max(np.abs(x1)), ...)`, evaluated left to right. */
  function JointPeak(xs: seq<Signal>): (r: Result<real>)
    requires |xs| > 0
    ensures r.Failure? <==> exists k :: 0 <= k < |xs| && |xs[k]| == 0
    ensures r.Ok? ==> forall k :: 0 <= k < |xs| ==> PeakAbs(xs[k]).Ok? && PeakAbs(xs[k]).value <= r.value
    ensures r.Ok? ==> exists k :: 0 <= k < |xs| && PeakAbs(xs[k]) == Ok(r.value)
    decreases |xs|
  {
    var p :- PeakAbs(xs[0]);
    if |xs| == 1 then Ok(p)
    else
      var rest := JointPeak(xs[1..]);
      assert forall k :: 1 <= k < |xs| ==> xs[k] == xs[1..][k - 1];
      var q :- rest;
      Ok(MaxR(p, q))
  }

  /** `0.9 / peak`. It fails when one of the signals is empty, and is infinite when all of
      them are silent. */
  function PeakGain(xs: seq<Signal>): (r: Result<real>)
    requires |xs| > 0
    ensures r.Failure? <==> JointPeak(xs).Failure? || JointPeak(xs).value == 0.0
  {
    var m :- JointPeak(xs);
    if m == 0.0 then Failure(NonFinite) else Ok(0.9 / m)
  }

  lemma GainOfPeak(m: real)
    requires m > 0.0
    ensures 0.9 / m > 0.0 && (0.9 / m) * m == 0.9
  {
  }

  lemma SampleBound(g: real, m: real, v: real)
    requires g > 0.0 && Abs(v) <= m && g * m == 0.9
    ensures Abs(g * v) <= 0.9
  {
    AbsScale(g, v);
    MulLe(g, Abs(v), m);
  }

  lemma SampleAtPeak(g: real, m: real, v: real)
    requires g > 0.0 && Abs(v) == m && g * m == 0.9
    ensures Abs(g * v) == 0.9
  {
    AbsScale(g, v);
  }

  /** Scaling every signal by the joint gain leaves no sample louder than 0.9 and brings the
      loudest sample of all of them to exactly 0.9. */
  lemma PeakGainNormalises(xs: seq<Signal>)
    requires |xs| > 0 && PeakGain(xs).Ok?
    ensures PeakGain(xs).value > 0.0
    ensures forall k, i :: 0 <= k < |xs| && 0 <= i < |xs[k]| ==> Abs(Scale(PeakGain(xs).value, xs[k])[i]) <= 0.9
    ensures exists k, i :: 0 <= k < |xs| && 0 <= i < |xs[k]| && Abs(Scale(PeakGain(xs).value, xs[k])[i]) == 0.9
  {
    var m := JointPeak(xs).value;
    var k0 :| 0 <= k0 < |xs| && PeakAbs(xs[k0]) == Ok(m);
    PeakAbsBounds(xs[k0]);
    var i0 :| 0 <= i0 < |xs[k0]| && Abs(xs[k0][i0]) == m;
    forall k, i | 0 <= k < |xs| && 0 <= i < |xs[k]|
      ensures Abs(xs[k][i]) <= m
    {
      PeakAbsBounds(xs[k]);
    }
    NormaliseBy(xs, m, PeakGain(xs).value, k0, i0);
  }

  /** The same statement for a bound `m` given as a plain number. */
  lemma NormaliseBy(xs: seq<Signal>, m: real, g: real, k0: nat, i0: nat)
    requires m > 0.0 && g == 0.9 / m
    requires forall k, i :: 0 <= k < |xs| && 0 <= i < |xs[k]| ==> Abs(xs[k][i]) <= m
    requires k0 < |xs| && i0 < |xs[k0]| && Abs(xs[k0][i0]) == m
    ensures g > 0.0
    ensures forall k, i :: 0 <= k < |xs| && 0 <= i < |xs[k]| ==> Abs(Scale(g, xs[k])[i]) <= 0.9
    ensures Abs(Scale(g, xs[k0])[i0]) == 0.9
  {
    GainOfPeak(m);
    forall k, i | 0 <= k < |xs| && 0 <= i < |xs[k]|
      ensures Abs(Scale(g, xs[k])[i]) <= 0.9
    {
      SampleBound(g, m, xs[k][i]);
    }
    SampleAtPeak(g, m, xs[k0][i0]);
  }

  /* ---------------------------------------------------------------------------------------
     wind_noise (lines 115-193)
     --------------------------------------------------------------------------------------- */

  /** `np.min` */
  function MinOf(x: Signal): real
    requires |x| > 0
  {
    if |x| == 1 then x[0] else MinR(x[0], MinOf(x[1..]))
  }

  /** `np.max` */
  function MaxOf(x: Signal): real
    requires |x| > 0
  {
    if |x| == 1 then x[0] else MaxR(x[0], MaxOf(x[1..]))
  }

  lemma {:induction false} MinOfBounds(x: Signal)
    requires |x| > 0
    ensures forall i :: 0 <= i < |x| ==> MinOf(x) <= x[i]
    ensures exists i :: 0 <= i < |x| && MinOf(x) == x[i]
    decreases |x|
  {
    if |x| == 1 {
      assert MinOf(x) == x[0];
    } else {
      MinOfBounds(x[1..]);
      assert forall i :: 1 <= i < |x| ==> x[i] == x[1..][i - 1];
      var j :| 0 <= j < |x[1..]| && MinOf(x[1..]) == x[1..][j];
      if x[0] <= MinOf(x[1..]) {
        assert MinOf(x) == x[0];
      } else {
        assert MinOf(x) == x[j + 1];
      }
    }
  }

  lemma {:induction false} MaxOfBounds(x: Signal)
    requires |x| > 0
    ensures forall i :: 0 <= i < |x| ==> x[i] <= MaxOf(x)
    ensures exists i :: 0 <= i < |x| && MaxOf(x) == x[i]
    decreases |x|
  {
    if |x| == 1 {
      assert MaxOf(x) == x[0];
    } else {
      MaxOfBounds(x[1..]);
      assert forall i :: 1 <= i < |x| ==> x[i] == x[1..][i - 1];
      var j :| 0 <= j < |x[1..]| && MaxOf(x[1..]) == x[1..][j];
      if x[0] >= MaxOf(x[1..]) {
        assert MaxOf(x) == x[0];
      } else {
        assert MaxOf(x) == x[j + 1];
      }
    }
  }

  /** The maximum of the lower-clipped signal is the clipped maximum. */
  lemma MaxOfRaised(x: Signal, lo: real)
    requires |x| > 0
    ensures MaxOf(Raise(x, lo)) == MaxR(lo, MaxOf(x))
  {
    var raised := Raise(x, lo);
    MaxOfBounds(x);
    MaxOfBounds(raised);
    var m := MaxOf(x);
    var k :| 0 <= k < |x| && m == x[k];
    var j :| 0 <= j < |raised| && MaxOf(raised) == raised[j];
    assert raised[k] <= MaxOf(raised);
    assert x[j] <= m;
  }

  function Raise(x: Signal, lo: real): (r: Signal)
    ensures |r| == |x| && forall i :: 0 <= i < |x| ==> r[i] == MaxR(lo, x[i])
  {
    seq(|x|, i requires 0 <= i < |x| => MaxR(lo, x[i]))
  }

  function Lower(x: Signal, hi: real): (r: Signal)
    ensures |r| == |x| && forall i :: 0 <= i < |x| ==> r[i] == MinR(hi, x[i])
  {
    seq(|x|, i requires 0 <= i < |x| => MinR(hi, x[i]))
  }

  /** `clipping_threshold * np.min(x)` and `clipping_threshold * np.max(x)` */
  function ScaledMin(x: Signal, ct: real): real
    requires |x| > 0
  {
    Mul(ct, MinOf(x))
  }

  function ScaledMax(x: Signal, ct: real): real
    requires |x| > 0
  {
    Mul(ct, MaxOf(x))
  }

  /** Lower bound `ct·min(mix)` first, then upper bound `ct·max` of the lower-clipped mix.
      An empty mix has no minimum. */
  function WindClip(mix: Signal, clippingThreshold: real): (r: Result<Signal>)
    ensures r.Failure? <==> |mix| == 0
    ensures r.Ok? ==> |r.value| == |mix|
  {
    if |mix| == 0 then Failure(ValueError)
    else
      var raised := Raise(mix, ScaledMin(mix, clippingThreshold));
      Ok(Lower(raised, ScaledMax(raised, clippingThreshold)))
  }

  /** In closed form every sample is clipped to `[lo, ct·max(lo, max(mix))]` with
      `lo = ct·min(mix)`. */
  lemma WindClipClosedForm(mix: Signal, ct: real)
    requires |mix| > 0
    ensures var lo := ScaledMin(mix, ct);
            var hi := Mul(ct, MaxR(lo, MaxOf(mix)));
            forall i :: 0 <= i < |mix| ==> WindClip(mix, ct).value[i] == MinR(hi, MaxR(lo, mix[i]))
  {
    var lo := ScaledMin(mix, ct);
    var raised := Raise(mix, lo);
    MaxOfRaised(mix, lo);
    var hi := ScaledMax(raised, ct);
    assert hi == Mul(ct, MaxR(lo, MaxOf(mix)));
    var r := WindClip(mix, ct).value;
    assert r == Lower(raised, hi);
    forall i | 0 <= i < |mix|
      ensures r[i] == MinR(hi, MaxR(lo, mix[i]))
    {
      assert r[i] == MinR(hi, raised[i]);
    }
  }

  /** With threshold 1 the clipper changes nothing. */
  lemma WindClipUnitThreshold(mix: Signal)
    requires |mix| > 0
    ensures WindClip(mix, 1.0) == Ok(mix)
  {
    var r := WindClip(mix, 1.0).value;
    WindClipClosedForm(mix, 1.0);
    MinOfBounds(mix);
    MaxOfBounds(mix);
    forall i | 0 <= i < |mix|
      ensures r[i] == mix[i]
    {
      assert MinOf(mix) <= mix[i] <= MaxOf(mix);
    }
    assert r == mix;
  }

  /** For a threshold in [0, 1] and a mix that crosses zero, the clipped mix lies between the
      scaled extremes of the original. */
  lemma WindClipBounds(mix: Signal, ct: real)
    requires |mix| > 0 && 0.0 <= ct <= 1.0
    requires MinOf(mix) <= 0.0 <= MaxOf(mix)
    ensures forall i :: 0 <= i < |mix| ==> ScaledMin(mix, ct) <= WindClip(mix, ct).value[i] <= ScaledMax(mix, ct)
  {
    var lo := ScaledMin(mix, ct);
    var hi := Mul(ct, MaxR(lo, MaxOf(mix)));
    var r := WindClip(mix, ct).value;
    WindClipClosedForm(mix, ct);
    ClipArithmetic(ct, MinOf(mix), MaxOf(mix));
    assert lo <= hi && hi == ScaledMax(mix, ct);
    forall i | 0 <= i < |mix|
      ensures lo <= r[i] <= hi
    {
      assert r[i] == MinR(hi, MaxR(lo, mix[i]));
    }
  }

  lemma ClipArithmetic(ct: real, mn: real, mx: real)
    requires 0.0 <= ct && mn <= 0.0 <= mx
    ensures Mul(ct, mn) <= Mul(ct, MaxR(Mul(ct, mn), mx)) == Mul(ct, mx)
  {
    MulLe(ct, mn, 0.0);
    MulLe(ct, 0.0, mx);
  }

  datatype SidechainParams = SidechainParams(threshold: real, ratio: real, attack: real, release: real, scGain: real)

  /** Result of `wind_noise`: the compressed mix, the noise as read back from its wav file,
      and the speech buffer as the function leaves it after scaling it in place (the
      caller's buffer). */
  datatype WindOut = WindOut(mix: Signal, noise: Signal, carrier: Signal)

  /** The external steps of `wind_noise`: the ffmpeg sidechain compressor applied to the
      saved carrier and modulator and read back, and the save-and-read round trip of the
      noise wav file. */
  datatype WindTools = WindTools(sidechain: (Signal, Signal, SidechainParams) -> Signal, wavRoundTrip: Signal -> Signal)

  /** `wind_noise`: the noise prepared as for `mix_noise`, carrier and modulator normalised
      jointly to a 0.9 peak, the sidechain compressor run on them, the normalisation undone,
      and the optional two-sided clipper. With a lossless wav round trip the returned noise
      is exactly the prepared noise. */
  function WindNoise(speech: Signal, noise: Signal, snr: real, offset: nat, p: SidechainParams,
                     clipping: bool, clippingThreshold: real,
                     vad: Signal -> seq<bool>, num: Numerics, tools: WindTools): (r: Result<WindOut>)
    requires OffsetInRange(|noise|, |speech|, offset)
    ensures r.Ok? ==> ScaledNoise(speech, noise, snr, offset, vad, num).Ok?
    ensures r.Ok? ==> PeakGain([speech, ScaledNoise(speech, noise, snr, offset, vad, num).value]).Ok?
    ensures r.Ok? ==> r.value.carrier == Scale(PeakGain([speech, ScaledNoise(speech, noise, snr, offset, vad, num).value]).value, speech)
    ensures r.Ok? && clipping ==> exists m :: WindClip(m, clippingThreshold) == Ok(r.value.mix)
    ensures r.Ok? && (forall s :: tools.wavRoundTrip(s) == s) ==> r.value.noise == ScaledNoise(speech, noise, snr, offset, vad, num).value
  {
    var scaled :- ScaledNoise(speech, noise, snr, offset, vad, num);
    var g :- PeakGain([speech, scaled]);
    WindStages(speech, scaled, g, p, clipping, clippingThreshold, tools)
  }

  /** The steps of `wind_noise` after the gain `g` is known. */
  function WindStages(speech: Signal, scaled: Signal, g: real, p: SidechainParams,
                      clipping: bool, clippingThreshold: real, tools: WindTools): (r: Result<WindOut>)
    requires g != 0.0
    ensures r.Ok? ==> r.value.carrier == Scale(g, speech)
    ensures r.Ok? && clipping ==> exists m :: WindClip(m, clippingThreshold) == Ok(r.value.mix)
    ensures r.Ok? && (forall s :: tools.wavRoundTrip(s) == s) ==> r.value.noise == scaled
  {
    var carrier := Scale(g, speech);
    var modulator := Scale(g, scaled);
    var restored := Scale(1.0 / g, tools.sidechain(carrier, modulator, p));
    var mix :- if clipping then WindClip(restored, clippingThreshold) else Ok(restored);
    ScaleInverse(g, scaled);
    Ok(WindOut(mix, Scale(1.0 / g, tools.wavRoundTrip(modulator)), carrier))
  }
}
